=== FILE: README.md ===
# Page_Index post-retrieval pipeline in Dafny

This project models the question-answering core of the Page_Index service. That service does retrieval-augmented question answering over PDF documents. The model covers the pure logic between a vector search and the checked answer:

- **PDF processing** (`PdfProcessor`) turns each page's text spans into sections. A span in a large or bold font starts a new section when the open one has text, and otherwise renames it.
- **Retrieval** (`Retrieval`) takes the vector-store hits for a query and the database rows for them. It hydrates the rows into results in hit order.
- **Fusion** (`Fusion`) combines several ranked lists by weighted Reciprocal Rank Fusion.
- **Re-ranking** (`Reranker`) re-scores results with a cross-encoder, sorts them by the new score and optionally cuts the list.
- **Context packing** (`ContextPacker`) drops results below a relevance threshold, keeps the first result per (document, page), and packs greedily into a token budget.
- **Answering** (`Llm`) formats the context, picks the provider, asks it for an answer, and builds one citation per (file, page) of the results, whatever the answer text cites.
- **Citation validation** (`CitationValidator`) scans the answer for `[Document: name, Page n]` citations. It sorts them into verified and unverified lists against the sources, and computes the integrity ratio.

The supporting modules are:

- `Text`: Python's `strip`, `split`, `lower` and `str(int)`;
- `Seqs`: subsequences, first-occurrence de-duplication by key, a stable descending insertion sort, filter and map;
- `Results`: `Option` and `Result`.

Python exceptions become `Result` errors. Calls into a model, a database or a remote service become function parameters. The settings the code reads become parameters too.

Every operation is a pure function. Each is related to a partner:

- the fused list equals an independent per-id RRF score;
- the context packer's de-duplication is the generic `DedupBy`;
- the validator's two lists are filters of the found citations;
- the section builder conserves the page's body text;
- the printed citation is read back by the scanner unchanged.

## Model

| member | source | states |
|---|---|---|
| Fusion.Fuse | app/services/fusion.py:11-48 | No lists gives the empty list. A weight count that differs from the list count is the ValueError. A rank whose denominator `k + rank + 1` is zero is the ZeroDivisionError. Otherwise the result is the first-seen fused entries, stably sorted by fused score, descending. |
| Fusion.FusedIsReference | app/services/fusion.py:37-43 | The dict that the loop builds by `get(id, 0.0) + rrf_score` equals the reference: each id once, in first-seen order, with its weighted RRF sum over all lists. |
| Fusion.FuseFacts | app/services/fusion.py:28-48 | A successful fusion is sorted descending. Each score is the id's weighted sum of `w / (k + rank + 1)`. Ids are distinct. The ids are exactly those in the input lists, and there are as many as distinct input ids. Equal scores keep first-seen order. |
| Fusion.SafeKDenominators | app/services/fusion.py:42 | The fusion succeeds past its weight check exactly when no list position makes `k + rank + 1` zero. |
| Fusion.FuseSingleList | app/services/fusion.py:31-46 | One list of distinct ids with default weights keeps its order, and rank r scores `1 / (k + r + 1)`. |
| Fusion.HeavierListWins | app/services/fusion.py:39-46 | With two crossed lists, the list with the larger weight decides which id is ranked first. |
| Reranker.Rerank | app/services/reranker.py:40-89 | Each of these returns the input unchanged: reranking disabled, no results, no model, or `predict` failing. Otherwise the zipped (result, score) pairs are stably sorted by the cross-encoder score, descending, rescored, and cut to `top_n` when `top_n` is truthy. A cut to nothing raises at `reranked[0]` and falls back to the input with the new scores. |
| Reranker.Scored | app/services/reranker.py:67-85 | The `try` block, given the scores: a sorted, rescored list of the zip length, cut by a truthy `top_n`. An empty cut is the fallback. |
| Reranker.RerankFacts | app/services/reranker.py:72-82 | A non-empty re-ranking is sorted by the new scores and is a sub-multiset of the rescored input. Equal scores keep input order. Without a truthy `top_n` it is a permutation of the rescored input. |
| Reranker.RerankNoScores | app/services/reranker.py:72-89 | A model that returns no scores leads to the fallback, which returns the input as given. |
| Reranker.RerankCutToNothing | app/services/reranker.py:81-89 | A negative `top_n` that cuts away every pair makes `reranked[0]` fail. The result is the fallback list, already rescored. |
| ContextPacker.EstimateTokens | app/services/context_packer.py:16-22 | The estimate is 1.3 tokens per whitespace-separated word, rounded down: ten times the estimate is at most 13 times the word count, and ten times one more than the estimate exceeds it. |
| ContextPacker.EstimateTokensBounds | app/services/context_packer.py:16-22 | The token estimate is at least the number of whitespace-separated words, and at most 1.3 per character. |
| ContextPacker.EstimateOfWords | app/services/context_packer.py:16-22 | For words joined by single spaces, the estimate is `int(words * 1.3)`: at most 1.3 per word, and less than one token below it. |
| ContextPacker.NewPacker | app/services/context_packer.py:30-36 | A non-zero explicit budget or threshold is kept. Anything else, including an explicit 0 or 0.0, is replaced by the configured setting. |
| ContextPacker.NewPackerIntended | app/services/context_packer.py:30-36 | The corrected constructor: any explicit budget or threshold is kept, and only a missing one takes the setting. |
| ContextPacker.Pack | app/services/context_packer.py:38-102 | Empty input gives empty output with zero counts. A budget of 0 or below returns the input whole. Otherwise the packed results cost exactly `total_tokens`, which is within the budget. In every case the packed and dropped counts add up to the input length. |
| ContextPacker.PackFacts | app/services/context_packer.py:59-87 | Under a positive budget, the packed list is a subsequence of the input. Every packed result meets the threshold and has its own (document, page). Each packed result is the first result of its page above the threshold. `dropped_threshold` counts exactly the results below it. |
| ContextPacker.PackOrder | app/services/context_packer.py:59-87 | The packed list keeps input order and holds only results at or above the threshold. |
| ContextPacker.PackPages | app/services/context_packer.py:67-76 | No two packed results share a (document, page). Each is the first above-threshold result of its page. |
| ContextPacker.PackIsMaximal | app/services/context_packer.py:78-87 | Any de-duplicated result that was not packed would overflow the budget if added to the packed total. |
| ContextPacker.DedupPagesIsDedupBy | app/services/context_packer.py:67-76 | The `seen_pages` loop keeps the first result of each (document, page), in order. Its set is exactly the pages seen, and it drops the rest. |
| ContextPacker.ZeroBudgetTakesSetting | app/services/context_packer.py:35 | Asking for a budget of 0 builds the same packer as asking for none: both take the configured budget. |
| ContextPacker.ZeroBudgetIsNotUnlimited | app/services/context_packer.py:35 | With a budget of 0 as written, one relevant result costing more than the configured budget is dropped, not passed through as "unlimited". |
| ContextPacker.ZeroBudgetIntendedIsUnlimited | app/services/context_packer.py:51-53 | With the corrected constructor, a budget of 0 returns every result unchanged. |
| ContextPacker.ZeroThresholdTakesSetting | app/services/context_packer.py:36 | An explicit threshold of 0.0 is replaced by the configured threshold as written, and is kept by the corrected constructor. |
| ContextPacker.PackOneTooLarge | app/services/context_packer.py:78-95 | A single relevant result over a positive budget is the one budget drop, and the total stays 0. |
| ContextPacker.BudgetExample | test_04_04_05.py:32-45 | Three 100-word results on different pages cost 130 tokens each. The packer is built as the test builds it, with budget 250 and threshold 0.0, through the corrected constructor, which keeps the 0.0. Exactly the first result is packed, at 130 tokens, and two are dropped by the budget. |
| ContextPacker.PackDropsBelowThreshold | test_04_04_05.py:48-59 | Of two results, the one under the threshold is the single threshold drop, and the other is packed alone. |
| ContextPacker.PackDropsSamePage | test_04_04_05.py:62-76 | Of three results, where the second shares the first's page, the first and third are packed and one is dropped by the page de-duplication. This holds for any packer whose threshold all three meet and whose budget holds the first and third, such as the test's budget 10000 with threshold 0.0 as the corrected constructor keeps it. |
| Llm.FormatContext | app/services/llm.py:20-27 | No results give the empty context. One result gives its own labelled part alone, with no separator. |
| Llm.FormatContextSnoc | app/services/llm.py:22-27 | One more result appends `"\n\n---\n\n"` and that result's labelled part, numbered after the others. With FormatContext's cases for zero and one result, this fixes the whole block: the parts in result order, each pair split by exactly that separator. |
| Llm.FormatContextHasEverySection | app/services/llm.py:20-27 | The formatted context contains each result's labelled part: its `[Source i: file, Page p]` label and its content. |
| Llm.LabelsDistinct | app/services/llm.py:24 | Two source labels that are equal carry the same source number, so every section is told apart. |
| Llm.CreateProvider | app/services/llm.py:83-92 | The Gemini provider is chosen exactly when the lower-cased name is "gemini" and its package is installed. The ImportError is raised exactly when the package is missing. Every other name, "mock" or unknown, gives the mock provider. |
| Llm.CreateProviderIgnoresCase | app/services/llm.py:84-85 | The provider name is compared case-insensitively. |
| Llm.Generate | app/services/llm.py:38-72 | The mock provider always answers with its fixed text. The Gemini provider answers with what the remote call returns. |
| Llm.UserPromptHasContext | app/services/llm.py:111-112 | The user prompt contains the question and every labelled section of the context. |
| Llm.Snippet | app/services/llm.py:133 | A snippet is at most 153 characters. Content up to 150 characters is kept whole. Longer content gives its first 150 characters followed by "...". |
| Llm.GenerateAnswer | app/services/llm.py:94-139 | No results give the no-information answer without asking the provider. Otherwise the call fails exactly when the provider fails, and the answer is the provider's text. The citations are the first result of each (file, page), in order, whatever the provider said. There are at most as many citations as results, and no two share a page. |
| Llm.CitationsAreFirstPerPage | app/services/llm.py:122-134 | The `seen` loop builds exactly one citation from the first result of each (file, page), in first-appearance order. |
| Llm.CitationFacts | app/services/llm.py:122-134 | Citation pages are distinct, and every result's page is cited. Each citation is built from the first result with its page. |
| Llm.MockAlwaysAnswers | app/services/llm.py:41-46 | With the mock provider and non-empty results, every question, the empty one included, succeeds with the mock text and the citation list. |
| Llm.OnePageOneCitation | app/services/llm.py:122-134 | Results that all come from one page give exactly one citation, built from the first of them. |
| CitationValidator.MatchAt | app/services/citation_validator.py:13-16 | A match at the start of the text ends inside it, and has a non-empty name with no ',' or ']' and a non-empty digit run. |
| CitationValidator.FindAll | app/services/citation_validator.py:48 | Every citation that the left-to-right scan finds is well formed: a name group with no ',' or ']' and a run of digits. |
| CitationValidator.FindAllSound | app/services/citation_validator.py:13-16 | Every match that the scan reports is the pattern matched at some position of the answer. |
| CitationValidator.MatchAtShape | app/services/citation_validator.py:13-16 | The converse of MatchesAnyLayout. Whatever the scan accepts at a position is the pattern written out: '[', "Document" in any case, ':', name text without ',' or ']', ',', whitespace, "Page" in any case, whitespace, digits and ']'. The match holds that text's name group and the digits. |
| CitationValidator.MatchesAnyLayout | app/services/citation_validator.py:13-16 | The pattern matches in any letter case of "Document" and "Page", with any whitespace after ':' and ',' and before the number. The name group is the text up to ',' without its leading whitespace. The scan then resumes after the ']'. |
| CitationValidator.NameGroupOfStrips | app/services/citation_validator.py:62 | Stripping the captured name group gives the stripped name as written. |
| CitationValidator.CitationFound | app/services/citation_validator.py:13-16 | A citation printed as `[Document: name, Page n]` is found, with the name group and the digits of n, and the scan continues after it. |
| CitationValidator.PlainTextSkipped | app/services/citation_validator.py:48 | Text without '[' holds no citation and does not change what is found after it. |
| CitationValidator.CanonicalIsStable | app/services/citation_validator.py:61-64 | The reported `[Document: name, Page n]` string, scanned again, gives one citation with the same report and the same (name, page) key. |
| CitationValidator.NameGroupStrips | app/services/citation_validator.py:62-64 | The name group of a printed citation strips back to the name that was printed. |
| CitationValidator.ValidateFound | app/services/citation_validator.py:40-83 | No citations give integrity 1 when there are no sources, and 0 otherwise. Otherwise every citation lands in exactly one list, and the integrity is verified over found. The integrity always lies in [0, 1]. |
| CitationValidator.Validate | app/services/citation_validator.py:24-83 | `validate` on the answer text: the same cases as ValidateFound, over the citations the scan finds. |
| CitationValidator.ValidateIsFilter | app/services/citation_validator.py:58-69 | The verified list is exactly the found citations whose (lower-cased name, page) is a source, in order and printed canonically. The unverified list is exactly the rest. |
| CitationValidator.ClassifyIsFilter | app/services/citation_validator.py:58-69 | The loop's verified and unverified lists are the two filters of the citations by key membership, each mapped to its report. |
| CitationValidator.ClassifyMembers | app/services/citation_validator.py:58-69 | Every citation is reported in the list its key selects. The unverified list is empty exactly when every key is valid, and the verified list is empty exactly when none is. |
| CitationValidator.IntegrityBounds | app/services/citation_validator.py:71-72 | With citations present, integrity is 1 exactly when every cited (name, page) is a source, and 0 exactly when none is. |
| CitationValidator.ValidateOne | app/services/citation_validator.py:61-72 | A single found citation is verified, with integrity 1, exactly when its (lower-cased name, page) is a source; otherwise it is unverified with integrity 0. |
| CitationValidator.SingleCitation | app/services/citation_validator.py:24-83 | An answer that is one printed citation validates to that citation alone, verified with integrity 1 when its page is a source and unverified with integrity 0 when not. |
| CitationValidator.MixedCitations | test_04_04_05.py:109-121 | An answer with one citation of a source and one fabricated citation has the real one verified, the fabricated one unverified, and integrity 1/2. |
| Retrieval.SectionIds | app/services/retrieval.py:89-93 | The keys of `hit_map` are the hit ids, each once, in order of first hit. |
| Retrieval.Search | app/services/retrieval.py:84-133 | No hits give no results. Otherwise the results follow hit order, with distinct ids. An id has a result exactly when it is a hit with a database row. Each result is hydrated from the last row with its id and the last hit's score. |
| Retrieval.HitMapIsLast | app/services/retrieval.py:89-91 | `hit_map` holds exactly the hit ids, each with the score of its last hit. |
| Retrieval.ResultsMapIsLast | app/services/retrieval.py:107-119 | `results_map` holds exactly the hit ids that have a row, each hydrated from the last such row with its hit score. |
| Retrieval.LastScoreFound | app/services/retrieval.py:89-91 | A score is found for an id exactly when some hit has that id. |
| Retrieval.LastRowFound | app/services/retrieval.py:107-119 | A row is found for an id exactly when some row has that id, and the found row is one of the rows. |
| Retrieval.SearchFacts | app/services/retrieval.py:120-133 | The closing loop over `section_ids` keeps order and distinctness, and drops exactly the ids with no row. |
| Retrieval.Hydrate | app/services/retrieval.py:110-119 | A hydrated result carries the row's section id and the looked-up score. |
| PdfProcessor.ProcessPage | app/services/pdf_processor.py:22-66 | A page is numbered from 1 and has at least one section. Sections are indexed 0, 1, 2, … Every section but the last has non-blank content. The contents together are exactly the page's body spans, stripped, each followed by a space. Every title is the page introduction or the text of a header span. |
| PdfProcessor.ProcessPdf | app/services/pdf_processor.py:15-69 | One entry per page, in order, numbered from 1. Each entry has the sections of its page. |
| PdfProcessor.BuildFacts | app/services/pdf_processor.py:32-57 | The span loop keeps sections indexed in order with non-blank closed contents. It conserves the body text and takes titles only from header spans. |
| PdfProcessor.BlankSpansIgnored | app/services/pdf_processor.py:36-38 | Spans whose text strips to nothing change nothing: the page reads as if they were absent. |
| PdfProcessor.HeaderOnEmptyRetitles | app/services/pdf_processor.py:53-55 | A header while the open section has no content only renames that section. |
| PdfProcessor.HeaderAfterTextOpensSection | app/services/pdf_processor.py:44-52 | A header after content closes the open section and opens a new one, titled by the header and indexed next. |
| PdfProcessor.EmptyPage | app/services/pdf_processor.py:22-30 | A page without text has exactly its empty introduction section. |
| PdfProcessor.TextThenHeader | app/services/pdf_processor.py:32-61 | A body span followed by a header gives two sections: the introduction holding the text, and the header's empty section. |
| PdfProcessor.DefaultHeaders | app/services/pdf_processor.py:12-13 | With `PDFProcessor()`'s default of 12.0, a span is a header exactly when it is at least 12 points or has bit 4 of its flags set. |
| PdfProcessor.BoldIsBitFour | app/services/pdf_processor.py:42-43 | `flags & 2**4` is set exactly when `flags % 32 >= 16`. |
| Text.Strip | app/services/pdf_processor.py:36 | `strip()` returns a trimmed text no longer than its input. |
| Text.StripPadded | app/services/citation_validator.py:62 | `strip()` of whitespace, trimmed text and whitespace is exactly that text. |
| Text.JoinSnoc | app/services/llm.py:27 | `sep.join` of one more part is the join of the others, the separator, and that part. |
| Text.SplitJoinSpaces | app/services/context_packer.py:22 | `split()` of words joined by single spaces gives the words back. |
| Text.LowerIdempotent | app/services/citation_validator.py:43 | Lower-casing twice is lower-casing once, and no upper-case letter remains. |
| Text.ParseNatToString | app/services/citation_validator.py:63-64 | `int(str(n)) == n` for every natural number. Python promises this only below 10^4300, because of its digit limit on conversions; see "## Left out". |

## Left out

- The I/O and models around the core are parameters or absent. This covers the embedding model, the Qdrant query, the SQL join, PyMuPDF, the cross-encoder and the Gemini client.
- Retrieval.Search: takes the hit list and the joined rows as inputs. The embedding, the vector query with its `top_k` limit and the join are not modelled. The SQL `IN` filter is modelled by skipping rows whose id is not a hit, so the `hit_map.get(..., 0.0)` default (retrieval.py:118) is never used.
- PdfProcessor.ProcessPdf: PyMuPDF's `page.get_text("dict")` becomes a list of blocks of lines of spans (text, size, flags). A block without lines is a block with none. Opening and closing the document is not modelled.
- Reranker.Rerank: the lazily loaded cross-encoder is an optional `predict` function. `Some` is success and `None` is any exception.
- Reranker.Rerank: the source mutates the callers' result objects in place. On the fallback after a failed `predict` (reranker.py:87-89), it returns the same list, whose objects already carry the new scores. The model returns fresh records, so the aliasing is gone. The one observable case, a `top_n` that cuts everything, is modelled as Mutated.
- Reranker.Rerank: `settings.RERANKER_ENABLED` is not defined in app/core/config.py, so the source raises AttributeError there. The model takes it as the `enabled` parameter.
- ContextPacker.NewPacker: `settings.CONTEXT_TOKEN_BUDGET` and `settings.MIN_RELEVANCE_THRESHOLD` are not defined in app/core/config.py, so the source raises AttributeError whenever it falls back to them. The model takes them as parameters.
- Fusion.Fuse: floats are modelled as `real`, so rounding, infinities and NaN are lost. A sort key with NaN is not modelled.
- Reranker.Rerank: cross-encoder scores are `real`, and `float(ce_score)` is the identity.
- ContextPacker.Pack: scores and the threshold comparison are over `real`. `int(n * 1.3)` is computed exactly as `13 * n / 10`, with no float rounding.
- CitationValidator.Validate: the integrity is an exact ratio (verified, found) in place of a float. `round(integrity, 4)` is not modelled.
- CitationValidator.ValidateFound: reads every page number with ParseDigits, whatever its length. CPython 3.11 and later (and the 2022 security releases) refuse to convert a string of more than `sys.get_int_max_str_digits()` digits, 4300 by default. So `int(page_str)` at citation_validator.py:63 raises ValueError for a page number that long, and `validate` fails. The model returns a validation there instead, because the limit is an interpreter setting and not part of the service's logic.
- CitationValidator.Validate: the same digit limit. An answer that cites `[Document: a, Page n]` with more than 4300 digits in n raises ValueError in the source, but the model validates it.
- Text.ParseNatToString: the round trip holds for every natural number. In Python, `str(n)` and `int(...)` raise past the same 4300-digit limit.
- CitationValidator.Validate: the `else 1.0` in citation_validator.py:72 is dead code. That line runs only when at least one citation was found, so `total > 0` always holds there.
- Text.Strip: only the ASCII characters `str.isspace` accepts count as whitespace: space, tab, newline, vertical tab, form feed, carriage return and \x1c-\x1f. Python also strips Unicode whitespace.
- Text.Split: splits on the same ASCII whitespace only.
- Text.Lower: maps only 'A'-'Z'. Python lower-cases all of Unicode.
- CitationValidator.FindAll: the pattern's `\s` is the same ASCII whitespace, and `\d` is only '0'-'9'. `re.IGNORECASE` is modelled for the ASCII letters of "Document" and "Page".
- Fusion.Fuse: the `logger.info` call is dropped.
- Reranker.Rerank: the `logger.info`, `warning` and `error` calls are dropped.
- ContextPacker.Pack: the `logger.info` call is dropped.
- Llm: `LLMService.__init__`, the API key and the model name are not modelled. The Gemini `generate` call is a parameter that returns `None` on failure. The re-raised exception is the error GenerationFailed.
- Llm.GenerateAnswer: `section_title` may be `None` in the source and is an `Option` here. The answer dict becomes the `Answer` datatype.
- Retrieval: `RetrievalResult.to_dict`, the orphan-id warning loop and the `RetrievalService` constructor have no logic beyond I/O and are not modelled.

## Findings

| source | as written | input that shows it | evidently intended | confidence | as-written member | corrected member |
|---|---|---|---|---|---|---|
| app/services/context_packer.py:35-36 | `token_budget or settings.CONTEXT_TOKEN_BUDGET` replaces an explicit budget of 0 with the setting, and `min_relevance or …` does the same to a threshold of 0.0. The "0 means unlimited" branch (line 51-53) is then reachable only through the setting. test_04_04_05.py:79-89 passes `token_budget=0, min_relevance=0.0` and expects every result back. | `ContextPacker(token_budget=0, min_relevance=0.0)` with one relevant result costing more than the configured budget: the result is dropped. | An explicit 0 budget means unlimited, and an explicit 0.0 threshold keeps everything. Only a missing argument takes the setting (`is None`). | not executed | ContextPacker.NewPacker, with ContextPacker.ZeroBudgetIsNotUnlimited, ContextPacker.ZeroBudgetTakesSetting and ContextPacker.ZeroThresholdTakesSetting | ContextPacker.NewPackerIntended, with ContextPacker.ZeroBudgetIntendedIsUnlimited and ContextPacker.ZeroThresholdTakesSetting |

=== FILE: citation_validator.dfy ===
/**
 The citation check (app/services/citation_validator.py): every
 `[Document: <name>, Page <n>]` in a generated answer is found with the
 pattern `\[Document:\s*([^,\]]+),\s*Page\s*(\d+)\]` (case-insensitive), and
 sorted into verified and unverified by whether its (name, page) is among
 the sources. The pattern is modelled as the scan the regex engine performs;
 whitespace, digits and case are ASCII.
 */
module CitationValidator {
  import opened Results
  import opened Seqs
  import opened Text

  // ---------------------------------------------------------------------------
  // The pattern.
  // ---------------------------------------------------------------------------

  /** The length of the longest prefix of `s` whose characters all satisfy `p`. */
  function Run(s: string, p: char -> bool): (n: nat)
    ensures n <= |s|
    decreases |s|
  {
    if |s| > 0 && p(s[0]) then 1 + Run(s[1..], p) else 0
  }

  /** Every character of the run satisfies `p`, and the one after it, if any, does not. */
  lemma {:induction false} RunFacts(s: string, p: char -> bool)
    ensures forall k :: 0 <= k < Run(s, p) ==> p(s[k])
    ensures Run(s, p) == |s| || !p(s[Run(s, p)])
    decreases |s|
  {
    if |s| > 0 && p(s[0]) {
      RunFacts(s[1..], p);
      forall k | 0 < k < Run(s, p)
        ensures p(s[k])
      {
        assert s[k] == s[1..][k - 1];
      }
    }
  }

  /** A run over a prefix that satisfies `p` throughout carries on into what follows. */
  lemma {:induction false} RunAppend(a: string, b: string, p: char -> bool)
    requires forall k :: 0 <= k < |a| ==> p(a[k])
    ensures Run(a + b, p) == |a| + Run(b, p)
    decreases |a|
  {
    if |a| > 0 {
      assert (a + b)[0] == a[0];
      assert (a + b)[1..] == a[1..] + b;
      RunAppend(a[1..], b, p);
    } else {
      assert a + b == b;
    }
  }

  /** A character the name group `[^,\]]` accepts. */
  predicate NameChar(c: char)
  {
    c != ',' && c != ']'
  }

  /** `s` starts with the lower-case ASCII word `w`, in any case. */
  predicate WordAt(s: string, w: string)
  {
    |w| <= |s| && forall k :: 0 <= k < |w| ==> LowerChar(s[k]) == w[k]
  }

  /** The two groups of one match: the document name and the page digits. */
  datatype Match = Match(name: string, digits: string)

  /** A match and the position just after it. */
  datatype Found = Found(m: Match, end: nat)

  /** What any match of the pattern yields: a name group and a digit group, neither empty. */
  ghost predicate WellFormed(m: Match)
  {
    && |m.name| > 0 && (forall k :: 0 <= k < |m.name| ==> NameChar(m.name[k]))
    && |m.digits| > 0 && AllDigits(m.digits)
  }

  /** `s` starts with "[Document:", the letters in any case. */
  predicate Opens(s: string)
  {
    10 <= |s| && s[0] == '[' && WordAt(s[1..], "document") && s[9] == ':'
  }

  /**
   The name group drawn from the text `x` between "[Document:" and the ',':
   `x` without its leading whitespace, or its last character when it is all
   whitespace (the one character `\s*` gives back to the group).
   */
  function NameGroupOf(x: string): (g: string)
    requires |x| > 0
    ensures 0 < |g| <= |x| && g == x[|x| - |g|..]
  {
    var lead := Run(x, IsSpace);
    if lead < |x| then x[lead..] else x[|x| - 1..]
  }

  /** The page digits of a match and the length of the page part, ']' included. */
  datatype PageRef = PageRef(digits: string, end: nat)

  /** The page part, read just after the ',': optional whitespace, "Page", optional whitespace, digits, ']'. */
  function PageAt(u: string): (r: Option<PageRef>)
    ensures r.Some? ==> 0 < r.value.end <= |u| && |r.value.digits| > 0 && AllDigits(r.value.digits)
  {
    var a := Run(u, IsSpace);
    var v := u[a..];
    if !WordAt(v, "page") then None
    else
      var w := v[4..];
      var b := Run(w, IsSpace);
      var y := w[b..];
      var d := Run(y, IsDigit);
      RunFacts(y, IsDigit);
      if 0 < d < |y| && y[d] == ']' then Some(PageRef(y[..d], a + 4 + b + d + 1)) else None
  }

  /** The page part at the start of `u` reads `digits` and is `n` characters long. */
  predicate PageIs(u: string, digits: string, n: nat)
  {
    PageAt(u).Some? && PageAt(u).value.digits == digits && PageAt(u).value.end == n
  }

  /**
   The pattern after "[Document:": the text up to the first ',' or ']' must
   be non-empty and followed by ','; the name group is taken from it, and the
   page part follows the ','. The end is counted from the start of `t`.
   */
  function MatchRest(t: string): (r: Option<Found>)
    ensures r.Some? ==> 0 < r.value.end <= |t| && WellFormed(r.value.m)
  {
    var e := Run(t, NameChar);
    if e == 0 || e == |t| || t[e] != ',' then None
    else
      match PageAt(t[e + 1..])
      case None => None
      case Some(p) =>
        NameRunChars(t, e);
        Some(Found(Match(NameGroupOf(t[..e]), p.digits), e + 1 + p.end))
  }

  /** The pattern matched at the start of `s`: "[Document:" in any case, then the rest of the pattern. */
  function MatchAt(s: string): (r: Option<Found>)
    ensures r.Some? ==> 0 < r.value.end <= |s| && WellFormed(r.value.m)
  {
    if !Opens(s) then None
    else
      match MatchRest(s[10..])
      case None => None
      case Some(f) => Some(Found(f.m, 10 + f.end))
  }

  /** The name group drawn from a name run holds only characters the run accepts. */
  lemma NameRunChars(t: string, e: nat)
    requires 0 < e <= |t| && Run(t, NameChar) == e
    ensures forall k :: 0 <= k < |NameGroupOf(t[..e])| ==> NameChar(NameGroupOf(t[..e])[k])
  {
    RunFacts(t, NameChar);
    var x := t[..e];
    assert forall k :: 0 <= k < |x| ==> x[k] == t[k];
    SuffixNameChars(x, NameGroupOf(x));
  }

  /** A suffix of a text of name characters holds only name characters. */
  lemma SuffixNameChars(x: string, g: string)
    requires |g| <= |x| && g == x[|x| - |g|..]
    requires forall k :: 0 <= k < |x| ==> NameChar(x[k])
    ensures forall k :: 0 <= k < |g| ==> NameChar(g[k])
  {
    forall k | 0 <= k < |g|
      ensures NameChar(g[k])
    {
      assert g[k] == x[|x| - |g| + k];
    }
  }

  /** `CITATION_PATTERN.findall(s)`: leftmost matches, each search resuming where the last match ended. */
  function FindAll(s: string): (ms: seq<Match>)
    ensures forall i :: 0 <= i < |ms| ==> WellFormed(ms[i])
    decreases |s|
  {
    if |s| == 0 then []
    else
      var r := MatchAt(s);
      if r.Some? then [r.value.m] + FindAll(s[r.value.end..]) else FindAll(s[1..])
  }

  // ---------------------------------------------------------------------------
  // Validation.
  // ---------------------------------------------------------------------------

  /** One entry of `context_sources`. */
  datatype Source = Source(documentName: string, pageNumber: int)

  /** A source as `valid_sources` records it: stripped, lower-cased name and page. */
  function SourceKey(src: Source): (string, int)
  {
    (Lower(Strip(src.documentName)), src.pageNumber)
  }

  /** A citation as it is looked up: stripped, lower-cased name and the page as a number. */
  function CitedKey(m: Match): (string, int)
  {
    (Lower(Strip(m.name)), ParseDigits(m.digits))
  }

  /** `f"[Document: {name}, Page {page}]"`: the form the citation is reported in. */
  function CitationString(name: string, page: nat): string
  {
    "[Document: " + name + ", Page " + NatToString(page) + "]"
  }

  /** The reported form of a match: the stripped name and the page without leading zeros. */
  function Canonical(m: Match): string
  {
    CitationString(Strip(m.name), ParseDigits(m.digits))
  }

  /** The state of the sorting loop. */
  datatype Sorted = Sorted(verified: seq<string>, unverified: seq<string>)

  /**
   The loop over the matches: each match's reported form goes to one of the
   two lists by whether its key is valid. The loop is written for any key and
   report function; `validate` runs it with `CitedKey` and `Canonical`.
   */
  function Classify(ms: seq<Match>, valid: set<(string, int)>,
                    key: Match -> (string, int), report: Match -> string): Sorted
    decreases |ms|
  {
    if |ms| == 0 then Sorted([], [])
    else
      var c := Classify(ms[..|ms| - 1], valid, key, report);
      var m := ms[|ms| - 1];
      if key(m) in valid then Sorted(c.verified + [report(m)], c.unverified)
      else Sorted(c.verified, c.unverified + [report(m)])
  }

  lemma {:induction false} ClassifyCount(ms: seq<Match>, valid: set<(string, int)>,
                                         key: Match -> (string, int), report: Match -> string)
    ensures |Classify(ms, valid, key, report).verified| + |Classify(ms, valid, key, report).unverified| == |ms|
    decreases |ms|
  {
    if |ms| > 0 {
      ClassifyCount(ms[..|ms| - 1], valid, key, report);
    }
  }

  /**
   The integrity score `num / den`, kept as the exact fraction: the float the
   code computes, before rounding, is `num as real / den as real`.
   */
  datatype Ratio = Ratio(num: nat, den: nat)

  /** A share between 0 and 1: a fraction with a positive denominator and a numerator no larger. */
  predicate InUnit(q: Ratio)
  {
    0 < q.den && q.num <= q.den
  }

  /** The fraction equals 1.0. */
  predicate IsOne(q: Ratio)
  {
    q.num == q.den
  }

  /** The fraction equals 0.0. */
  predicate IsZero(q: Ratio)
  {
    q.num == 0
  }

  /** The result of `validate`. */
  datatype Validation = Validation(verified: seq<string>, unverified: seq<string>, integrity: Ratio)

  /** `validate` once the citations have been found. */
  function ValidateFound(found: seq<Match>, sources: seq<Source>): (r: Validation)
    ensures |found| == 0 ==> r == Validation([], [], if |sources| == 0 then Ratio(1, 1) else Ratio(0, 1))
    ensures |found| > 0 ==>
      && |r.verified| + |r.unverified| == |found|
      && r.integrity == Ratio(|r.verified|, |found|)
    ensures InUnit(r.integrity)
  {
    if |found| == 0 then Validation([], [], if |sources| == 0 then Ratio(1, 1) else Ratio(0, 1))
    else
      var c := Classify(found, KeySet(sources, SourceKey), CitedKey, Canonical);
      ClassifyCount(found, KeySet(sources, SourceKey), CitedKey, Canonical);
      // `total` is the number of citations found, so the source's `else 1.0` is never reached.
      var total := |c.verified| + |c.unverified|;
      Validation(c.verified, c.unverified, Ratio(|c.verified|, total))
  }

  /**
   `validate(answer, context_sources)`. No citation: integrity 1.0 when there
   are no sources either, else 0.0. Otherwise each citation is verified or
   not, and the integrity is the verified share.
   */
  function Validate(answer: string, sources: seq<Source>): (r: Validation)
    ensures |FindAll(answer)| == 0 ==> r == Validation([], [], if |sources| == 0 then Ratio(1, 1) else Ratio(0, 1))
    ensures |FindAll(answer)| > 0 ==>
      && |r.verified| + |r.unverified| == |FindAll(answer)|
      && r.integrity == Ratio(|r.verified|, |FindAll(answer)|)
    ensures InUnit(r.integrity)
  {
    ValidateFound(FindAll(answer), sources)
  }

  // ---------------------------------------------------------------------------
  // The two lists against a filter over the matches.
  // ---------------------------------------------------------------------------

  /**
   The verified list of `validate` holds the reported form of each citation
   found whose key names a source, in answer order; the unverified list holds
   that of each other citation found.
   */
  lemma ValidateIsFilter(found: seq<Match>, sources: seq<Source>)
    requires |found| > 0
    ensures var key: Match -> (string, int) := CitedKey;
      var valid := KeySet(sources, SourceKey);
      && ValidateFound(found, sources).verified == Map(Filter(found, m => key(m) in valid), Canonical)
      && ValidateFound(found, sources).unverified == Map(Filter(found, m => key(m) !in valid), Canonical)
  {
    ClassifyIsFilter(found, KeySet(sources, SourceKey), CitedKey, Canonical);
  }

  /**
   The verified list is the reported form of every match whose key is
   valid, in answer order; the unverified list is that of every other match.
   */
  lemma {:induction false} ClassifyIsFilter(ms: seq<Match>, valid: set<(string, int)>,
                                            key: Match -> (string, int), report: Match -> string)
    ensures Classify(ms, valid, key, report).verified == Map(Filter(ms, m => key(m) in valid), report)
    ensures Classify(ms, valid, key, report).unverified == Map(Filter(ms, m => key(m) !in valid), report)
    decreases |ms|
  {
    if |ms| > 0 {
      var p := ms[..|ms| - 1];
      var m := ms[|ms| - 1];
      ClassifyIsFilter(p, valid, key, report);
      assert ms == p + [m];
      FilterSnoc(p, m, m => key(m) in valid);
      FilterSnoc(p, m, m => key(m) !in valid);
      MapSnoc(Filter(p, m => key(m) in valid), m, report);
      MapSnoc(Filter(p, m => key(m) !in valid), m, report);
    }
  }

  /** Every match is reported in the list its key selects; a list is empty exactly when no key selects it. */
  lemma {:induction false} ClassifyMembers(ms: seq<Match>, valid: set<(string, int)>,
                                           key: Match -> (string, int), report: Match -> string)
    ensures forall i :: 0 <= i < |ms| && key(ms[i]) in valid ==> report(ms[i]) in Classify(ms, valid, key, report).verified
    ensures forall i :: 0 <= i < |ms| && key(ms[i]) !in valid ==> report(ms[i]) in Classify(ms, valid, key, report).unverified
    ensures |Classify(ms, valid, key, report).unverified| == 0 <==> forall i :: 0 <= i < |ms| ==> key(ms[i]) in valid
    ensures |Classify(ms, valid, key, report).verified| == 0 <==> forall i :: 0 <= i < |ms| ==> key(ms[i]) !in valid
    decreases |ms|
  {
    if |ms| > 0 {
      var p := ms[..|ms| - 1];
      ClassifyMembers(p, valid, key, report);
      forall i | 0 <= i < |ms|
        ensures key(ms[i]) in valid ==> report(ms[i]) in Classify(ms, valid, key, report).verified
        ensures key(ms[i]) !in valid ==> report(ms[i]) in Classify(ms, valid, key, report).unverified
      {
        if i < |p| {
          assert ms[i] == p[i];
        }
      }
      if forall i :: 0 <= i < |ms| ==> key(ms[i]) in valid {
        assert forall i :: 0 <= i < |p| ==> key(p[i]) in valid by {
          forall i | 0 <= i < |p|
            ensures key(p[i]) in valid
          {
            assert p[i] == ms[i];
          }
        }
      }
      if forall i :: 0 <= i < |ms| ==> key(ms[i]) !in valid {
        assert forall i :: 0 <= i < |p| ==> key(p[i]) !in valid by {
          forall i | 0 <= i < |p|
            ensures key(p[i]) !in valid
          {
            assert p[i] == ms[i];
          }
        }
      }
    }
  }

  /**
   With at least one citation found, the integrity is 1.0 exactly when every
   citation names a source page, and 0.0 exactly when none does.
   */
  lemma IntegrityBounds(found: seq<Match>, sources: seq<Source>)
    requires |found| > 0
    ensures IsOne(ValidateFound(found, sources).integrity) <==>
      forall i :: 0 <= i < |found| ==> CitedKey(found[i]) in KeySet(sources, SourceKey)
    ensures IsZero(ValidateFound(found, sources).integrity) <==>
      forall i :: 0 <= i < |found| ==> CitedKey(found[i]) !in KeySet(sources, SourceKey)
  {
    var valid := KeySet(sources, SourceKey);
    ClassifyMembers(found, valid, CitedKey, Canonical);
    ClassifyCount(found, valid, CitedKey, Canonical);
  }

  // ---------------------------------------------------------------------------
  // Finding the citations in a text.
  // ---------------------------------------------------------------------------

  /** Text without '[' holds no citation, and does not disturb the scan of what follows. */
  lemma {:induction false} PlainTextSkipped(t: string, rest: string)
    requires '[' !in t
    ensures FindAll(t + rest) == FindAll(rest)
    decreases |t|
  {
    if |t| > 0 {
      assert (t + rest)[0] == t[0];
      assert (t + rest)[1..] == t[1..] + rest;
      PlainTextSkipped(t[1..], rest);
    } else {
      assert t + rest == rest;
    }
  }

  /** A name the canonical form can carry: no ',' or ']', and no whitespace at either end. */
  ghost predicate PlainName(name: string)
  {
    (forall k :: 0 <= k < |name| ==> NameChar(name[k])) && Trimmed(name)
  }

  /** The name group the pattern reports for `CitationString(name, _)`. */
  function NameGroup(name: string): string
  {
    if |name| > 0 then name else " "
  }

  /** The name group strips back to the name it was printed from. */
  lemma NameGroupStrips(name: string)
    requires PlainName(name)
    ensures Strip(NameGroup(name)) == name
  {
    if |name| == 0 {
      StripPadded(" ", [], []);
      assert " " + [] + [] == " ";
    } else {
      StripTrimmed(name);
    }
  }

  /**
   The reported form of a citation is found again, in full, at the start of
   any text: the scan reads back its name and page.
   */
  lemma CitationFound(name: string, page: nat, rest: string)
    requires PlainName(name)
    ensures FindAll(CitationString(name, page) + rest) == [Match(NameGroup(name), NatToString(page))] + FindAll(rest)
  {
    var c := CitationString(name, page);
    CitationMatches(name, page, rest);
    assert (c + rest)[|c|..] == rest;
  }

  /** The pattern matches a reported citation exactly, whatever follows it. */
  lemma CitationMatches(name: string, page: nat, rest: string)
    requires PlainName(name)
    ensures var r := MatchAt(CitationString(name, page) + rest);
      r.Some? && r.value.m == Match(NameGroup(name), NatToString(page)) && r.value.end == |CitationString(name, page)|
  {
    var digits := NatToString(page);
    CitationSplits(name, page, rest);
    LayoutMatches(name, digits, rest);
  }

  /** The pattern on "[Document:" + " name, Page digits]" + rest, for any name and digits it accepts. */
  lemma LayoutMatches(name: string, digits: string, rest: string)
    requires PlainName(name) && |digits| > 0 && AllDigits(digits)
    ensures var r := MatchAt("[Document:" + (" " + name + (", Page " + digits + "]" + rest)));
      r.Some? && r.value.m == Match(NameGroup(name), digits) && r.value.end == 19 + |name| + |digits|
  {
    var t := " " + name + (", Page " + digits + "]" + rest);
    LayoutPieces(name, digits, rest);
    CitationOpens(t);
    OpenedMatchAt("[Document:" + t, t, 1 + |name|, NameGroup(name), digits, 7 + |digits|);
  }

  /** The name run, the name group and the page part of " name, Page digits]" + rest. */
  lemma LayoutPieces(name: string, digits: string, rest: string)
    requires PlainName(name) && |digits| > 0 && AllDigits(digits)
    ensures var t := " " + name + (", Page " + digits + "]" + rest);
      && Run(t, NameChar) == 1 + |name| && 1 + |name| < |t| && t[1 + |name|] == ','
      && NameGroupOf(t[..1 + |name|]) == NameGroup(name)
      && PageIs(t[1 + |name| + 1..], digits, 7 + |digits|)
  {
    var tail := ", Page " + digits + "]" + rest;
    var t := " " + name + tail;
    var e := 1 + |name|;
    NameRun(name, tail);
    NameGroupOfCitation(name);
    assert t[..e] == " " + name;
    assert t[e + 1..] == " Page " + digits + "]" + rest;
    CitationPage(digits, rest);
  }

  /** `CitationString(name, page) + rest` is "[Document:" followed by the rest of the layout. */
  lemma CitationSplits(name: string, page: nat, rest: string)
    ensures CitationString(name, page) + rest == "[Document:" + (" " + name + (", Page " + NatToString(page) + "]" + rest))
  {
  }

  /** How `MatchRest` reads `t` once the name run and the page part are known. */
  lemma RestShape(t: string, e: nat)
    requires Run(t, NameChar) == e && 0 < e < |t| && t[e] == ','
    requires PageAt(t[e + 1..]).Some?
    ensures var r := MatchRest(t);
      && r.Some? && r.value.m.name == NameGroupOf(t[..e]) && r.value.m.digits == PageAt(t[e + 1..]).value.digits
      && r.value.end == e + 1 + PageAt(t[e + 1..]).value.end
  {
  }

  /** "[Document:" opens a citation, and what follows it is `t`. */
  lemma CitationOpens(t: string)
    ensures Opens("[Document:" + t) && ("[Document:" + t)[10..] == t
  {
    var s := "[Document:" + t;
    assert s[1..][..8] == "Document";
  }

  /** The name run of `" " + name + ", ..."` stops at the ','. */
  lemma NameRun(name: string, tail: string)
    requires PlainName(name) && |tail| > 0 && tail[0] == ','
    ensures Run(" " + name + tail, NameChar) == 1 + |name|
  {
    RunAppend(" " + name, tail, NameChar);
  }

  /** A single space before text that does not start with whitespace is a run of one. */
  lemma SpaceThen(x: string)
    requires |x| > 0 && !IsSpace(x[0])
    ensures Run(" " + x, IsSpace) == 1 && (" " + x)[1..] == x
  {
    RunAppend(" ", x, IsSpace);
  }

  /** The name group of `" " + name` is the name, or a single space for an empty name. */
  lemma NameGroupOfCitation(name: string)
    requires PlainName(name)
    ensures NameGroupOf(" " + name) == NameGroup(name)
  {
    RunAppend(" ", name, IsSpace);
    if |name| > 0 {
      assert Run(name, IsSpace) == 0;
      assert (" " + name)[1..] == name;
    }
  }

  /** How `PageAt` reads `u` once its three runs are known. */
  lemma PageAtShape(u: string, v: string, w: string, y: string, a: nat, b: nat, d: nat)
    requires Run(u, IsSpace) == a && a <= |u| && v == u[a..] && WordAt(v, "page")
    requires w == v[4..] && Run(w, IsSpace) == b && b <= |w| && y == w[b..]
    requires Run(y, IsDigit) == d && 0 < d < |y| && y[d] == ']'
    ensures PageIs(u, y[..d], a + 4 + b + d + 1)
  {
  }

  /** The page part `" Page <digits>]"` of a citation, followed by anything. */
  lemma CitationPage(digits: string, rest: string)
    requires |digits| > 0 && AllDigits(digits)
    ensures PageIs(" Page " + digits + "]" + rest, digits, 7 + |digits|)
  {
    var y := digits + ("]" + rest);
    var w := " " + y;
    var v := "Page" + w;
    PageText(digits, rest);
    PageWordAt(w);
    SpaceThen(v);
    DigitsThen(digits, rest);
    SpaceThen(y);
    PageAtShape(" " + v, v, w, y, 1, 1, |digits|);
  }

  lemma PageText(digits: string, rest: string)
    ensures " Page " + digits + "]" + rest == " " + ("Page" + (" " + (digits + ("]" + rest))))
  {
  }

  lemma PageWordAt(w: string)
    ensures ("Page" + w)[0] == 'P' && WordAt("Page" + w, "page") && ("Page" + w)[4..] == w
  {
  }

  /** Digits closed by ']': a digit run of exactly their length. */
  lemma DigitsThen(digits: string, rest: string)
    requires |digits| > 0 && AllDigits(digits)
    ensures var y := digits + ("]" + rest);
      && !IsSpace(y[0]) && Run(y, IsDigit) == |digits| && y[|digits|] == ']' && y[..|digits|] == digits
  {
    RunAppend(digits, "]" + rest, IsDigit);
    assert Run("]" + rest, IsDigit) == 0;
  }

  /**
   The pattern in general: "[" and "Document" in any case, ':', the name
   text `x` (any characters but ',' and ']', whitespace included), ',',
   whitespace, "Page" in any case, whitespace, digits and ']'. The scan reads
   the name group of `x` and the digits, and resumes right after the ']';
   the name group strips to what `x` strips to (`NameGroupOfStrips`).
   */
  lemma MatchesAnyLayout(doc: string, x: string, ws2: string, page: string, ws3: string, digits: string, rest: string)
    requires Lower(doc) == "document" && Lower(page) == "page"
    requires |x| > 0 && forall k :: 0 <= k < |x| ==> NameChar(x[k])
    requires AllSpace(ws2) && AllSpace(ws3) && |digits| > 0 && AllDigits(digits)
    ensures var c := "[" + doc + ":" + x + "," + ws2 + page + ws3 + digits + "]";
      var r := MatchAt(c + rest);
      && r.Some? && r.value.m.name == NameGroupOf(x) && r.value.m.digits == digits && r.value.end == |c|
      && FindAll(c + rest) == [Match(NameGroupOf(x), digits)] + FindAll(rest)
  {
    var u := ws2 + page + ws3 + digits + "]" + rest;
    var n := |ws2| + 4 + |ws3| + |digits| + 1;
    PageAny(ws2, page, ws3, digits, rest);
    NameAndPage(doc, x, u, digits, n);
    var c := "[" + doc + ":" + x + "," + ws2 + page + ws3 + digits + "]";
    LayoutRegroup(doc, x, ws2, page, ws3, digits, rest);
    FindAllAfterMatch(c, rest, Match(NameGroupOf(x), digits));
  }

  /** The general layout followed by `rest` is "[", the word, ':' and then the text the rest of the pattern reads. */
  lemma LayoutRegroup(doc: string, x: string, ws2: string, page: string, ws3: string, digits: string, rest: string)
    requires |doc| == 8 && |page| == 4
    ensures var c := "[" + doc + ":" + x + "," + ws2 + page + ws3 + digits + "]";
      && c + rest == "[" + doc + ":" + (x + ("," + (ws2 + page + ws3 + digits + "]" + rest)))
      && |c| == 10 + |x| + 1 + (|ws2| + 4 + |ws3| + |digits| + 1)
  {
  }

  /** The opening in any case, the name text up to the ',', and a page part the scan reads as `digits`. */
  lemma NameAndPage(doc: string, x: string, u: string, digits: string, n: nat)
    requires Lower(doc) == "document"
    requires |x| > 0 && forall k :: 0 <= k < |x| ==> NameChar(x[k])
    requires PageIs(u, digits, n)
    ensures var r := MatchAt("[" + doc + ":" + (x + ("," + u)));
      && r.Some? && r.value.m.name == NameGroupOf(x) && r.value.m.digits == digits && r.value.end == 10 + |x| + 1 + n
  {
    var t := x + ("," + u);
    OpensAnyCase(doc, t);
    RunAppend(x, "," + u, NameChar);
    CommaSplit(x, u);
    OpenedMatchAt("[" + doc + ":" + t, t, |x|, NameGroupOf(x), digits, n);
  }

  /**
   The name group strips to what the whole name text strips to: `\s*` only
   takes whitespace, and leaves one character when there is nothing else.
   */
  lemma NameGroupOfStrips(x: string)
    requires |x| > 0
    ensures Strip(NameGroupOf(x)) == Strip(x)
  {
    RunFacts(x, IsSpace);
    var lead := Run(x, IsSpace);
    assert AllSpace(x[..lead]);
    if lead < |x| {
      var y := x[lead..];
      assert x == x[..lead] + y;
      StripStartSpaces(x[..lead], y);
      StripStartSpaces([], y);
      assert [] + y == y;
    } else {
      var y := x[|x| - 1..];
      assert AllSpace(y);
      StripStartSpaces(x, []);
      StripStartSpaces(y, []);
      assert x + [] == x && y + [] == y;
    }
  }

  /** What comes before and after the ',' of `x + "," + u`. */
  lemma CommaSplit(x: string, u: string)
    ensures var t := x + ("," + u);
      |x| < |t| && t[|x|] == ',' && t[..|x|] == x && t[|x| + 1..] == u
  {
  }

  /** A match that covers `c` exactly is reported, and the scan resumes on what follows. */
  lemma FindAllAfterMatch(c: string, rest: string, m: Match)
    requires MatchAt(c + rest).Some? && MatchAt(c + rest).value.m == m && MatchAt(c + rest).value.end == |c|
    ensures FindAll(c + rest) == [m] + FindAll(rest)
  {
    assert (c + rest)[|c|..] == rest;
  }

  /** "[" + a word that lower-cases to "document" + ":" opens a citation. */
  lemma OpensAnyCase(doc: string, t: string)
    requires Lower(doc) == "document"
    ensures Opens("[" + doc + ":" + t) && ("[" + doc + ":" + t)[10..] == t
  {
    var s := "[" + doc + ":" + t;
    assert |doc| == 8;
    forall k | 0 <= k < 8
      ensures LowerChar(s[1..][k]) == "document"[k]
    {
      assert s[1..][k] == doc[k];
      assert Lower(doc)[k] == LowerChar(doc[k]);
    }
  }

  /** The page part with any whitespace around "Page", in any case. */
  lemma PageAny(ws2: string, page: string, ws3: string, digits: string, rest: string)
    requires Lower(page) == "page" && AllSpace(ws2) && AllSpace(ws3)
    requires |digits| > 0 && AllDigits(digits)
    ensures PageIs(ws2 + page + ws3 + digits + "]" + rest, digits, |ws2| + 4 + |ws3| + |digits| + 1)
  {
    var y := digits + ("]" + rest);
    var w := ws3 + y;
    var v := page + w;
    PageRegroup(ws2, page, ws3, digits, rest);
    PageWordAny(page, w);
    DigitsThen(digits, rest);
    SpacesThen(ws2, v);
    SpacesThen(ws3, y);
    PageAtShape(ws2 + v, v, w, y, |ws2|, |ws3|, |digits|);
  }

  /** The page part regrouped from the right. */
  lemma PageRegroup(ws2: string, page: string, ws3: string, digits: string, rest: string)
    ensures ws2 + page + ws3 + digits + "]" + rest == ws2 + (page + (ws3 + (digits + ("]" + rest))))
  {
  }

  /** Whitespace before something that is not: the whitespace run covers it exactly. */
  lemma SpacesThen(ws: string, v: string)
    requires AllSpace(ws) && |v| > 0 && !IsSpace(v[0])
    ensures Run(ws + v, IsSpace) == |ws| && (ws + v)[|ws|..] == v
  {
    RunAppend(ws, v, IsSpace);
  }

  /** "Page" in any case, followed by `w`. */
  lemma PageWordAny(page: string, w: string)
    requires Lower(page) == "page"
    ensures var v := page + w; |v| >= 4 && !IsSpace(v[0]) && WordAt(v, "page") && v[4..] == w
  {
    var v := page + w;
    assert |page| == 4 && Lower(page)[0] == LowerChar(page[0]);
    forall k | 0 <= k < 4
      ensures LowerChar(v[k]) == "page"[k]
    {
      assert v[k] == page[k];
      assert Lower(page)[k] == LowerChar(page[k]);
    }
  }

  /** How `MatchAt` reads any opened text once the name run, the name group and the page part are known. */
  lemma OpenedMatchAt(s: string, t: string, e: nat, g: string, digits: string, n: nat)
    requires Opens(s) && s[10..] == t
    requires Run(t, NameChar) == e && 0 < e < |t| && t[e] == ','
    requires NameGroupOf(t[..e]) == g
    requires PageIs(t[e + 1..], digits, n)
    ensures var r := MatchAt(s);
      r.Some? && r.value.m.name == g && r.value.m.digits == digits && r.value.end == 10 + e + 1 + n
  {
    RestShape(t, e);
  }

  /**
   `c` is the pattern written out: "[" and "Document" in any case, ':', the
   name text `x`, ',', whitespace, "Page" in any case, whitespace, the digits
   and ']'.
   */
  ghost predicate Layout(c: string, doc: string, x: string, ws2: string, page: string, ws3: string, digits: string)
  {
    && Lower(doc) == "document" && Lower(page) == "page"
    && |x| > 0 && (forall k :: 0 <= k < |x| ==> NameChar(x[k]))
    && AllSpace(ws2) && AllSpace(ws3) && |digits| > 0 && AllDigits(digits)
    && c == "[" + doc + ":" + x + "," + ws2 + page + ws3 + digits + "]"
  }

  /** `c` is the page part written out: whitespace, "Page" in any case, whitespace, the digits and ']'. */
  ghost predicate PageLayout(c: string, ws2: string, page: string, ws3: string, digits: string)
  {
    && Lower(page) == "page" && AllSpace(ws2) && AllSpace(ws3) && |digits| > 0 && AllDigits(digits)
    && c == ws2 + page + ws3 + digits + "]"
  }

  /**
   The converse of `MatchesAnyLayout`: whatever `MatchAt` accepts is the
   pattern written out, and the match holds its name group and digits.
   */
  lemma MatchAtShape(s: string)
    requires MatchAt(s).Some?
    ensures exists doc, x, ws2, page, ws3, digits ::
      Layout(s[..MatchAt(s).value.end], doc, x, ws2, page, ws3, digits)
      && MatchAt(s).value.m == Match(NameGroupOf(x), digits)
  {
    var e := MatchAtPieces(s);
    var p := PageAt(s[10..][e + 1..]).value;
    var ws2, page, ws3 := PageAtLayout(s[10..][e + 1..]);
    ShapeAssemble(s, e, p.end, ws2, page, ws3, p.digits);
    ShapeWitness(s[..MatchAt(s).value.end], MatchAt(s).value.m, s[1..9], s[10..][..e], ws2, page, ws3, p.digits);
  }

  /** An opened text with a name run up to ',' and a page part laid out after it is the whole pattern laid out. */
  lemma ShapeAssemble(s: string, e: nat, n: nat, ws2: string, page: string, ws3: string, digits: string)
    requires Opens(s) && Run(s[10..], NameChar) == e && 0 < e < |s[10..]| && s[10..][e] == ','
    requires n <= |s[10..][e + 1..]| && PageLayout(s[10..][e + 1..][..n], ws2, page, ws3, digits)
    ensures Layout(s[..10 + e + 1 + n], s[1..9], s[10..][..e], ws2, page, ws3, digits)
  {
    OpenedSplit(s, e, n);
    OpensLower(s);
    RunPrefix(s[10..], NameChar, e);
    LayoutOf(s[..10 + e + 1 + n], s[1..9], s[10..][..e], s[10..][e + 1..][..n], ws2, page, ws3, digits);
  }

  /** A layout and a match that agree with it are witnesses for `MatchAtShape`. */
  lemma ShapeWitness(c: string, m: Match, doc: string, x: string, ws2: string, page: string, ws3: string, digits: string)
    requires Layout(c, doc, x, ws2, page, ws3, digits) && m == Match(NameGroupOf(x), digits)
    ensures exists doc, x, ws2, page, ws3, digits :: Layout(c, doc, x, ws2, page, ws3, digits) && m == Match(NameGroupOf(x), digits)
  {
  }

  /** The run itself, as a text, holds only characters of the run. */
  lemma RunPrefix(t: string, q: char -> bool, e: nat)
    requires Run(t, q) == e
    ensures forall k :: 0 <= k < |t[..e]| ==> q(t[..e][k])
  {
    RunFacts(t, q);
  }

  /** What `MatchAt` checked on its way to a match: the opening, the name run up to ',', and a page part. */
  lemma MatchAtPieces(s: string) returns (e: nat)
    requires MatchAt(s).Some?
    ensures Opens(s) && Run(s[10..], NameChar) == e && 0 < e < |s[10..]| && s[10..][e] == ','
    ensures PageAt(s[10..][e + 1..]).Some?
    ensures MatchAt(s).value.m == Match(NameGroupOf(s[10..][..e]), PageAt(s[10..][e + 1..]).value.digits)
    ensures MatchAt(s).value.end == 10 + e + 1 + PageAt(s[10..][e + 1..]).value.end
  {
    assert Opens(s) && MatchRest(s[10..]).Some?;
    e := MatchRestPieces(s[10..]);
  }

  /** What `MatchRest` checked on its way to a match: the name run up to ',' and a page part. */
  lemma MatchRestPieces(t: string) returns (e: nat)
    requires MatchRest(t).Some?
    ensures Run(t, NameChar) == e && 0 < e < |t| && t[e] == ','
    ensures PageAt(t[e + 1..]).Some?
    ensures MatchRest(t).value.m == Match(NameGroupOf(t[..e]), PageAt(t[e + 1..]).value.digits)
    ensures MatchRest(t).value.end == e + 1 + PageAt(t[e + 1..]).value.end
  {
    e := Run(t, NameChar);
  }

  /** The opening of an opened text is "[", a word that lower-cases to "document", and ':'. */
  lemma OpensLower(s: string)
    requires Opens(s)
    ensures Lower(s[1..9]) == "document"
  {
    WordAtLower(s[1..], "document");
    assert s[1..][..8] == s[1..9];
  }

  /** An opened text, cut after the opening, the name text, the ',' and `m` more characters. */
  lemma OpenedSplit(s: string, e: nat, m: nat)
    requires 10 <= |s| && s[0] == '[' && s[9] == ':'
    requires e < |s[10..]| && s[10..][e] == ',' && m <= |s[10..][e + 1..]|
    ensures s[..10 + e + 1 + m] == "[" + s[1..9] + ":" + (s[10..][..e] + "," + s[10..][e + 1..][..m])
  {
    var t := s[10..];
    SliceJoin(s, 10, 10 + e + 1 + m);
    SliceJoin(t, e + 1, e + 1 + m);
    SliceJoin(t, e, e + 1);
    assert s[..10] == "[" + s[1..9] + ":";
    assert t[e..][..1] == ",";
  }

  /** The pieces of the pattern, each of the right kind, glued together. */
  lemma LayoutOf(c: string, doc: string, x: string, q: string, ws2: string, page: string, ws3: string, digits: string)
    requires Lower(doc) == "document"
    requires |x| > 0 && forall k :: 0 <= k < |x| ==> NameChar(x[k])
    requires PageLayout(q, ws2, page, ws3, digits)
    requires c == "[" + doc + ":" + (x + "," + q)
    ensures Layout(c, doc, x, ws2, page, ws3, digits)
  {
  }

  /** The page part `PageAt` accepts, cut into its pieces. */
  lemma PageAtLayout(u: string) returns (ws2: string, page: string, ws3: string)
    requires PageAt(u).Some?
    ensures PageLayout(u[..PageAt(u).value.end], ws2, page, ws3, PageAt(u).value.digits)
  {
    var a, b, d := PageAtPieces(u);
    RunPrefix(u, IsSpace, a);
    RunPrefix(u[a..][4..], IsSpace, b);
    RunPrefix(u[a..][4..][b..], IsDigit, d);
    ws2, page, ws3 := PageAssemble(u, a, b, d);
  }

  /** Whitespace, "page" in any case, whitespace, digits and ']' at the front of `u`, laid out. */
  lemma PageAssemble(u: string, a: nat, b: nat, d: nat) returns (ws2: string, page: string, ws3: string)
    requires a + 4 <= |u| && b <= |u[a..][4..]| && 0 < d < |u[a..][4..][b..]|
    requires AllSpace(u[..a]) && WordAt(u[a..], "page") && AllSpace(u[a..][4..][..b])
    requires AllDigits(u[a..][4..][b..][..d]) && u[a..][4..][b..][d] == ']'
    ensures PageLayout(u[..a + 4 + b + d + 1], ws2, page, ws3, u[a..][4..][b..][..d])
  {
    PageFlatten(u, a, b, d);
    WordAtLower(u[a..], "page");
    ws2, page, ws3 := u[..a], u[a..a + 4], u[a + 4..a + 4 + b];
    Cut5(u, a, a + 4, a + 4 + b, a + 4 + b + d);
  }

  /** The nested slices `PageAt` takes, as slices of `u` itself. */
  lemma PageFlatten(u: string, a: nat, b: nat, d: nat)
    requires a + 4 <= |u| && b <= |u[a..][4..]| && d < |u[a..][4..][b..]|
    ensures u[a..][..4] == u[a..a + 4]
    ensures u[a..][4..][..b] == u[a + 4..a + 4 + b]
    ensures u[a..][4..][b..][..d] == u[a + 4 + b..a + 4 + b + d]
    ensures u[a..][4..][b..][d] == u[a + 4 + b + d]
  {
  }

  /** A prefix ending in ']', cut at three points. */
  lemma Cut5(u: string, i: nat, j: nat, k: nat, l: nat)
    requires i <= j <= k <= l < |u| && u[l] == ']'
    ensures u[..l + 1] == u[..i] + u[i..j] + u[j..k] + u[k..l] + "]"
  {
    assert u[..l + 1] == u[..l] + "]";
    assert u[..l] == u[..k] + u[k..l];
    assert u[..k] == u[..j] + u[j..k];
    assert u[..j] == u[..i] + u[i..j];
  }

  /** What `PageAt` checked on its way to a page part: two whitespace runs around "page", digits and ']'. */
  lemma PageAtPieces(u: string) returns (a: nat, b: nat, d: nat)
    requires PageAt(u).Some?
    ensures a == Run(u, IsSpace) && WordAt(u[a..], "page")
    ensures b == Run(u[a..][4..], IsSpace)
    ensures var y := u[a..][4..][b..]; d == Run(y, IsDigit) && 0 < d < |y| && y[d] == ']'
    ensures PageAt(u).value == PageRef(u[a..][4..][b..][..d], a + 4 + b + d + 1)
  {
    a := Run(u, IsSpace);
    b := Run(u[a..][4..], IsSpace);
    d := Run(u[a..][4..][b..], IsDigit);
  }

  /** A word found in any case lower-cases to itself. */
  lemma WordAtLower(v: string, w: string)
    requires WordAt(v, w)
    ensures Lower(v[..|w|]) == w
  {
    assert forall k :: 0 <= k < |w| ==> Lower(v[..|w|])[k] == LowerChar(v[k]);
  }

  /** A prefix cut in two. */
  lemma SliceJoin(s: string, i: nat, j: nat)
    requires i <= j <= |s|
    ensures s[..j] == s[..i] + s[i..][..j - i]
  {
  }

  /**
   The scan `scan` matches at position `p` of `s`, at a '[', and reads `m`
   there. The soundness of the scan is stated for `MatchAt`; the bookkeeping
   of positions holds for any scan.
   */
  ghost predicate ReportedAt(scan: string -> Option<Found>, s: string, p: int, m: Match)
  {
    0 <= p < |s| && s[p] == '[' && scan(s[p..]).Some? && scan(s[p..]).value.m == m
  }

  /** `m` is reported by `scan` somewhere in `s`. */
  ghost predicate ReportedIn(scan: string -> Option<Found>, s: string, m: Match)
  {
    exists p :: ReportedAt(scan, s, p, m)
  }

  /** Each of `ms` is reported by `scan` somewhere in `s`. */
  ghost predicate AllReported(scan: string -> Option<Found>, s: string, ms: seq<Match>)
  {
    forall i :: 0 <= i < |ms| ==> ReportedIn(scan, s, ms[i])
  }

  /** Every match the scan reports is the pattern matched at some '[' of the text. */
  lemma {:induction false} FindAllSound(s: string)
    ensures AllReported(MatchAt, s, FindAll(s))
    decreases |s|
  {
    if |s| > 0 {
      var r := MatchAt(s);
      if r.Some? {
        var k := r.value.end;
        FindAllSound(s[k..]);
        ReportedHere(s);
        SoundFromRest(MatchAt, s, k, [r.value.m], FindAll(s[k..]));
      } else {
        FindAllSound(s[1..]);
        SoundFromRest(MatchAt, s, 1, [], FindAll(s[1..]));
        assert [] + FindAll(s[1..]) == FindAll(s[1..]);
      }
    }
  }

  /** A match reported at the start, then matches each reported somewhere in `s[k..]`: each is reported in `s`. */
  lemma SoundFromRest(scan: string -> Option<Found>, s: string, k: nat, head: seq<Match>, tail: seq<Match>)
    requires k <= |s| && |head| <= 1
    requires |head| == 1 ==> ReportedAt(scan, s, 0, head[0])
    requires AllReported(scan, s[k..], tail)
    ensures AllReported(scan, s, head + tail)
  {
    var ms := head + tail;
    forall i | 0 <= i < |ms|
      ensures ReportedIn(scan, s, ms[i])
    {
      if i < |head| {
        assert ms[i] == head[0];
        assert ReportedAt(scan, s, 0, ms[i]);
      } else {
        var j := i - |head|;
        assert ms[i] == tail[j];
        assert ReportedIn(scan, s[k..], tail[j]);
        var q :| ReportedAt(scan, s[k..], q, tail[j]);
        ReportedShift(scan, s, k, q, tail[j]);
        assert ReportedAt(scan, s, k + q, ms[i]);
      }
    }
  }

  /** A match at the start of `s` is reported at position 0. */
  lemma ReportedHere(s: string)
    requires MatchAt(s).Some?
    ensures ReportedAt(MatchAt, s, 0, MatchAt(s).value.m)
  {
    assert s[0..] == s;
  }

  /** A match reported in a suffix of `s` is reported in `s`, further along. */
  lemma ReportedShift(scan: string -> Option<Found>, s: string, k: nat, q: int, m: Match)
    requires k <= |s| && ReportedAt(scan, s[k..], q, m)
    ensures ReportedAt(scan, s, k + q, m)
  {
    assert s[k..][q..] == s[k + q..];
    assert s[k..][q] == s[k + q];
  }

  /**
   Two citations among plain text, the first naming a source page and the
   second not: one verified, one unverified, integrity 1/2. With "real.pdf"
   page 1 and "fake.pdf" page 99 against the one source ("real.pdf", 1),
   this is the mixed answer of the validator's tests.
   */
  lemma MixedCitations(a: string, n1: string, p1: nat, b: string, n2: string, p2: nat, c: string, sources: seq<Source>)
    requires '[' !in a && '[' !in b && '[' !in c
    requires PlainName(n1) && PlainName(n2)
    requires (Lower(n1), p1) in KeySet(sources, SourceKey) && (Lower(n2), p2) !in KeySet(sources, SourceKey)
    ensures Validate(a + CitationString(n1, p1) + b + CitationString(n2, p2) + c, sources)
      == Validation([CitationString(n1, p1)], [CitationString(n2, p2)], Ratio(1, 2))
  {
    var m1 := Match(NameGroup(n1), NatToString(p1));
    var m2 := Match(NameGroup(n2), NatToString(p2));
    TwoCitationsFound(a, n1, p1, b, n2, p2, c);
    ReadBack(n1, p1);
    ReadBack(n2, p2);
    ClassifyIsFilter([m1, m2], KeySet(sources, SourceKey), CitedKey, Canonical);
    assert [m1, m2][1..] == [m2];
    assert [m2][1..] == [];
  }

  /** The scan of two citations among plain text finds exactly those two. */
  lemma TwoCitationsFound(a: string, n1: string, p1: nat, b: string, n2: string, p2: nat, c: string)
    requires '[' !in a && '[' !in b && '[' !in c
    requires PlainName(n1) && PlainName(n2)
    ensures FindAll(a + CitationString(n1, p1) + b + CitationString(n2, p2) + c)
      == [Match(NameGroup(n1), NatToString(p1)), Match(NameGroup(n2), NatToString(p2))]
  {
    var c1 := CitationString(n1, p1);
    var c2 := CitationString(n2, p2);
    Regroup(a, c1, b, c2, c);
    CitationAfterText(a, n1, p1, b + (c2 + c));
    CitationAfterText(b, n2, p2, c);
    PlainTextSkipped(c, []);
    assert c + [] == c;
  }

  /** Plain text, a reported citation, then anything: the scan finds the citation first. */
  lemma CitationAfterText(a: string, name: string, page: nat, rest: string)
    requires '[' !in a && PlainName(name)
    ensures FindAll(a + (CitationString(name, page) + rest)) == [Match(NameGroup(name), NatToString(page))] + FindAll(rest)
  {
    PlainTextSkipped(a, CitationString(name, page) + rest);
    CitationFound(name, page, rest);
  }

  lemma Regroup(a: string, c1: string, b: string, c2: string, c: string)
    ensures a + c1 + b + c2 + c == a + (c1 + (b + (c2 + c)))
  {
  }

  /**
   Reporting is a fixpoint: the reported form of any match is found again as
   a single match with the same reported form and the same lookup key, so a
   reported citation validates as the original did.
   */
  lemma CanonicalIsStable(m: Match)
    requires WellFormed(m)
    ensures |FindAll(Canonical(m))| == 1
    ensures Canonical(FindAll(Canonical(m))[0]) == Canonical(m)
    ensures CitedKey(FindAll(Canonical(m))[0]) == CitedKey(m)
  {
    var name := Strip(m.name);
    var page := ParseDigits(m.digits);
    StripKeepsNameChars(m.name);
    CitationFound(name, page, []);
    assert Canonical(m) + [] == Canonical(m);
    ReadBack(name, page);
  }

  /** The match read back from a reported citation reports and looks up as the citation did. */
  lemma ReadBack(name: string, page: nat)
    requires PlainName(name)
    ensures Canonical(Match(NameGroup(name), NatToString(page))) == CitationString(name, page)
    ensures CitedKey(Match(NameGroup(name), NatToString(page))) == (Lower(name), page)
  {
    NameGroupStrips(name);
    ParseNatToString(page);
  }

  /** Stripping keeps only characters of the input. */
  lemma StripKeepsNameChars(s: string)
    requires forall k :: 0 <= k < |s| ==> NameChar(s[k])
    ensures PlainName(Strip(s))
  {
    var r := Strip(s);
    StripSlice(s);
    var i, j :| 0 <= i <= j <= |s| && r == s[i..j] && AllSpace(s[..i]) && AllSpace(s[j..]);
    forall k | 0 <= k < |r|
      ensures NameChar(r[k])
    {
      assert r[k] == s[i + k];
    }
  }

  /** A trimmed string strips to itself. */
  lemma StripTrimmed(s: string)
    requires Trimmed(s)
    ensures Strip(s) == s
  {
    StripPadded([], s, []);
    assert [] + s + [] == s;
  }

  /**
   A reported citation checked against the sources: verified, with integrity
   1.0, exactly when its name and page are among them; otherwise unverified
   with integrity 0.0.
   */
  lemma SingleCitation(name: string, page: nat, sources: seq<Source>)
    requires PlainName(name)
    ensures var c := CitationString(name, page);
      if (Lower(name), page) in KeySet(sources, SourceKey) then Validate(c, sources) == Validation([c], [], Ratio(1, 1))
      else Validate(c, sources) == Validation([], [c], Ratio(0, 1))
  {
    var c := CitationString(name, page);
    var m := Match(NameGroup(name), NatToString(page));
    CitationFound(name, page, []);
    assert c + [] == c;
    assert FindAll(c) == [m];
    ReadBack(name, page);
    ValidateOne(m, sources);
  }

  /** One citation found: it alone decides the lists and the integrity. */
  lemma ValidateOne(m: Match, sources: seq<Source>)
    ensures CitedKey(m) in KeySet(sources, SourceKey) ==> ValidateFound([m], sources) == Validation([Canonical(m)], [], Ratio(1, 1))
    ensures CitedKey(m) !in KeySet(sources, SourceKey) ==> ValidateFound([m], sources) == Validation([], [Canonical(m)], Ratio(0, 1))
  {
    assert [m][..0] == [];
  }
}

=== FILE: context_packer.dfy ===
/**
 Context-window packing (app/services/context_packer.py): a relevance
 threshold, then one result per (document, page), then a greedy token budget,
 with a counter for what each step drops. The settings the constructor falls
 back on are parameters, since they live outside this module.
 */
module ContextPacker {
  import opened Results
  import opened Seqs
  import opened Text
  import opened Retrieval

  /** `_estimate_tokens`: `int(len(text.split()) * 1.3)`. */
  function EstimateTokens(text: string): (n: nat)
    ensures 10 * n <= 13 * |Split(text)| < 10 * (n + 1)
  {
    |Split(text)| * 13 / 10
  }

  /** A text is estimated at no fewer tokens than its words, and at most 1.3 per character. */
  lemma EstimateTokensBounds(text: string)
    ensures |Split(text)| <= EstimateTokens(text)
    ensures 10 * EstimateTokens(text) <= 13 * |text|
  {
    SplitCount(text);
  }

  /** Words joined by spaces are estimated at 1.3 tokens a word, rounded down. */
  lemma EstimateOfWords(words: seq<string>)
    requires AreWords(words)
    ensures 10 * EstimateTokens(JoinSpaces(words)) <= 13 * |words| < 10 * (EstimateTokens(JoinSpaces(words)) + 1)
  {
    SplitJoinSpaces(words);
  }

  function Cost(r: RetrievalResult): nat
  {
    EstimateTokens(r.sectionContent)
  }

  /** The cost of all of `rs` together. */
  function SumCost(rs: seq<RetrievalResult>, cost: RetrievalResult -> nat): nat
    decreases |rs|
  {
    if |rs| == 0 then 0 else SumCost(rs[..|rs| - 1], cost) + cost(rs[|rs| - 1])
  }

  /** The page a result comes from: the dedup key. */
  function PageKey(r: RetrievalResult): (string, int)
  {
    (r.documentId, r.pageNumber)
  }

  /** A configured packer. */
  datatype Packer = Packer(tokenBudget: int, minRelevance: real)

  /**
   The constructor: `token_budget or settings.CONTEXT_TOKEN_BUDGET` and
   `min_relevance or settings.MIN_RELEVANCE_THRESHOLD`. Python's `or` falls
   back on the setting for `None` AND for a falsy 0 or 0.0.
   */
  function NewPacker(tokenBudget: Option<int>, minRelevance: Option<real>,
                     settingsBudget: int, settingsRelevance: real): (p: Packer)
    ensures tokenBudget.Some? && tokenBudget.value != 0 ==> p.tokenBudget == tokenBudget.value
    ensures minRelevance.Some? && minRelevance.value != 0.0 ==> p.minRelevance == minRelevance.value
    ensures p.tokenBudget == settingsBudget || tokenBudget == Some(p.tokenBudget)
    ensures p.minRelevance == settingsRelevance || minRelevance == Some(p.minRelevance)
  {
    Packer(if tokenBudget.Some? && tokenBudget.value != 0 then tokenBudget.value else settingsBudget,
           if minRelevance.Some? && minRelevance.value != 0.0 then minRelevance.value else settingsRelevance)
  }

  /**
   The constructor as its "0 means unlimited" convention needs it: only a
   missing argument falls back on the setting.
   */
  function NewPackerIntended(tokenBudget: Option<int>, minRelevance: Option<real>,
                             settingsBudget: int, settingsRelevance: real): (p: Packer)
    ensures p.tokenBudget == if tokenBudget.Some? then tokenBudget.value else settingsBudget
    ensures p.minRelevance == if minRelevance.Some? then minRelevance.value else settingsRelevance
  {
    Packer(if tokenBudget.Some? then tokenBudget.value else settingsBudget,
           if minRelevance.Some? then minRelevance.value else settingsRelevance)
  }

  /** The counters `pack` reports; `total_tokens` is absent on the two early returns. */
  datatype PackMeta = PackMeta(
    packed: nat,
    totalTokens: Option<nat>,
    droppedThreshold: nat,
    droppedDedup: nat,
    droppedBudget: nat)

  // ---------------------------------------------------------------------------
  // The three loops.
  // ---------------------------------------------------------------------------

  /** The state of the threshold loop: the results kept so far and the count dropped. */
  datatype Filtered = Filtered(kept: seq<RetrievalResult>, dropped: nat)

  /** Step 1: the results scoring at least `min`, and the count of those below. */
  function Threshold(results: seq<RetrievalResult>, min: real): Filtered
    decreases |results|
  {
    if |results| == 0 then Filtered([], 0)
    else
      var f := Threshold(results[..|results| - 1], min);
      var x := results[|results| - 1];
      if x.score >= min then Filtered(f.kept + [x], f.dropped) else Filtered(f.kept, f.dropped + 1)
  }

  /** The state of the `seen_pages` loop: the results kept, the pages seen and the count dropped. */
  datatype Deduped = Deduped(kept: seq<RetrievalResult>, seen: set<(string, int)>, dropped: nat)

  /** Step 2: one result per (document, page), the first one met. */
  function DedupPages(items: seq<RetrievalResult>): Deduped
    decreases |items|
  {
    if |items| == 0 then Deduped([], {}, 0)
    else
      var d := DedupPages(items[..|items| - 1]);
      var x := items[|items| - 1];
      if PageKey(x) !in d.seen then Deduped(d.kept + [x], d.seen + {PageKey(x)}, d.dropped)
      else Deduped(d.kept, d.seen, d.dropped + 1)
  }

  /** The state of the greedy loop: what is packed, its token total, and how many did not fit. */
  datatype Packing = Packing(packed: seq<RetrievalResult>, total: nat, dropped: nat)

  /**
   Step 3: greedy packing in input order. The loop is written for any cost
   function; `pack` runs it with `Cost`.
   */
  function Greedy(items: seq<RetrievalResult>, budget: int, cost: RetrievalResult -> nat): Packing
    decreases |items|
  {
    if |items| == 0 then Packing([], 0, 0)
    else
      var g := Greedy(items[..|items| - 1], budget, cost);
      var x := items[|items| - 1];
      if g.total + cost(x) <= budget then Packing(g.packed + [x], g.total + cost(x), g.dropped)
      else Packing(g.packed, g.total, g.dropped + 1)
  }

  /** `pack(results)`. */
  function Pack(results: seq<RetrievalResult>, packer: Packer): (r: (seq<RetrievalResult>, PackMeta))
    ensures |results| == 0 ==> r == ([], PackMeta(0, None, 0, 0, 0))
    ensures |results| > 0 && packer.tokenBudget <= 0 ==> r == (results, PackMeta(|results|, None, 0, 0, 0))
    ensures |results| > 0 && packer.tokenBudget > 0 ==>
      r.1.packed == |r.0| && r.1.totalTokens == Some(SumCost(r.0, Cost)) && SumCost(r.0, Cost) <= packer.tokenBudget
    ensures r.1.packed + r.1.droppedThreshold + r.1.droppedDedup + r.1.droppedBudget == |results|
  {
    if |results| == 0 then ([], PackMeta(0, None, 0, 0, 0))
    else if packer.tokenBudget <= 0 then (results, PackMeta(|results|, None, 0, 0, 0))
    else
      var f := Threshold(results, packer.minRelevance);
      var d := DedupPages(f.kept);
      var g := Greedy(d.kept, packer.tokenBudget, Cost);
      ThresholdCount(results, packer.minRelevance);
      DedupPagesCount(f.kept);
      GreedyFacts(d.kept, packer.tokenBudget, Cost);
      (g.packed, PackMeta(|g.packed|, Some(g.total), f.dropped, d.dropped, g.dropped))
  }

  // ---------------------------------------------------------------------------
  // Each loop against an independent description of what it keeps.
  // ---------------------------------------------------------------------------

  /** How many results score below `min`, counted from the front. */
  function CountBelow(results: seq<RetrievalResult>, min: real): nat
    decreases |results|
  {
    if |results| == 0 then 0
    else (if results[0].score < min then 1 else 0) + CountBelow(results[1..], min)
  }

  lemma {:induction false} CountBelowSnoc(p: seq<RetrievalResult>, x: RetrievalResult, min: real)
    ensures CountBelow(p + [x], min) == CountBelow(p, min) + (if x.score < min then 1 else 0)
    decreases |p|
  {
    if |p| == 0 {
      assert ([] + [x])[1..] == [];
    } else {
      assert (p + [x])[1..] == p[1..] + [x];
      CountBelowSnoc(p[1..], x, min);
    }
  }

  /**
   The threshold step keeps, in order, exactly the results scoring at least
   `min`, and its counter is the number scoring below.
   */
  lemma ThresholdFacts(results: seq<RetrievalResult>, min: real)
    ensures Subseq(Threshold(results, min).kept, results)
    ensures forall j :: 0 <= j < |Threshold(results, min).kept| ==> Threshold(results, min).kept[j].score >= min
    ensures forall i :: 0 <= i < |results| && results[i].score >= min ==> results[i] in Threshold(results, min).kept
    ensures Threshold(results, min).dropped == CountBelow(results, min)
    ensures |Threshold(results, min).kept| + Threshold(results, min).dropped == |results|
  {
    ThresholdOrder(results, min);
    ThresholdComplete(results, min);
    ThresholdCount(results, min);
  }

  lemma {:induction false} ThresholdOrder(results: seq<RetrievalResult>, min: real)
    ensures Subseq(Threshold(results, min).kept, results)
    ensures forall j :: 0 <= j < |Threshold(results, min).kept| ==> Threshold(results, min).kept[j].score >= min
    decreases |results|
  {
    if |results| > 0 {
      var p := results[..|results| - 1];
      var x := results[|results| - 1];
      ThresholdOrder(p, min);
      assert results == p + [x];
      SubseqSnoc(Threshold(p, min).kept, p, x);
    }
  }

  lemma {:induction false} ThresholdComplete(results: seq<RetrievalResult>, min: real)
    ensures forall i :: 0 <= i < |results| && results[i].score >= min ==> results[i] in Threshold(results, min).kept
    decreases |results|
  {
    if |results| > 0 {
      var p := results[..|results| - 1];
      ThresholdComplete(p, min);
      var kept := Threshold(results, min).kept;
      assert forall y :: y in Threshold(p, min).kept ==> y in kept;
      forall i | 0 <= i < |results| && results[i].score >= min
        ensures results[i] in kept
      {
        if i < |p| {
          assert results[i] == p[i];
        }
      }
    }
  }

  lemma {:induction false} ThresholdCount(results: seq<RetrievalResult>, min: real)
    ensures Threshold(results, min).dropped == CountBelow(results, min)
    ensures |Threshold(results, min).kept| + Threshold(results, min).dropped == |results|
    decreases |results|
  {
    if |results| > 0 {
      var p := results[..|results| - 1];
      var x := results[|results| - 1];
      ThresholdCount(p, min);
      assert results == p + [x];
      CountBelowSnoc(p, x, min);
    }
  }

  /** The `seen_pages` loop is first-occurrence de-duplication by page, and counts what it drops. */
  lemma DedupPagesIsDedupBy(items: seq<RetrievalResult>)
    ensures DedupPages(items).kept == DedupBy(items, PageKey)
    ensures DedupPages(items).seen == KeySet(items, PageKey)
    ensures |DedupPages(items).kept| + DedupPages(items).dropped == |items|
  {
    DedupPagesKept(items);
    DedupPagesSeen(items);
    DedupPagesCount(items);
    assert KeySet(DedupBy(items, PageKey), PageKey) == KeySet(items, PageKey);
  }

  lemma {:induction false} DedupPagesSeen(items: seq<RetrievalResult>)
    ensures DedupPages(items).seen == KeySet(DedupPages(items).kept, PageKey)
    decreases |items|
  {
    if |items| > 0 {
      var p := items[..|items| - 1];
      var x := items[|items| - 1];
      DedupPagesSeen(p);
      KeySetSnoc(DedupPages(p).kept, PageKey, x);
    }
  }

  lemma {:induction false} DedupPagesKept(items: seq<RetrievalResult>)
    ensures DedupPages(items).kept == DedupBy(items, PageKey)
    decreases |items|
  {
    if |items| > 0 {
      var p := items[..|items| - 1];
      DedupPagesKept(p);
      DedupPagesSeen(p);
    }
  }

  lemma {:induction false} DedupPagesCount(items: seq<RetrievalResult>)
    ensures |DedupPages(items).kept| + DedupPages(items).dropped == |items|
    decreases |items|
  {
    if |items| > 0 {
      DedupPagesCount(items[..|items| - 1]);
    }
  }

  /** Greedy packing keeps items in order, never exceeds the budget and counts every item once. */
  lemma GreedyFacts(items: seq<RetrievalResult>, budget: int, cost: RetrievalResult -> nat)
    requires budget >= 0
    ensures Subseq(Greedy(items, budget, cost).packed, items)
    ensures Greedy(items, budget, cost).total == SumCost(Greedy(items, budget, cost).packed, cost) <= budget
    ensures |Greedy(items, budget, cost).packed| + Greedy(items, budget, cost).dropped == |items|
  {
    GreedyOrder(items, budget, cost);
    GreedyTotal(items, budget, cost);
  }

  lemma {:induction false} GreedyOrder(items: seq<RetrievalResult>, budget: int, cost: RetrievalResult -> nat)
    ensures Subseq(Greedy(items, budget, cost).packed, items)
    ensures |Greedy(items, budget, cost).packed| + Greedy(items, budget, cost).dropped == |items|
    decreases |items|
  {
    GreedySubseq(items, budget, cost);
    GreedyCount(items, budget, cost);
  }

  lemma {:induction false} GreedySubseq(items: seq<RetrievalResult>, budget: int, cost: RetrievalResult -> nat)
    ensures Subseq(Greedy(items, budget, cost).packed, items)
    decreases |items|
  {
    if |items| > 0 {
      var p := items[..|items| - 1];
      var x := items[|items| - 1];
      GreedySubseq(p, budget, cost);
      assert items == p + [x];
      SubseqSnoc(Greedy(p, budget, cost).packed, p, x);
    }
  }

  lemma {:induction false} GreedyCount(items: seq<RetrievalResult>, budget: int, cost: RetrievalResult -> nat)
    ensures |Greedy(items, budget, cost).packed| + Greedy(items, budget, cost).dropped == |items|
    decreases |items|
  {
    if |items| > 0 {
      GreedyCount(items[..|items| - 1], budget, cost);
    }
  }

  lemma {:induction false} GreedyTotal(items: seq<RetrievalResult>, budget: int, cost: RetrievalResult -> nat)
    requires budget >= 0
    ensures Greedy(items, budget, cost).total == SumCost(Greedy(items, budget, cost).packed, cost) <= budget
    decreases |items|
  {
    if |items| > 0 {
      var p := items[..|items| - 1];
      var x := items[|items| - 1];
      GreedyTotal(p, budget, cost);
      var g := Greedy(p, budget, cost);
      if g.total + cost(x) <= budget {
        assert (g.packed + [x])[..|g.packed|] == g.packed;
      }
    }
  }

  /** Greedy packing drops an item only when it would not fit in what is left at the end. */
  lemma {:induction false} GreedyMaximal(items: seq<RetrievalResult>, budget: int, cost: RetrievalResult -> nat)
    requires budget >= 0
    ensures forall x :: x in multiset(items) - multiset(Greedy(items, budget, cost).packed) ==>
      Greedy(items, budget, cost).total + cost(x) > budget
    decreases |items|
  {
    if |items| > 0 {
      var p := items[..|items| - 1];
      var x := items[|items| - 1];
      GreedyMaximal(p, budget, cost);
      assert items == p + [x];
      GreedyMaximalStep(p, x, budget, cost);
    }
  }

  lemma GreedyMaximalStep(p: seq<RetrievalResult>, x: RetrievalResult, budget: int, cost: RetrievalResult -> nat)
    requires forall y :: y in multiset(p) - multiset(Greedy(p, budget, cost).packed) ==>
      Greedy(p, budget, cost).total + cost(y) > budget
    ensures forall y :: y in multiset(p + [x]) - multiset(Greedy(p + [x], budget, cost).packed) ==>
      Greedy(p + [x], budget, cost).total + cost(y) > budget
  {
    var g := Greedy(p, budget, cost);
    assert (p + [x])[..|p|] == p;
    GreedySubseq(p, budget, cost);
    SubseqMultiset(g.packed, p);
    if g.total + cost(x) <= budget {
      assert Greedy(p + [x], budget, cost).packed == g.packed + [x];
      GreedyDropsUnchanged(p, g.packed, x);
    } else {
      assert Greedy(p + [x], budget, cost).packed == g.packed;
      GreedyDropsOneMore(p, g.packed, x);
    }
  }

  lemma GreedyDropsUnchanged(p: seq<RetrievalResult>, packed: seq<RetrievalResult>, x: RetrievalResult)
    ensures multiset(p + [x]) - multiset(packed + [x]) == multiset(p) - multiset(packed)
  {
  }

  lemma GreedyDropsOneMore(p: seq<RetrievalResult>, packed: seq<RetrievalResult>, x: RetrievalResult)
    requires multiset(packed) <= multiset(p)
    ensures multiset(p + [x]) - multiset(packed) == (multiset(p) - multiset(packed)) + multiset{x}
  {
  }

  /** When everything fits, greedy packing keeps everything. */
  lemma {:induction false} GreedyAllFit(items: seq<RetrievalResult>, budget: int, cost: RetrievalResult -> nat)
    requires SumCost(items, cost) <= budget
    ensures var g := Greedy(items, budget, cost);
      g.packed == items && g.total == SumCost(items, cost) && g.dropped == 0
    decreases |items|
  {
    if |items| > 0 {
      var p := items[..|items| - 1];
      var x := items[|items| - 1];
      assert items == p + [x];
      SumCostSnoc(p, x, cost);
      GreedyAllFit(p, budget, cost);
      GreedyFitStep(p, x, budget, cost);
    }
  }

  lemma SumCostSnoc(p: seq<RetrievalResult>, x: RetrievalResult, cost: RetrievalResult -> nat)
    ensures SumCost(p + [x], cost) == SumCost(p, cost) + cost(x)
  {
    assert (p + [x])[..|p|] == p;
  }

  /** One more item that fits is packed, and the greedy run still holds everything so far. */
  lemma GreedyFitStep(p: seq<RetrievalResult>, x: RetrievalResult, budget: int, cost: RetrievalResult -> nat)
    requires Greedy(p, budget, cost).packed == p && Greedy(p, budget, cost).total == SumCost(p, cost)
    requires Greedy(p, budget, cost).dropped == 0
    requires SumCost(p, cost) + cost(x) <= budget
    ensures var g := Greedy(p + [x], budget, cost);
      g.packed == p + [x] && g.total == SumCost(p + [x], cost) && g.dropped == 0
  {
    assert (p + [x])[..|p|] == p;
    SumCostSnoc(p, x, cost);
  }

  /** `pack` with a positive budget is the three steps in sequence. */
  lemma PackStages(results: seq<RetrievalResult>, packer: Packer)
    requires |results| > 0 && packer.tokenBudget > 0
    ensures var above := Threshold(results, packer.minRelevance).kept;
            var g := Greedy(DedupPages(above).kept, packer.tokenBudget, Cost);
      && Pack(results, packer).0 == g.packed
      && Pack(results, packer).1 == PackMeta(|g.packed|, Some(g.total), CountBelow(results, packer.minRelevance),
                                             DedupPages(above).dropped, g.dropped)
  {
    ThresholdCount(results, packer.minRelevance);
  }

  /** `pack` assembled from what each step produced. */
  lemma PackOfStages(results: seq<RetrievalResult>, packer: Packer, f: Filtered, d: Deduped, g: Packing)
    requires |results| > 0 && packer.tokenBudget > 0
    requires Threshold(results, packer.minRelevance) == f && DedupPages(f.kept) == d
    requires Greedy(d.kept, packer.tokenBudget, Cost) == g
    ensures Pack(results, packer) == (g.packed, PackMeta(|g.packed|, Some(g.total), f.dropped, d.dropped, g.dropped))
  {
  }

  /** `pack` when every result passes the threshold, from what the page and budget steps produced. */
  lemma PackAllRelevant(results: seq<RetrievalResult>, packer: Packer, kept: seq<RetrievalResult>, pageDropped: nat,
                        packed: seq<RetrievalResult>, total: nat, budgetDropped: nat)
    requires |results| > 0 && packer.tokenBudget > 0
    requires Threshold(results, packer.minRelevance) == Filtered(results, 0)
    requires DedupPages(results).kept == kept && DedupPages(results).dropped == pageDropped
    requires Greedy(kept, packer.tokenBudget, Cost).packed == packed
    requires Greedy(kept, packer.tokenBudget, Cost).total == total
    requires Greedy(kept, packer.tokenBudget, Cost).dropped == budgetDropped
    ensures Pack(results, packer) == (packed, PackMeta(|packed|, Some(total), 0, pageDropped, budgetDropped))
  {
    PackOfStages(results, packer, Filtered(results, 0), DedupPages(results), Greedy(kept, packer.tokenBudget, Cost));
  }

  /** The page step draws in order from its input, keeps no page twice and keeps each page's first result. */
  lemma DedupPagesFacts(items: seq<RetrievalResult>)
    ensures Subseq(DedupPages(items).kept, items)
    ensures DistinctKeys(DedupPages(items).kept, PageKey)
    ensures forall j :: 0 <= j < |DedupPages(items).kept| ==> FirstWithKey(items, PageKey, DedupPages(items).kept[j])
    ensures |DedupPages(items).kept| + DedupPages(items).dropped == |items|
  {
    DedupPagesIsDedupBy(items);
  }

  /**
   What a packed context is: drawn in order from the input, every item at or
   above the threshold and the first of its page among those, no page twice,
   within the budget, and the threshold counter is the number scoring below.
   */
  lemma PackFacts(results: seq<RetrievalResult>, packer: Packer)
    requires |results| > 0 && packer.tokenBudget > 0
    ensures Subseq(Pack(results, packer).0, results)
    ensures forall j :: 0 <= j < |Pack(results, packer).0| ==> Pack(results, packer).0[j].score >= packer.minRelevance
    ensures DistinctKeys(Pack(results, packer).0, PageKey)
    ensures forall j :: 0 <= j < |Pack(results, packer).0| ==>
      FirstWithKey(Threshold(results, packer.minRelevance).kept, PageKey, Pack(results, packer).0[j])
    ensures Pack(results, packer).1.droppedThreshold == CountBelow(results, packer.minRelevance)
  {
    PackOrder(results, packer);
    PackPages(results, packer);
    PackStages(results, packer);
  }

  lemma PackOrder(results: seq<RetrievalResult>, packer: Packer)
    requires |results| > 0 && packer.tokenBudget > 0
    ensures Subseq(Pack(results, packer).0, results)
    ensures forall j :: 0 <= j < |Pack(results, packer).0| ==> Pack(results, packer).0[j].score >= packer.minRelevance
  {
    PackStages(results, packer);
    StagesFacts(results, packer.minRelevance, packer.tokenBudget);
  }

  lemma PackPages(results: seq<RetrievalResult>, packer: Packer)
    requires |results| > 0 && packer.tokenBudget > 0
    ensures DistinctKeys(Pack(results, packer).0, PageKey)
    ensures forall j :: 0 <= j < |Pack(results, packer).0| ==>
      FirstWithKey(Threshold(results, packer.minRelevance).kept, PageKey, Pack(results, packer).0[j])
  {
    PackStages(results, packer);
    StagesFacts(results, packer.minRelevance, packer.tokenBudget);
  }

  /** The three steps composed, without the early returns around them. */
  lemma StagesFacts(results: seq<RetrievalResult>, min: real, budget: int)
    requires budget > 0
    ensures var packed := Greedy(DedupPages(Threshold(results, min).kept).kept, budget, Cost).packed;
      && Subseq(packed, results)
      && (forall j :: 0 <= j < |packed| ==> packed[j].score >= min)
      && DistinctKeys(packed, PageKey)
      && (forall j :: 0 <= j < |packed| ==> FirstWithKey(Threshold(results, min).kept, PageKey, packed[j]))
  {
    var above := Threshold(results, min).kept;
    ThresholdOrder(results, min);
    var deduped := DedupPages(above).kept;
    DedupPagesFacts(above);
    GreedySubseq(deduped, budget, Cost);
    ChainFacts(results, above, deduped, Greedy(deduped, budget, Cost).packed, min);
  }

  /** What survives a threshold, then a first-per-page pass, then any order-keeping selection. */
  lemma ChainFacts(results: seq<RetrievalResult>, above: seq<RetrievalResult>, deduped: seq<RetrievalResult>,
                   packed: seq<RetrievalResult>, min: real)
    requires Subseq(above, results) && forall j :: 0 <= j < |above| ==> above[j].score >= min
    requires Subseq(deduped, above) && DistinctKeys(deduped, PageKey)
    requires forall j :: 0 <= j < |deduped| ==> FirstWithKey(above, PageKey, deduped[j])
    requires Subseq(packed, deduped)
    ensures Subseq(packed, results)
    ensures forall j :: 0 <= j < |packed| ==> packed[j].score >= min
    ensures DistinctKeys(packed, PageKey)
    ensures forall j :: 0 <= j < |packed| ==> FirstWithKey(above, PageKey, packed[j])
  {
    SubseqTrans(deduped, above, results);
    SubseqTrans(packed, deduped, results);
    SubseqElements(packed, deduped);
    SubseqElements(deduped, above);
    SubseqDistinctKeys(packed, deduped, PageKey);
    forall j | 0 <= j < |packed|
      ensures packed[j].score >= min
      ensures FirstWithKey(above, PageKey, packed[j])
    {
      var h :| 0 <= h < |deduped| && deduped[h] == packed[j];
      var i :| 0 <= i < |above| && above[i] == deduped[h];
    }
  }

  /**
   An item the budget step dropped would overflow the final total: no dropped
   item could still have been added.
   */
  lemma PackIsMaximal(results: seq<RetrievalResult>, packer: Packer, x: RetrievalResult)
    requires |results| > 0 && packer.tokenBudget > 0
    requires x in multiset(DedupBy(Threshold(results, packer.minRelevance).kept, PageKey)) - multiset(Pack(results, packer).0)
    ensures Pack(results, packer).1.totalTokens.Some?
    ensures Pack(results, packer).1.totalTokens.value + Cost(x) > packer.tokenBudget
  {
    PackStages(results, packer);
    DedupPagesIsDedupBy(Threshold(results, packer.minRelevance).kept);
    GreedyMaximal(DedupBy(Threshold(results, packer.minRelevance).kept, PageKey), packer.tokenBudget, Cost);
  }

  // ---------------------------------------------------------------------------
  // The constructor's falsy arguments.
  // ---------------------------------------------------------------------------

  /** An explicit budget of 0 is indistinguishable from no budget at all: both take the setting. */
  lemma ZeroBudgetTakesSetting(minRelevance: Option<real>, settingsBudget: int, settingsRelevance: real)
    ensures NewPacker(Some(0), minRelevance, settingsBudget, settingsRelevance)
         == NewPacker(None, minRelevance, settingsBudget, settingsRelevance)
    ensures NewPacker(Some(0), minRelevance, settingsBudget, settingsRelevance).tokenBudget == settingsBudget
  {
  }

  /**
   `ContextPacker(token_budget=0)` packs nothing of a single relevant result
   that costs more than the configured budget, although 0 is documented as
   "unlimited".
   */
  lemma ZeroBudgetIsNotUnlimited(x: RetrievalResult, settingsBudget: int, settingsRelevance: real)
    requires 0 < settingsBudget < Cost(x) && x.score >= settingsRelevance
    ensures var p := NewPacker(Some(0), None, settingsBudget, settingsRelevance);
            Pack([x], p).0 == [] && Pack([x], p).1.droppedBudget == 1
  {
    var p := NewPacker(Some(0), None, settingsBudget, settingsRelevance);
    assert p == Packer(settingsBudget, settingsRelevance);
    PackOneTooLarge(x, p);
  }

  /** A single relevant result that costs more than the budget is dropped by the budget step. */
  lemma PackOneTooLarge(x: RetrievalResult, packer: Packer)
    requires 0 < packer.tokenBudget < Cost(x) && x.score >= packer.minRelevance
    ensures Pack([x], packer).0 == [] && Pack([x], packer).1 == PackMeta(0, Some(0), 0, 0, 1)
  {
    assert [x][..0] == [];
    assert Threshold([x], packer.minRelevance) == Filtered([x], 0);
    assert DedupPages([x]) == Deduped([x], {PageKey(x)}, 0);
    assert Greedy([x], packer.tokenBudget, Cost) == Packing([], 0, 1);
    PackOfStages([x], packer, Filtered([x], 0), Deduped([x], {PageKey(x)}, 0), Packing([], 0, 1));
  }

  /** The corrected constructor: an explicit 0 is the unlimited budget and the input comes back whole. */
  lemma ZeroBudgetIntendedIsUnlimited(results: seq<RetrievalResult>, minRelevance: Option<real>,
                                      settingsBudget: int, settingsRelevance: real)
    ensures var p := NewPackerIntended(Some(0), minRelevance, settingsBudget, settingsRelevance);
            Pack(results, p).0 == results
  {
  }

  /** An explicit threshold of 0.0 likewise gives way to the configured threshold. */
  lemma ZeroThresholdTakesSetting(tokenBudget: Option<int>, settingsBudget: int, settingsRelevance: real)
    ensures NewPacker(tokenBudget, Some(0.0), settingsBudget, settingsRelevance).minRelevance == settingsRelevance
    ensures NewPackerIntended(tokenBudget, Some(0.0), settingsBudget, settingsRelevance).minRelevance == 0.0
  {
  }

  // ---------------------------------------------------------------------------
  // The packer examples.
  // ---------------------------------------------------------------------------

  /** A result of 100 words ("word " * 100) on page `page` of document "doc1". */
  function Example(id: nat, score: real, page: int): RetrievalResult
  {
    RetrievalResult(NatToString(id), Some("Section"), Repeat("word ", 100), 0, page, "test.pdf", "doc1", score)
  }

  lemma ExampleCost(id: nat, score: real, page: int)
    ensures Cost(Example(id, score, page)) == 130
  {
    SplitRepeatWord("word", 100);
    assert "word" + " " == "word ";
  }

  /**
   Three 130-token results on different pages, with the packer built as the
   tests ask for it (budget 250, threshold 0.0, which the corrected constructor
   keeps): one fits, two are dropped.
   */
  lemma BudgetExample(settingsBudget: int, settingsRelevance: real)
    ensures var rs := [Example(1, 0.9, 1), Example(2, 0.8, 2), Example(3, 0.7, 3)];
            var (packed, meta) := Pack(rs, NewPackerIntended(Some(250), Some(0.0), settingsBudget, settingsRelevance));
            packed == [rs[0]] && meta == PackMeta(1, Some(130), 0, 0, 2)
  {
    assert NewPackerIntended(Some(250), Some(0.0), settingsBudget, settingsRelevance) == Packer(250, 0.0);
    var rs := [Example(1, 0.9, 1), Example(2, 0.8, 2), Example(3, 0.7, 3)];
    ExampleCost(1, 0.9, 1);
    ExampleCost(2, 0.8, 2);
    ExampleCost(3, 0.7, 3);
    assert Cost(rs[0]) == 130 && Cost(rs[1]) == 130 && Cost(rs[2]) == 130;
    assert PageKey(rs[0]) == ("doc1", 1) && PageKey(rs[1]) == ("doc1", 2) && PageKey(rs[2]) == ("doc1", 3);
    PackFirstOfThree(rs, Packer(250, 0.0));
  }

  /**
   Three relevant results from three pages where the first fits and neither
   of the others fits beside it: only the first is packed.
   */
  lemma PackFirstOfThree(rs: seq<RetrievalResult>, packer: Packer)
    requires |rs| == 3
    requires rs[0].score >= packer.minRelevance && rs[1].score >= packer.minRelevance && rs[2].score >= packer.minRelevance
    requires PageKey(rs[0]) != PageKey(rs[1]) && PageKey(rs[0]) != PageKey(rs[2]) && PageKey(rs[1]) != PageKey(rs[2])
    requires 0 < Cost(rs[0]) <= packer.tokenBudget < Cost(rs[0]) + Cost(rs[1])
    requires packer.tokenBudget < Cost(rs[0]) + Cost(rs[2])
    ensures Pack(rs, packer) == ([rs[0]], PackMeta(1, Some(Cost(rs[0])), 0, 0, 2))
  {
    ThreeKeptWhole(rs, packer.minRelevance);
    GreedyFirstOfThreeSeq(rs, packer.tokenBudget, Cost);
    PackOfStages(rs, packer, Filtered(rs, 0), DedupPages(rs), Packing([rs[0]], Cost(rs[0]), 2));
  }

  /** Three relevant results from three pages pass the threshold and page steps whole. */
  lemma ThreeKeptWhole(rs: seq<RetrievalResult>, min: real)
    requires |rs| == 3
    requires rs[0].score >= min && rs[1].score >= min && rs[2].score >= min
    requires PageKey(rs[0]) != PageKey(rs[1]) && PageKey(rs[0]) != PageKey(rs[2]) && PageKey(rs[1]) != PageKey(rs[2])
    ensures Threshold(rs, min) == Filtered(rs, 0) && CountBelow(rs, min) == 0
    ensures DedupPages(rs).kept == rs && DedupPages(rs).dropped == 0
  {
    assert forall i :: 0 <= i < |rs| ==> rs[i].score >= min by {
      forall i | 0 <= i < |rs|
        ensures rs[i].score >= min
      {
        assert i == 0 || i == 1 || i == 2;
      }
    }
    ThresholdAllAbove(rs, min);
    assert DistinctKeys(rs, PageKey);
    DedupPagesDistinct(rs);
  }

  /**
   One result at or above the threshold and one below it, on different pages,
   within the budget: the low-scoring one is counted under the threshold.
   */
  lemma PackDropsBelowThreshold(rs: seq<RetrievalResult>, packer: Packer)
    requires |rs| == 2 && rs[0].score >= packer.minRelevance > rs[1].score
    requires 0 < Cost(rs[0]) <= packer.tokenBudget
    ensures Pack(rs, packer) == ([rs[0]], PackMeta(1, Some(Cost(rs[0])), 1, 0, 0))
  {
    var min := packer.minRelevance;
    assert rs[..1] == [rs[0]] && [rs[0]][..0] == [];
    assert Threshold([rs[0]], min) == Filtered([rs[0]], 0);
    assert Threshold(rs, min) == Filtered([rs[0]], 1);
    assert DedupPages([rs[0]]) == Deduped([rs[0]], {PageKey(rs[0])}, 0);
    assert Greedy([rs[0]], packer.tokenBudget, Cost) == Packing([rs[0]], Cost(rs[0]), 0);
    PackOfStages(rs, packer, Filtered([rs[0]], 1), Deduped([rs[0]], {PageKey(rs[0])}, 0), Packing([rs[0]], Cost(rs[0]), 0));
  }

  /**
   Two results from one page and a third from another, all relevant and all
   within the budget: the second result of the shared page is counted under dedup.
   */
  lemma PackDropsSamePage(rs: seq<RetrievalResult>, packer: Packer)
    requires |rs| == 3
    requires rs[0].score >= packer.minRelevance && rs[1].score >= packer.minRelevance && rs[2].score >= packer.minRelevance
    requires PageKey(rs[0]) == PageKey(rs[1]) != PageKey(rs[2])
    requires 0 < Cost(rs[0]) + Cost(rs[2]) <= packer.tokenBudget
    ensures Pack(rs, packer) == ([rs[0], rs[2]], PackMeta(2, Some(Cost(rs[0]) + Cost(rs[2])), 0, 1, 0))
  {
    ThreeAboveThreshold(rs, packer.minRelevance);
    DedupSharedPage(rs);
    GreedyBothFit(rs[0], rs[2], packer.tokenBudget, Cost);
    PackAllRelevant(rs, packer, [rs[0], rs[2]], 1, [rs[0], rs[2]], Cost(rs[0]) + Cost(rs[2]), 0);
  }

  lemma ThreeAboveThreshold(rs: seq<RetrievalResult>, min: real)
    requires |rs| == 3
    requires rs[0].score >= min && rs[1].score >= min && rs[2].score >= min
    ensures Threshold(rs, min) == Filtered(rs, 0) && CountBelow(rs, min) == 0
  {
    assert forall i :: 0 <= i < |rs| ==> rs[i].score >= min by {
      forall i | 0 <= i < |rs|
        ensures rs[i].score >= min
      {
        assert i == 0 || i == 1 || i == 2;
      }
    }
    ThresholdAllAbove(rs, min);
  }

  lemma DedupSharedPage(rs: seq<RetrievalResult>)
    requires |rs| == 3 && PageKey(rs[0]) == PageKey(rs[1]) != PageKey(rs[2])
    ensures DedupPages(rs).kept == [rs[0], rs[2]] && DedupPages(rs).dropped == 1
  {
    assert rs[..2] == [rs[0], rs[1]] && rs[..2][..1] == [rs[0]] && [rs[0]][..0] == [];
    assert DedupPages([rs[0]]) == Deduped([rs[0]], {PageKey(rs[0])}, 0);
    assert DedupPages(rs[..2]) == Deduped([rs[0]], {PageKey(rs[0])}, 1);
  }

  lemma GreedyBothFit(a: RetrievalResult, c: RetrievalResult, budget: int, cost: RetrievalResult -> nat)
    requires cost(a) + cost(c) <= budget
    ensures var g := Greedy([a, c], budget, cost);
      g.packed == [a, c] && g.total == cost(a) + cost(c) && g.dropped == 0
  {
    assert [a][..0] == [];
    assert [a, c][..1] == [a];
    assert SumCost([a], cost) == cost(a);
    assert SumCost([a, c], cost) == cost(a) + cost(c);
    GreedyAllFit([a, c], budget, cost);
  }

  lemma ThresholdAllAbove(rs: seq<RetrievalResult>, min: real)
    requires forall i :: 0 <= i < |rs| ==> rs[i].score >= min
    ensures Threshold(rs, min) == Filtered(rs, 0)
    ensures CountBelow(rs, min) == 0
  {
    ThresholdCount(rs, min);
    ThresholdAllKept(rs, min);
  }

  lemma {:induction false} ThresholdAllKept(rs: seq<RetrievalResult>, min: real)
    requires forall i :: 0 <= i < |rs| ==> rs[i].score >= min
    ensures Threshold(rs, min) == Filtered(rs, 0)
    decreases |rs|
  {
    if |rs| > 0 {
      var p := rs[..|rs| - 1];
      ThresholdAllKept(p, min);
      assert rs == p + [rs[|rs| - 1]];
    }
  }

  /** Results from pairwise different pages all pass the page step. */
  lemma DedupPagesDistinct(rs: seq<RetrievalResult>)
    requires DistinctKeys(rs, PageKey)
    ensures DedupPages(rs).kept == rs && DedupPages(rs).dropped == 0
  {
    DedupPagesIsDedupBy(rs);
    DedupByDistinct(rs, PageKey);
  }

  lemma GreedyFirstOfThreeSeq(rs: seq<RetrievalResult>, budget: int, cost: RetrievalResult -> nat)
    requires |rs| == 3
    requires cost(rs[0]) <= budget < cost(rs[0]) + cost(rs[1]) && budget < cost(rs[0]) + cost(rs[2])
    ensures Greedy(rs, budget, cost) == Packing([rs[0]], cost(rs[0]), 2)
  {
    assert rs == [rs[0], rs[1], rs[2]];
    GreedyFirstOfThree(rs[0], rs[1], rs[2], budget, cost);
  }

  lemma GreedyFirstOfThree(a: RetrievalResult, b: RetrievalResult, c: RetrievalResult, budget: int,
                           cost: RetrievalResult -> nat)
    requires cost(a) <= budget < cost(a) + cost(b) && budget < cost(a) + cost(c)
    ensures Greedy([a, b, c], budget, cost) == Packing([a], cost(a), 2)
  {
    assert [a][..0] == [];
    assert Greedy([a], budget, cost) == Packing([a], cost(a), 0);
    assert [a, b][..1] == [a];
    assert Greedy([a, b], budget, cost) == Packing([a], cost(a), 1);
    assert [a, b, c][..2] == [a, b];
  }
}

=== FILE: fusion.dfy ===
/**
 Reciprocal Rank Fusion (Cormack, Clarke and Buettcher, SIGIR 2009), as
 `rrf_fuse` in app/services/fusion.py does it: each list `i` with weight `w_i`
 gives the id at 0-based rank `r` the amount `w_i * (1 / (k + r + 1))`; the
 amounts are summed per id in an insertion-ordered dict and the dict's items
 are stable-sorted in descending score order, so tied ids keep the order in
 which they were first seen (list by list, rank by rank).
 */
module Fusion {
  import opened Results
  import opened Seqs

  /** An entry of a ranked list: a section id and a score. */
  datatype Ranked = Ranked(id: string, score: real)

  datatype FusionError =
    | WeightCountMismatch(expected: nat, got: nat)  // the ValueError for a weight list of the wrong length
    | ZeroDivision                                  // some k + rank + 1 is 0

  /** The RRF constant of the original paper and the default of `rrf_fuse`. */
  const DefaultK: int := 60

  function ScoreOf(e: Ranked): real
  {
    e.score
  }

  function IdOf(e: Ranked): string
  {
    e.id
  }

  function IdsOf(s: seq<Ranked>): (ids: seq<string>)
    ensures |ids| == |s|
    ensures forall j :: 0 <= j < |s| ==> ids[j] == s[j].id
  {
    seq(|s|, j requires 0 <= j < |s| => s[j].id)
  }

  /** No rank of any list makes the denominator k + rank + 1 zero. */
  predicate SafeK(k: int, lists: seq<seq<Ranked>>)
  {
    forall i :: 0 <= i < |lists| ==> k >= 0 || |lists[i]| + k + 1 <= 0
  }

  /** The denominator of the contribution at `rank`. */
  function Denominator(k: int, rank: int): int
  {
    k + rank + 1
  }

  /** SafeK says exactly that no list reaches a rank whose denominator is zero. */
  lemma SafeKDenominators(k: int, lists: seq<seq<Ranked>>)
    ensures SafeK(k, lists) <==> forall i, r :: 0 <= i < |lists| && 0 <= r < |lists[i]| ==> Denominator(k, r) != 0
  {
    if !SafeK(k, lists) {
      var i :| 0 <= i < |lists| && !(k >= 0 || |lists[i]| + k + 1 <= 0);
      assert 0 <= -k - 1 < |lists[i]| && Denominator(k, -k - 1) == 0;
    }
  }

  /** One list's contribution at `rank`: weight * (1 / (k + rank + 1)). */
  function RrfTerm(w: real, k: int, rank: nat): real
    requires k + rank + 1 != 0
  {
    w * (1.0 / ((k + rank + 1) as real))
  }

  /** `[1.0] * n`: the weights used when none are given. */
  function Ones(n: nat): (w: seq<real>)
    ensures |w| == n
  {
    seq(n, _ => 1.0)
  }

  function EffectiveWeights(weights: Option<seq<real>>, n: nat): seq<real>
  {
    if weights.None? then Ones(n) else weights.value
  }

  // ---------------------------------------------------------------------------
  // The reference: which ids there are, in first-seen order, and their RRF sums.
  // ---------------------------------------------------------------------------

  /** The ids of all lists, list after list, each list in rank order. */
  function FlatIds(lists: seq<seq<Ranked>>): seq<string>
    decreases |lists|
  {
    if |lists| == 0 then [] else FlatIds(lists[..|lists| - 1]) + IdsOf(lists[|lists| - 1])
  }

  /** The sum of RrfTerm(w, k, r) over the ranks r < n at which `id` sits in `list`. */
  function ListScore(list: seq<Ranked>, w: real, k: int, id: string, n: nat): real
    requires n <= |list|
    requires k >= 0 || |list| + k + 1 <= 0
    decreases n
  {
    if n == 0 then 0.0
    else ListScore(list, w, k, id, n - 1) + (if list[n - 1].id == id then RrfTerm(w, k, n - 1) else 0.0)
  }

  /** The fused score of `id`: its ListScore summed over all lists with their weights. */
  function RrfScore(lists: seq<seq<Ranked>>, weights: seq<real>, k: int, id: string): real
    requires |weights| == |lists| && SafeK(k, lists)
    decreases |lists|
  {
    if |lists| == 0 then 0.0
    else
      var n := |lists| - 1;
      RrfScore(lists[..n], weights[..n], k, id) + ListScore(lists[n], weights[n], k, id, |lists[n]|)
  }

  /** Every distinct id of the lists in first-seen order, paired with its fused score. */
  function FusedEntries(lists: seq<seq<Ranked>>, weights: seq<real>, k: int): seq<Ranked>
    requires |weights| == |lists| && SafeK(k, lists)
  {
    var u := DedupBy(FlatIds(lists), Same);
    seq(|u|, j requires 0 <= j < |u| => Ranked(u[j], RrfScore(lists, weights, k, u[j])))
  }

  // ---------------------------------------------------------------------------
  // The implementation: the contribution stream and the insertion-ordered dict.
  // ---------------------------------------------------------------------------

  /** The (id, contribution) pairs of the ranks r < n of one list, in rank order. */
  function ListContributions(list: seq<Ranked>, w: real, k: int, n: nat): seq<Ranked>
    requires n <= |list|
    requires k >= 0 || |list| + k + 1 <= 0
    decreases n
  {
    if n == 0 then []
    else ListContributions(list, w, k, n - 1) + [Ranked(list[n - 1].id, RrfTerm(w, k, n - 1))]
  }

  /** The (id, contribution) pairs in the order the two nested loops of `rrf_fuse` visit them. */
  function Contributions(lists: seq<seq<Ranked>>, weights: seq<real>, k: int): seq<Ranked>
    requires |weights| == |lists| && SafeK(k, lists)
    decreases |lists|
  {
    if |lists| == 0 then []
    else
      var n := |lists| - 1;
      Contributions(lists[..n], weights[..n], k) + ListContributions(lists[n], weights[n], k, |lists[n]|)
  }

  /** `fused_scores[id] = fused_scores.get(id, 0.0) + c.score` on an insertion-ordered dict. */
  function AddScore(entries: seq<Ranked>, c: Ranked): seq<Ranked>
    decreases |entries|
  {
    if |entries| == 0 then [c]
    else if entries[0].id == c.id then [Ranked(c.id, entries[0].score + c.score)] + entries[1..]
    else [entries[0]] + AddScore(entries[1..], c)
  }

  /** The dict after adding every contribution of `cs` in order. */
  function Accumulate(cs: seq<Ranked>): seq<Ranked>
    decreases |cs|
  {
    if |cs| == 0 then [] else AddScore(Accumulate(cs[..|cs| - 1]), cs[|cs| - 1])
  }

  /** `rrf_fuse(*lists, k=k, weights=weights)`. */
  function Fuse(lists: seq<seq<Ranked>>, weights: Option<seq<real>>, k: int): (r: Result<seq<Ranked>, FusionError>)
    ensures |lists| == 0 ==> r == Ok([])
    ensures |lists| > 0 && |EffectiveWeights(weights, |lists|)| != |lists|
      ==> r == Err(WeightCountMismatch(|lists|, |EffectiveWeights(weights, |lists|)|))
    ensures |lists| > 0 && |EffectiveWeights(weights, |lists|)| == |lists| && !SafeK(k, lists)
      ==> r == Err(ZeroDivision)
    ensures |lists| > 0 && |EffectiveWeights(weights, |lists|)| == |lists| && SafeK(k, lists)
      ==> r == Ok(SortDesc(FusedEntries(lists, EffectiveWeights(weights, |lists|), k), ScoreOf))
  {
    if |lists| == 0 then Ok([])
    else
      var w := EffectiveWeights(weights, |lists|);
      if |w| != |lists| then Err(WeightCountMismatch(|lists|, |w|))
      else if !SafeK(k, lists) then Err(ZeroDivision)
      else
        FusedIsReference(lists, w, k);
        Ok(SortDesc(Accumulate(Contributions(lists, w, k)), ScoreOf))
  }

  // ---------------------------------------------------------------------------
  // Proof that the dict computes the reference.
  // ---------------------------------------------------------------------------

  /** The sum of the contributions to `id` in `cs`. */
  function Total(cs: seq<Ranked>, id: string): real
    decreases |cs|
  {
    if |cs| == 0 then 0.0
    else Total(cs[..|cs| - 1], id) + (if cs[|cs| - 1].id == id then cs[|cs| - 1].score else 0.0)
  }

  lemma {:induction false} TotalAppend(a: seq<Ranked>, b: seq<Ranked>, id: string)
    ensures Total(a + b, id) == Total(a, id) + Total(b, id)
    decreases |b|
  {
    if |b| == 0 {
      assert a + b == a;
    } else {
      assert (a + b)[..|a + b| - 1] == a + b[..|b| - 1];
      TotalAppend(a, b[..|b| - 1], id);
    }
  }

  lemma IdsOfAppend(a: seq<Ranked>, b: seq<Ranked>)
    ensures IdsOf(a + b) == IdsOf(a) + IdsOf(b)
  {
  }

  lemma {:induction false} ListContributionsTotal(list: seq<Ranked>, w: real, k: int, id: string, n: nat)
    requires n <= |list|
    requires k >= 0 || |list| + k + 1 <= 0
    ensures Total(ListContributions(list, w, k, n), id) == ListScore(list, w, k, id, n)
    decreases n
  {
    if n > 0 {
      var p := ListContributions(list, w, k, n - 1);
      var c := Ranked(list[n - 1].id, RrfTerm(w, k, n - 1));
      ListContributionsTotal(list, w, k, id, n - 1);
      assert (p + [c])[..|p|] == p;
    }
  }

  lemma {:induction false} ListContributionsIds(list: seq<Ranked>, w: real, k: int, n: nat)
    requires n <= |list|
    requires k >= 0 || |list| + k + 1 <= 0
    ensures IdsOf(ListContributions(list, w, k, n)) == IdsOf(list[..n])
    decreases n
  {
    if n > 0 {
      var p := ListContributions(list, w, k, n - 1);
      var c := Ranked(list[n - 1].id, RrfTerm(w, k, n - 1));
      ListContributionsIds(list, w, k, n - 1);
      IdsOfAppend(p, [c]);
      assert list[..n] == list[..n - 1] + [list[n - 1]];
      IdsOfAppend(list[..n - 1], [list[n - 1]]);
    }
  }

  /** The contribution stream visits the ids of FlatIds, and totals to RrfScore. */
  lemma {:induction false} ContributionsMatchReference(lists: seq<seq<Ranked>>, weights: seq<real>, k: int)
    requires |weights| == |lists| && SafeK(k, lists)
    ensures IdsOf(Contributions(lists, weights, k)) == FlatIds(lists)
    ensures forall id :: Total(Contributions(lists, weights, k), id) == RrfScore(lists, weights, k, id)
    decreases |lists|
  {
    if |lists| > 0 {
      var n := |lists| - 1;
      var a := Contributions(lists[..n], weights[..n], k);
      var b := ListContributions(lists[n], weights[n], k, |lists[n]|);
      assert SafeK(k, lists[..n]);
      ContributionsMatchReference(lists[..n], weights[..n], k);
      forall id
        ensures Total(a + b, id) == RrfScore(lists, weights, k, id)
      {
        TotalAppend(a, b, id);
        ListContributionsTotal(lists[n], weights[n], k, id, |lists[n]|);
      }
      ListContributionsIds(lists[n], weights[n], k, |lists[n]|);
      assert lists[n][..|lists[n]|] == lists[n];
      IdsOfAppend(a, b);
    }
  }

  /** `entries` with `c.score` added to every entry whose id is `c.id`. */
  function Bumped(entries: seq<Ranked>, c: Ranked): seq<Ranked>
  {
    seq(|entries|, j requires 0 <= j < |entries| =>
      if entries[j].id == c.id then Ranked(c.id, entries[j].score + c.score) else entries[j])
  }

  lemma BumpedCons(e: Ranked, t: seq<Ranked>, c: Ranked)
    ensures Bumped([e] + t, c) == [if e.id == c.id then Ranked(c.id, e.score + c.score) else e] + Bumped(t, c)
  {
  }

  lemma BumpedAbsent(t: seq<Ranked>, c: Ranked)
    requires c.id !in IdsOf(t)
    ensures Bumped(t, c) == t
  {
    forall j | 0 <= j < |t|
      ensures Bumped(t, c)[j] == t[j]
    {
      assert IdsOf(t)[j] == t[j].id;
    }
  }

  /** Adding to an id already in the dict changes that entry's score only; a new id goes at the end. */
  lemma AddScoreEffect(entries: seq<Ranked>, c: Ranked)
    requires forall i, j :: 0 <= i < j < |entries| ==> entries[i].id != entries[j].id
    ensures c.id in IdsOf(entries) ==> AddScore(entries, c) == Bumped(entries, c)
    ensures c.id !in IdsOf(entries) ==> AddScore(entries, c) == entries + [c]
  {
    if c.id in IdsOf(entries) {
      AddScorePresent(entries, c);
    } else {
      AddScoreAbsent(entries, c);
    }
  }

  lemma {:induction false} AddScoreAbsent(entries: seq<Ranked>, c: Ranked)
    requires c.id !in IdsOf(entries)
    ensures AddScore(entries, c) == entries + [c]
    decreases |entries|
  {
    if |entries| > 0 {
      IdsOfCons(entries);
      AddScoreAbsent(entries[1..], c);
      AddScorePass(entries, c);
      ConsSnoc(entries, c);
    }
  }

  lemma AddScorePass(entries: seq<Ranked>, c: Ranked)
    requires |entries| > 0 && entries[0].id != c.id
    ensures AddScore(entries, c) == [entries[0]] + AddScore(entries[1..], c)
  {
  }

  lemma ConsSnoc<T>(s: seq<T>, x: T)
    requires |s| > 0
    ensures s + [x] == [s[0]] + (s[1..] + [x])
  {
  }

  lemma {:induction false} AddScorePresent(entries: seq<Ranked>, c: Ranked)
    requires forall i, j :: 0 <= i < j < |entries| ==> entries[i].id != entries[j].id
    requires c.id in IdsOf(entries)
    ensures AddScore(entries, c) == Bumped(entries, c)
    decreases |entries|
  {
    var e := entries[0];
    var tl := entries[1..];
    IdsOfCons(entries);
    BumpedCons(e, tl, c);
    assert entries == [e] + tl;
    if e.id == c.id {
      HeadIdNotInTail(entries);
      BumpedAbsent(tl, c);
    } else {
      DistinctTail(entries);
      AddScorePresent(tl, c);
    }
  }

  lemma IdsOfCons(entries: seq<Ranked>)
    requires |entries| > 0
    ensures IdsOf(entries) == [entries[0].id] + IdsOf(entries[1..])
  {
  }

  lemma HeadIdNotInTail(entries: seq<Ranked>)
    requires |entries| > 0
    requires forall i, j :: 0 <= i < j < |entries| ==> entries[i].id != entries[j].id
    ensures entries[0].id !in IdsOf(entries[1..])
  {
    var tl := entries[1..];
    forall j | 0 <= j < |tl|
      ensures IdsOf(tl)[j] != entries[0].id
    {
      assert tl[j] == entries[j + 1];
    }
  }

  lemma DistinctTail(entries: seq<Ranked>)
    requires |entries| > 0
    requires forall i, j :: 0 <= i < j < |entries| ==> entries[i].id != entries[j].id
    ensures forall i, j :: 0 <= i < j < |entries[1..]| ==> entries[1..][i].id != entries[1..][j].id
  {
    var tl := entries[1..];
    forall i, j | 0 <= i < j < |tl|
      ensures tl[i].id != tl[j].id
    {
      assert tl[i] == entries[i + 1] && tl[j] == entries[j + 1];
    }
  }

  /** The id sequence of the dict, each entry with its running total: the reference on the prefix seen. */
  function Expected(cs: seq<Ranked>): seq<Ranked>
  {
    var u := DedupBy(IdsOf(cs), Same);
    seq(|u|, j requires 0 <= j < |u| => Ranked(u[j], Total(cs, u[j])))
  }

  /** First-occurrence de-duplication keeps exactly the values that occur. */
  lemma DedupSameMembers(q: seq<string>)
    ensures forall x :: x in DedupBy(q, Same) <==> x in q
  {
    var u := DedupBy(q, Same);
    assert KeySet(u, Same) == KeySet(q, Same);
    SameKeys(u);
    SameKeys(q);
  }

  /** The dict `rrf_fuse` builds is the reference: first-seen ids with their RRF sums. */
  lemma FusedIsReference(lists: seq<seq<Ranked>>, w: seq<real>, k: int)
    requires |w| == |lists| && SafeK(k, lists)
    ensures Accumulate(Contributions(lists, w, k)) == FusedEntries(lists, w, k)
  {
    var cs := Contributions(lists, w, k);
    AccumulateIsReference(cs);
    ContributionsMatchReference(lists, w, k);
  }

  /** The insertion-ordered dict holds, for each id in first-seen order, the total of its contributions. */
  lemma {:induction false} AccumulateIsReference(cs: seq<Ranked>)
    ensures Accumulate(cs) == Expected(cs)
    decreases |cs|
  {
    if |cs| > 0 {
      var p := cs[..|cs| - 1];
      var c := cs[|cs| - 1];
      assert cs == p + [c];
      AccumulateIsReference(p);
      ExpectedIds(p);
      AddScoreEffect(Expected(p), c);
      ExpectedSnoc(p, c);
    }
  }

  lemma ExpectedIds(p: seq<Ranked>)
    ensures IdsOf(Expected(p)) == DedupBy(IdsOf(p), Same)
    ensures forall i, j :: 0 <= i < j < |Expected(p)| ==> Expected(p)[i].id != Expected(p)[j].id
    ensures forall x :: x in IdsOf(Expected(p)) <==> x in IdsOf(p)
  {
    var u := DedupBy(IdsOf(p), Same);
    var e := Expected(p);
    assert |e| == |u|;
    assert forall j :: 0 <= j < |u| ==> e[j].id == u[j];
    assert IdsOf(e) == u;
    DistinctSame(u);
    DedupSameMembers(IdsOf(p));
  }

  lemma TotalSnoc(p: seq<Ranked>, c: Ranked, x: string)
    ensures Total(p + [c], x) == Total(p, x) + (if c.id == x then c.score else 0.0)
  {
    assert (p + [c])[..|p|] == p;
  }

  lemma DedupSnocSame(q: seq<string>, x: string)
    ensures x in q ==> DedupBy(q + [x], Same) == DedupBy(q, Same)
    ensures x !in q ==> DedupBy(q + [x], Same) == DedupBy(q, Same) + [x]
  {
    DedupBySnoc(q, Same, x);
    DedupSameMembers(q);
    SameKeys(DedupBy(q, Same));
  }

  /** One more contribution bumps a known id's total, or appends a new id with its own score. */
  lemma ExpectedSnoc(p: seq<Ranked>, c: Ranked)
    ensures c.id in IdsOf(p) ==> Expected(p + [c]) == Bumped(Expected(p), c)
    ensures c.id !in IdsOf(p) ==> Expected(p + [c]) == Expected(p) + [c]
  {
    IdsOfAppend(p, [c]);
    DedupSnocSame(IdsOf(p), c.id);
    if c.id in IdsOf(p) {
      ExpectedSnocPresent(p, c);
    } else {
      ExpectedSnocAbsent(p, c);
    }
  }

  lemma ExpectedSnocPresent(p: seq<Ranked>, c: Ranked)
    requires DedupBy(IdsOf(p + [c]), Same) == DedupBy(IdsOf(p), Same)
    ensures Expected(p + [c]) == Bumped(Expected(p), c)
  {
    var u := DedupBy(IdsOf(p), Same);
    var a := Expected(p + [c]);
    var b := Bumped(Expected(p), c);
    assert |a| == |u| == |b|;
    forall j | 0 <= j < |u|
      ensures a[j] == b[j]
    {
      TotalSnoc(p, c, u[j]);
    }
  }

  lemma ExpectedSnocAbsent(p: seq<Ranked>, c: Ranked)
    requires c.id !in IdsOf(p)
    requires DedupBy(IdsOf(p + [c]), Same) == DedupBy(IdsOf(p), Same) + [c.id]
    ensures Expected(p + [c]) == Expected(p) + [c]
  {
    var u := DedupBy(IdsOf(p), Same);
    DedupSameMembers(IdsOf(p));
    ExpectedAt(p, u);
    ExpectedAt(p + [c], u + [c.id]);
    var a := Expected(p + [c]);
    var b := Expected(p) + [c];
    forall j | 0 <= j < |a|
      ensures a[j] == b[j]
    {
      if j == |u| {
        TotalSnoc(p, c, c.id);
        TotalAbsent(p, c.id);
      } else {
        TotalSnoc(p, c, u[j]);
        assert u[j] in u;
      }
    }
  }

  /** The entries of `Expected(cs)`, given its first-seen ids `u`. */
  lemma ExpectedAt(cs: seq<Ranked>, u: seq<string>)
    requires DedupBy(IdsOf(cs), Same) == u
    ensures |Expected(cs)| == |u|
    ensures forall j :: 0 <= j < |u| ==> Expected(cs)[j] == Ranked(u[j], Total(cs, u[j]))
  {
  }

  lemma {:induction false} TotalAbsent(cs: seq<Ranked>, id: string)
    requires id !in IdsOf(cs)
    ensures Total(cs, id) == 0.0
    decreases |cs|
  {
    if |cs| > 0 {
      var p := cs[..|cs| - 1];
      assert IdsOf(cs) == IdsOf(p) + [cs[|cs| - 1].id];
      TotalAbsent(p, id);
    }
  }

  // ---------------------------------------------------------------------------
  // What the fused list promises.
  // ---------------------------------------------------------------------------

  /** The reference entries: each carries its id's fused score, ids are distinct and are exactly the input ids. */
  lemma FusedEntriesFacts(lists: seq<seq<Ranked>>, w: seq<real>, k: int)
    requires |w| == |lists| && SafeK(k, lists)
    ensures forall j :: 0 <= j < |FusedEntries(lists, w, k)| ==>
      FusedEntries(lists, w, k)[j].score == RrfScore(lists, w, k, FusedEntries(lists, w, k)[j].id)
    ensures forall i, j :: 0 <= i < j < |FusedEntries(lists, w, k)| ==>
      FusedEntries(lists, w, k)[i].id != FusedEntries(lists, w, k)[j].id
    ensures forall x :: x in IdsOf(FusedEntries(lists, w, k)) <==> x in FlatIds(lists)
  {
    var u := DedupBy(FlatIds(lists), Same);
    var e := FusedEntries(lists, w, k);
    assert IdsOf(e) == u;
    DistinctSame(u);
    DedupSameMembers(FlatIds(lists));
  }

  /** Reordering entries with distinct ids keeps the ids distinct and the same id set. */
  lemma PermutedEntries(e: seq<Ranked>, out: seq<Ranked>)
    requires multiset(out) == multiset(e)
    requires forall i, j :: 0 <= i < j < |e| ==> e[i].id != e[j].id
    ensures forall j :: 0 <= j < |out| ==> out[j] in e
    ensures forall i, j :: 0 <= i < j < |out| ==> out[i].id != out[j].id
    ensures forall x :: x in IdsOf(out) <==> x in IdsOf(e)
  {
    PermutedMembers(e, out);
    PermutedDistinct(e, out);
    PermutedIds(e, out);
  }

  lemma PermutedMembers(e: seq<Ranked>, out: seq<Ranked>)
    requires multiset(out) == multiset(e)
    ensures forall j :: 0 <= j < |out| ==> out[j] in e
  {
    forall j | 0 <= j < |out|
      ensures out[j] in e
    {
      assert out[j] in multiset(out);
    }
  }

  lemma PermutedDistinct(e: seq<Ranked>, out: seq<Ranked>)
    requires multiset(out) == multiset(e)
    requires forall i, j :: 0 <= i < j < |e| ==> e[i].id != e[j].id
    ensures forall i, j :: 0 <= i < j < |out| ==> out[i].id != out[j].id
  {
    PermutedMembers(e, out);
    assert Distinct(e) by {
      forall i, j | 0 <= i < j < |e|
        ensures e[i] != e[j]
      {
        assert e[i].id != e[j].id;
      }
    }
    PermutationKeepsDistinct(e, out);
    forall i, j | 0 <= i < j < |out|
      ensures out[i].id != out[j].id
    {
      var a :| 0 <= a < |e| && e[a] == out[i];
      var b :| 0 <= b < |e| && e[b] == out[j];
      assert out[i] != out[j];
      if a < b {
        assert e[a].id != e[b].id;
      } else if b < a {
        assert e[b].id != e[a].id;
      }
    }
  }

  lemma PermutedIds(e: seq<Ranked>, out: seq<Ranked>)
    requires multiset(out) == multiset(e)
    ensures forall x :: x in IdsOf(out) <==> x in IdsOf(e)
  {
    PermutedMembers(e, out);
    forall x
      ensures x in IdsOf(out) <==> x in IdsOf(e)
    {
      if x in IdsOf(out) {
        var j :| 0 <= j < |out| && out[j].id == x;
        var a :| 0 <= a < |e| && e[a] == out[j];
        assert IdsOf(e)[a] == x;
      }
      if x in IdsOf(e) {
        var a :| 0 <= a < |e| && e[a].id == x;
        assert e[a] in multiset(out);
        var j :| 0 <= j < |out| && out[j] == e[a];
        assert IdsOf(out)[j] == x;
      }
    }
  }

  /**
   A successful fusion lists every input id exactly once and nothing else,
   gives each its RRF sum, and is in non-increasing score order; ids with
   equal sums keep the order in which the lists first showed them (Python's
   `sorted` is stable over the insertion-ordered dict).
   */
  lemma FuseFacts(lists: seq<seq<Ranked>>, weights: Option<seq<real>>, k: int, out: seq<Ranked>)
    requires |lists| > 0 && Fuse(lists, weights, k) == Ok(out)
    ensures |EffectiveWeights(weights, |lists|)| == |lists| && SafeK(k, lists)
    ensures SortedDesc(out, ScoreOf)
    ensures forall j :: 0 <= j < |out| ==> out[j].score == RrfScore(lists, EffectiveWeights(weights, |lists|), k, out[j].id)
    ensures forall i, j :: 0 <= i < j < |out| ==> out[i].id != out[j].id
    ensures forall x :: x in IdsOf(out) <==> x in FlatIds(lists)
    ensures |out| == |DedupBy(FlatIds(lists), Same)|
    ensures forall v :: WithKey(out, ScoreOf, v) == WithKey(FusedEntries(lists, EffectiveWeights(weights, |lists|), k), ScoreOf, v)
  {
    var w := EffectiveWeights(weights, |lists|);
    var e := FusedEntries(lists, w, k);
    assert out == SortDesc(e, ScoreOf);
    FusedEntriesFacts(lists, w, k);
    FusedEntriesShape(lists, w, k, DedupBy(FlatIds(lists), Same));
    PermutedEntries(e, out);
    ScoresCarry(lists, w, k, e, out);
  }

  /** Entries that each carry their RRF sum still do after reordering. */
  lemma ScoresCarry(lists: seq<seq<Ranked>>, w: seq<real>, k: int, e: seq<Ranked>, out: seq<Ranked>)
    requires |w| == |lists| && SafeK(k, lists)
    requires forall j :: 0 <= j < |e| ==> e[j].score == RrfScore(lists, w, k, e[j].id)
    requires forall j :: 0 <= j < |out| ==> out[j] in e
    ensures forall j :: 0 <= j < |out| ==> out[j].score == RrfScore(lists, w, k, out[j].id)
  {
    forall j | 0 <= j < |out|
      ensures out[j].score == RrfScore(lists, w, k, out[j].id)
    {
      var a :| 0 <= a < |e| && e[a] == out[j];
    }
  }

  lemma {:induction false} ListScoreDistinct(list: seq<Ranked>, w: real, k: int, r: nat, n: nat)
    requires k >= 0
    requires forall i, j :: 0 <= i < j < |list| ==> list[i].id != list[j].id
    requires r < |list| && n <= |list|
    ensures ListScore(list, w, k, list[r].id, n) == if r < n then RrfTerm(w, k, r) else 0.0
    decreases n
  {
    if n > 0 {
      ListScoreDistinct(list, w, k, r, n - 1);
      if n - 1 != r {
        assert list[n - 1].id != list[r].id by {
          if n - 1 < r {
            assert list[n - 1].id != list[r].id;
          } else {
            assert list[r].id != list[n - 1].id;
          }
        }
      }
    }
  }

  lemma Antitone(a: real, b: real)
    requires 0.0 < a <= b
    ensures 1.0 / a >= 1.0 / b
  {
    assert 1.0 / a - 1.0 / b == (b - a) / (a * b);
  }

  /** The scores a single list of distinct ids receives: rank r gets 1 / (k + r + 1). */
  function SingleListScores(list: seq<Ranked>, k: int): (r: seq<Ranked>)
    requires k >= 0
    ensures IdsOf(r) == IdsOf(list)
  {
    seq(|list|, r requires 0 <= r < |list| => Ranked(list[r].id, 1.0 / ((k + r + 1) as real)))
  }

  lemma SingleListScore(list: seq<Ranked>, k: int, r: nat)
    requires k >= 0 && r < |list|
    requires forall i, j :: 0 <= i < j < |list| ==> list[i].id != list[j].id
    ensures RrfScore([list], Ones(1), k, list[r].id) == 1.0 / ((k + r + 1) as real)
  {
    var lists := [list];
    assert lists[..0] == [];
    assert Ones(1)[..0] == [];
    ListScoreDistinct(list, 1.0, k, r, |list|);
  }

  lemma SingleListIds(list: seq<Ranked>)
    requires forall i, j :: 0 <= i < j < |list| ==> list[i].id != list[j].id
    ensures DedupBy(FlatIds([list]), Same) == IdsOf(list)
  {
    var lists := [list];
    assert lists[..0] == [];
    assert FlatIds(lists) == IdsOf(list);
    assert DistinctKeys(IdsOf(list), Same);
    DedupByDistinct(IdsOf(list), Same);
  }

  lemma SingleListSafe(list: seq<Ranked>, k: int)
    requires k >= 0
    ensures SafeK(k, [list])
  {
  }

  /** The fused entries are the deduplicated ids, each with its RRF sum. */
  lemma FusedEntriesShape(lists: seq<seq<Ranked>>, w: seq<real>, k: int, u: seq<string>)
    requires |w| == |lists| && SafeK(k, lists)
    requires DedupBy(FlatIds(lists), Same) == u
    ensures |FusedEntries(lists, w, k)| == |u|
    ensures forall j :: 0 <= j < |u| ==> FusedEntries(lists, w, k)[j] == Ranked(u[j], RrfScore(lists, w, k, u[j]))
  {
  }

  lemma SingleListEntries(list: seq<Ranked>, k: int)
    requires k >= 0
    requires forall i, j :: 0 <= i < j < |list| ==> list[i].id != list[j].id
    ensures SafeK(k, [list])
    ensures FusedEntries([list], Ones(1), k) == SingleListScores(list, k)
  {
    SingleListSafe(list, k);
    SingleListIds(list);
    FusedEntriesShape([list], Ones(1), k, IdsOf(list));
    var want := SingleListScores(list, k);
    var e := FusedEntries([list], Ones(1), k);
    forall r | 0 <= r < |list|
      ensures e[r].id == want[r].id && e[r].score == want[r].score
    {
      assert IdsOf(list)[r] == list[r].id;
      SingleListEntryScore(list, k, r, e[r], want);
    }
    SameEntries(e, want);
  }

  lemma SingleListEntryScore(list: seq<Ranked>, k: int, r: nat, x: Ranked, want: seq<Ranked>)
    requires k >= 0 && r < |list|
    requires forall i, j :: 0 <= i < j < |list| ==> list[i].id != list[j].id
    requires SafeK(k, [list]) && x == Ranked(list[r].id, RrfScore([list], Ones(1), k, list[r].id))
    requires want == SingleListScores(list, k)
    ensures x.score == want[r].score
  {
    SingleListScore(list, k, r);
  }

  lemma SameEntries(e: seq<Ranked>, want: seq<Ranked>)
    requires |e| == |want|
    requires forall r :: 0 <= r < |e| ==> e[r].id == want[r].id && e[r].score == want[r].score
    ensures e == want
  {
  }

  lemma SingleListSorted(list: seq<Ranked>, k: int)
    requires k >= 0
    ensures SortedDesc(SingleListScores(list, k), ScoreOf)
  {
    var want := SingleListScores(list, k);
    forall i, j | 0 <= i < j < |want|
      ensures ScoreOf(want[i]) >= ScoreOf(want[j])
    {
      Antitone((k + i + 1) as real, (k + j + 1) as real);
    }
  }

  /** Fusing one list of distinct ids, with the default weight, keeps its order and scores rank r with 1 / (k + r + 1). */
  lemma FuseSingleList(list: seq<Ranked>, k: int)
    requires k >= 0
    requires forall i, j :: 0 <= i < j < |list| ==> list[i].id != list[j].id
    ensures Fuse([list], None, k) == Ok(SingleListScores(list, k))
  {
    SingleListEntries(list, k);
    SingleListSorted(list, k);
    SortDescOfSorted(SingleListScores(list, k), ScoreOf);
  }

  /** The two lists of the weighted example: x above y, and y above x. */
  function CrossedLists(): seq<seq<Ranked>>
  {
    [[Ranked("x", 0.9), Ranked("y", 0.8)], [Ranked("y", 0.9), Ranked("x", 0.8)]]
  }

  lemma CrossedFlat()
    ensures FlatIds(CrossedLists()) == ["x", "y", "y", "x"]
    ensures |DedupBy(FlatIds(CrossedLists()), Same)| == 2
  {
    var lists := CrossedLists();
    assert lists[..1] == [lists[0]];
    assert [lists[0]][..0] == [];
    assert FlatIds(lists) == ["x", "y", "y", "x"];
    CrossedDedup("x", "y");
  }

  lemma CrossedDedup(x: string, y: string)
    requires x != y
    ensures DedupBy([x, y, y, x], Same) == [x, y]
  {
    DedupRepeat(x, y);
    DedupSnocSame([x, y, y], x);
    assert [x, y, y] + [x] == [x, y, y, x];
  }

  lemma DedupRepeat(x: string, y: string)
    requires x != y
    ensures DedupBy([x, y, y], Same) == [x, y]
  {
    DedupPair(x, y);
    DedupSnocSame([x, y], y);
    assert [x, y] + [y] == [x, y, y];
  }

  lemma DedupPair(x: string, y: string)
    requires x != y
    ensures DedupBy([x, y], Same) == [x, y]
  {
    var e: seq<string> := [];
    var a := e + [x];
    DedupSnocSame(e, x);
    assert DedupBy(a, Same) == [x];
    assert y !in a;
    DedupSnocSame(a, y);
    assert a + [y] == [x, y];
  }

  lemma CrossedScores(w: seq<real>)
    requires |w| == 2
    ensures SafeK(DefaultK, CrossedLists())
    ensures RrfScore(CrossedLists(), w, DefaultK, "x") == w[0] * (1.0 / 61.0) + w[1] * (1.0 / 62.0)
    ensures RrfScore(CrossedLists(), w, DefaultK, "y") == w[0] * (1.0 / 62.0) + w[1] * (1.0 / 61.0)
  {
    var lists := CrossedLists();
    assert SafeK(DefaultK, lists);
    assert lists[..1] == [lists[0]];
    assert w[..1] == [w[0]];
    assert [lists[0]][..0] == [];
    assert [w[0]][..0] == [];
  }

  lemma TwoIds(out: seq<Ranked>)
    requires |out| == 2
    requires forall x :: x in IdsOf(out) <==> x in ["x", "y", "y", "x"]
    requires forall i, j :: 0 <= i < j < |out| ==> out[i].id != out[j].id
    ensures (out[0].id == "x" && out[1].id == "y") || (out[0].id == "y" && out[1].id == "x")
  {
    assert "x" in IdsOf(out) && "y" in IdsOf(out);
    forall j | 0 <= j < |out|
      ensures out[j].id == "x" || out[j].id == "y"
    {
      assert IdsOf(out)[j] in ["x", "y", "y", "x"];
    }
  }

  /** With two lists over the ids x and y, the id with the higher fused score comes first. */
  lemma CrossedOrder(lists: seq<seq<Ranked>>, w: seq<real>, first: string, second: string)
    requires FlatIds(lists) == ["x", "y", "y", "x"] && |DedupBy(FlatIds(lists), Same)| == 2
    requires |lists| == |w| == 2 && ((first == "x" && second == "y") || (first == "y" && second == "x"))
    requires SafeK(DefaultK, lists)
    requires RrfScore(lists, w, DefaultK, first) > RrfScore(lists, w, DefaultK, second)
    ensures var r := Fuse(lists, Some(w), DefaultK);
            r.Ok? && |r.value| == 2 && r.value[0].id == first && r.value[1].id == second
  {
    var out := Fuse(lists, Some(w), DefaultK).value;
    FuseFacts(lists, Some(w), DefaultK, out);
    TwoIds(out);
    assert ScoreOf(out[0]) >= ScoreOf(out[1]);
    assert out[0].score == RrfScore(lists, w, DefaultK, out[0].id);
    assert out[1].score == RrfScore(lists, w, DefaultK, out[1].id);
  }

  /** The weighted example: with crossed lists, the heavier list decides which id comes first. */
  lemma HeavierListWins()
    ensures var r := Fuse(CrossedLists(), Some([10.0, 0.1]), DefaultK);
            r.Ok? && |r.value| == 2 && r.value[0].id == "x" && r.value[1].id == "y"
    ensures var r := Fuse(CrossedLists(), Some([0.1, 10.0]), DefaultK);
            r.Ok? && |r.value| == 2 && r.value[0].id == "y" && r.value[1].id == "x"
  {
    CrossedFlat();
    CrossedScores([10.0, 0.1]);
    CrossedOrder(CrossedLists(), [10.0, 0.1], "x", "y");
    CrossedScores([0.1, 10.0]);
    CrossedOrder(CrossedLists(), [0.1, 10.0], "y", "x");
  }
}

=== FILE: llm.dfy ===
/**
 Answer generation (app/services/llm.py): the labelled context block, the
 prompts, the choice of provider, and the answer with its citation list.
 The Gemini client is an input: a function from (system prompt, user prompt)
 to the generated text, or `None` when the call raises.
 */
module Llm {
  import opened Results
  import opened Seqs
  import opened Text
  import opened Retrieval

  /** The instructions sent as the system prompt with every question. */
  const CitationSystemPrompt: string :=
    "You are a helpful research assistant. Answer the user's question using ONLY the provided context sections.\n\n"
    + "RULES:\n"
    + "1. Base your answer strictly on the provided context. Do not use outside knowledge.\n"
    + "2. For every claim or statement, include a citation in the format [Document: <filename>, Page <number>].\n"
    + "3. If the context does not contain enough information to answer, say \"I don't have enough information to answer this question.\"\n"
    + "4. Be concise and accurate.\n"

  /** The text the mock provider answers with, whatever it is asked. */
  const MockAnswer: string :=
    "Based on the provided documents, here is the answer to your question.\n\n"
    + "[This is a mock response. In production, a real LLM would generate a "
    + "citation-backed answer using the context provided in the system prompt.]"

  /** The answer given without calling any provider when there is no context. */
  const NoResultsAnswer: string :=
    "I don't have enough information to answer this question. No relevant sections were found."

  /** What separates two labelled sections of the context block. */
  const Separator: string := "\n\n---\n\n"

  // ---------------------------------------------------------------------------
  // The context block.
  // ---------------------------------------------------------------------------

  /** The start of the label of the `i`-th result (counted from 0): its 1-based source number. */
  function SourceTag(i: nat): string
  {
    "[Source " + NatToString(i + 1) + ": "
  }

  /** `[Source {i+1}: {filename}, Page {page}]`. */
  function Label(i: nat, r: RetrievalResult): string
  {
    SourceTag(i) + Where(r)
  }

  /** `{filename}, Page {page}]`: the part of the label that names the page. */
  function Where(r: RetrievalResult): string
  {
    r.documentFilename + ", Page " + IntToString(r.pageNumber) + "]"
  }

  /** ` - Section: {title}` when the title is present and non-empty, nothing otherwise. */
  function TitleSuffix(r: RetrievalResult): string
  {
    if r.sectionTitle.Some? && |r.sectionTitle.value| > 0 then " - Section: " + r.sectionTitle.value else ""
  }

  /** One labelled section: label, optional title, a newline, then the content. */
  function Part(i: nat, r: RetrievalResult): string
  {
    Label(i, r) + TitleSuffix(r) + "\n" + r.sectionContent
  }

  /** The labelled sections in result order. */
  function Parts(results: seq<RetrievalResult>): (ps: seq<string>)
    ensures |ps| == |results|
    ensures forall i :: 0 <= i < |results| ==> ps[i] == Part(i, results[i])
  {
    seq(|results|, i requires 0 <= i < |results| => Part(i, results[i]))
  }

  /** `format_context(results)`: the labelled sections joined by the separator. */
  function FormatContext(results: seq<RetrievalResult>): (ctx: string)
    ensures |results| == 0 ==> ctx == ""
    ensures |results| == 1 ==> ctx == Part(0, results[0])
  {
    Join(Parts(results), Separator)
  }

  /**
   Every result is in the context block: its label, and its content word for
   word after the label.
   */
  lemma FormatContextHasEverySection(results: seq<RetrievalResult>)
    ensures forall i :: 0 <= i < |results| ==> Contains(FormatContext(results), Part(i, results[i]))
    ensures forall i :: 0 <= i < |results| ==> Contains(FormatContext(results), Label(i, results[i]))
    ensures forall i :: 0 <= i < |results| ==> Contains(FormatContext(results), results[i].sectionContent)
  {
    var ps := Parts(results);
    var ctx := FormatContext(results);
    JoinHasParts(ps, Separator);
    forall i | 0 <= i < |results|
      ensures Contains(ctx, Label(i, results[i]))
      ensures Contains(ctx, results[i].sectionContent)
    {
      PartHasLabelAndContent(i, results[i]);
      assert Contains(ctx, ps[i]);
      ContainsWithin(ctx, ps[i], Label(i, results[i]));
      ContainsWithin(ctx, ps[i], results[i].sectionContent);
    }
  }

  /**
   The context block grows part by part, in result order: one more result
   adds the separator and its labelled section, numbered after the others.
   */
  lemma FormatContextSnoc(results: seq<RetrievalResult>, r: RetrievalResult)
    requires |results| > 0
    ensures FormatContext(results + [r]) == FormatContext(results) + Separator + Part(|results|, r)
  {
    assert Parts(results + [r]) == Parts(results) + [Part(|results|, r)];
    JoinSnoc(Parts(results), Part(|results|, r), Separator);
  }

  /** A labelled section holds its label and its content. */
  lemma PartHasLabelAndContent(i: nat, r: RetrievalResult)
    ensures Contains(Part(i, r), Label(i, r))
    ensures Contains(Part(i, r), r.sectionContent)
  {
    var head := Label(i, r) + TitleSuffix(r) + "\n";
    assert Part(i, r) == Label(i, r) + (TitleSuffix(r) + "\n" + r.sectionContent);
    ContainsPrefix(Label(i, r), TitleSuffix(r) + "\n" + r.sectionContent);
    assert Part(i, r) == head + r.sectionContent;
    ContainsSuffix(head, r.sectionContent);
  }

  lemma ContainsSuffix(a: string, b: string)
    ensures Contains(a + b, b)
  {
    assert (a + b)[|a|..|a| + |b|] == b;
    assert OccursAt(a + b, b, |a|);
  }

  /** Containment is transitive. */
  lemma ContainsWithin(s: string, t: string, u: string)
    requires Contains(s, t) && Contains(t, u)
    ensures Contains(s, u)
  {
    var o1 :| OccursAt(s, t, o1);
    var o2 :| OccursAt(t, u, o2);
    forall k | 0 <= k < |u|
      ensures s[o1 + o2 + k] == u[k]
    {
      assert s[o1..o1 + |t|][o2 + k] == s[o1 + o2 + k];
      assert t[o2..o2 + |u|][k] == t[o2 + k];
    }
    assert s[o1 + o2..o1 + o2 + |u|] == u;
    assert OccursAt(s, u, o1 + o2);
  }

  /** Two labels with different source numbers never coincide: each section is told apart by its number. */
  lemma LabelsDistinct(i: nat, j: nat, r: RetrievalResult, s: RetrievalResult)
    requires Label(i, r) == Label(j, s)
    ensures i == j
  {
    DigitsBeforeColon(NatToString(i + 1), NatToString(j + 1), Where(r), Where(s));
    NatToStringInjective(i + 1, j + 1);
  }

  lemma DigitsBeforeColon(a: string, b: string, x: string, y: string)
    requires AllDigits(a) && AllDigits(b)
    requires "[Source " + a + ": " + x == "[Source " + b + ": " + y
    ensures a == b
  {
    TagShape(a, x);
    TagShape(b, y);
    assert |a| == |b|;
  }

  /** Where the digits and the colon of a source tag sit. */
  lemma TagShape(a: string, x: string)
    requires AllDigits(a)
    ensures var s := "[Source " + a + ": " + x;
      && |s| > 8 + |a| && s[8 + |a|] == ':' && s[8..8 + |a|] == a
      && forall k :: 8 <= k < 8 + |a| ==> IsDigit(s[k])
  {
    var s := "[Source " + a + ": " + x;
    assert s == "[Source " + (a + (": " + x));
    assert s[8..8 + |a|] == a;
    forall k | 8 <= k < 8 + |a|
      ensures IsDigit(s[k])
    {
      assert s[k] == a[k - 8];
    }
  }

  // ---------------------------------------------------------------------------
  // Providers.
  // ---------------------------------------------------------------------------

  datatype Provider = Mock | Gemini

  datatype LlmError =
    | MissingPackage      // the Gemini constructor's ImportError
    | GenerationFailed    // the provider raised; `generate_answer` re-raises

  /**
   `_create_provider`: the configured name, lower-cased, picks Gemini or the
   mock; any other name falls back to the mock. Building the Gemini client
   raises when its package is not installed.
   */
  function CreateProvider(name: string, geminiInstalled: bool): (r: Result<Provider, LlmError>)
    ensures r == Ok(Gemini) <==> Lower(name) == "gemini" && geminiInstalled
    ensures r == Err(MissingPackage) <==> Lower(name) == "gemini" && !geminiInstalled
    ensures r == Ok(Mock) <==> Lower(name) != "gemini"
  {
    var n := Lower(name);
    if n == "gemini" then (if geminiInstalled then Ok(Gemini) else Err(MissingPackage))
    else if n == "mock" then Ok(Mock)
    else Ok(Mock)
  }

  /** The provider setting is case-insensitive: "GEMINI", "Gemini" and "gemini" choose alike. */
  lemma CreateProviderIgnoresCase(name: string, geminiInstalled: bool)
    ensures CreateProvider(Lower(name), geminiInstalled) == CreateProvider(name, geminiInstalled)
  {
    LowerIdempotent(name);
  }

  /** `provider.generate(system_prompt, user_prompt)`; `gemini` is the remote call. */
  function Generate(provider: Provider, gemini: (string, string) -> Option<string>,
                    system: string, user: string): (r: Option<string>)
    ensures provider == Mock ==> r == Some(MockAnswer)
    ensures provider == Gemini ==> r == gemini(system, user)
  {
    match provider
    case Mock => Some(MockAnswer)
    case Gemini => gemini(system, user)
  }

  // ---------------------------------------------------------------------------
  // Answers.
  // ---------------------------------------------------------------------------

  /** One entry of the citation list. */
  datatype Citation = Citation(documentName: string, pageNumber: int, sectionTitle: Option<string>, textSnippet: string)

  datatype Answer = Answer(answer: string, citations: seq<Citation>)

  /** The user prompt: the context block, then the question. */
  function UserPrompt(query: string, results: seq<RetrievalResult>): string
  {
    "Context:\n" + FormatContext(results) + "\n\nQuestion: " + query
  }

  /** The user prompt carries the question and every section of the context. */
  lemma UserPromptHasContext(query: string, results: seq<RetrievalResult>)
    ensures Contains(UserPrompt(query, results), query)
    ensures forall i :: 0 <= i < |results| ==> Contains(UserPrompt(query, results), Part(i, results[i]))
  {
    var ctx := FormatContext(results);
    Framed("Context:\n", ctx, "\n\nQuestion: ", query);
    FormatContextHasEverySection(results);
    forall i | 0 <= i < |results|
      ensures Contains(UserPrompt(query, results), Part(i, results[i]))
    {
      ContainsWithin(UserPrompt(query, results), ctx, Part(i, results[i]));
    }
  }

  lemma Framed(a: string, x: string, b: string, y: string)
    ensures Contains(a + x + b + y, x) && Contains(a + x + b + y, y)
  {
    ContainsSuffix(a + x + b, y);
    ContainsPrefix(x, b + y);
    ContainsShift(a, x + (b + y), x);
    assert a + (x + (b + y)) == a + x + b + y;
  }

  /** The citation snippet: the first 150 characters and "..." when longer, else all of it. */
  function Snippet(content: string): (r: string)
    ensures |r| <= 153
    ensures |content| <= 150 ==> r == content
    ensures |content| > 150 ==> |r| == 153 && r[..150] == content[..150] && r[150..] == "..."
  {
    if |content| > 150 then content[..150] + "..." else content
  }

  /** The page a citation points at: the key the citation loop de-duplicates on. */
  function CitedPage(r: RetrievalResult): (string, int)
  {
    (r.documentFilename, r.pageNumber)
  }

  function CitationKey(c: Citation): (string, int)
  {
    (c.documentName, c.pageNumber)
  }

  /** The citation built from one result. */
  function CiteOf(r: RetrievalResult): (c: Citation)
    ensures CitationKey(c) == CitedPage(r)
  {
    Citation(r.documentFilename, r.pageNumber, r.sectionTitle, Snippet(r.sectionContent))
  }

  /** The state of the citation loop: the citations so far and the pages already cited. */
  datatype Cited = Cited(citations: seq<Citation>, seen: set<(string, int)>)

  /** The citation loop: one citation for the first result from each (file, page). */
  function Citations(results: seq<RetrievalResult>): Cited
    decreases |results|
  {
    if |results| == 0 then Cited([], {})
    else
      var c := Citations(results[..|results| - 1]);
      var r := results[|results| - 1];
      if CitedPage(r) !in c.seen then Cited(c.citations + [CiteOf(r)], c.seen + {CitedPage(r)})
      else c
  }

  /**
   `generate_answer(query, results)`. No results: the fixed answer, whatever
   the provider would say. Otherwise the provider is asked the citation
   prompt with the labelled context; when it fails the call fails, else its
   text is the answer. The citation list does not depend on that text: it is
   one citation per (file, page), built from the first result from that
   page, in the order the pages first appear.
   */
  function GenerateAnswer(query: string, results: seq<RetrievalResult>, provider: Provider,
                          gemini: (string, string) -> Option<string>): (r: Result<Answer, LlmError>)
    ensures |results| == 0 ==> r == Ok(Answer(NoResultsAnswer, []))
    ensures |results| > 0 ==>
      var asked := Generate(provider, gemini, CitationSystemPrompt, UserPrompt(query, results));
      && (r.Err? <==> asked.None?)
      && (r.Err? ==> r.error == GenerationFailed)
      && (r.Ok? ==> r.value.answer == asked.value)
    ensures |results| > 0 && r.Ok? ==> r.value.citations == Map(DedupBy(results, CitedPage), CiteOf)
    ensures r.Ok? ==> |r.value.citations| <= |results| && DistinctKeys(r.value.citations, CitationKey)
  {
    CitationListShape(results);
    if |results| == 0 then Ok(Answer(NoResultsAnswer, []))
    else
      match Generate(provider, gemini, CitationSystemPrompt, UserPrompt(query, results))
      case None => Err(GenerationFailed)
      case Some(text) => Ok(Answer(text, Citations(results).citations))
  }

  // ---------------------------------------------------------------------------
  // The citation list against first-occurrence de-duplication.
  // ---------------------------------------------------------------------------

  lemma {:induction false} CitationsSeen(results: seq<RetrievalResult>)
    ensures Citations(results).seen == KeySet(Citations(results).citations, CitationKey)
    decreases |results|
  {
    if |results| > 0 {
      var p := results[..|results| - 1];
      var r := results[|results| - 1];
      CitationsSeen(p);
      KeySetSnoc(Citations(p).citations, CitationKey, CiteOf(r));
    }
  }

  /** The citation list cites the first result of each page, in the order the pages first appear. */
  lemma {:induction false} CitationsAreFirstPerPage(results: seq<RetrievalResult>)
    ensures Citations(results).citations == Map(DedupBy(results, CitedPage), CiteOf)
    decreases |results|
  {
    if |results| > 0 {
      var p := results[..|results| - 1];
      var r := results[|results| - 1];
      CitationsAreFirstPerPage(p);
      CitationsSeen(p);
      var d := DedupBy(p, CitedPage);
      MapKeySet(d, CiteOf, CitedPage, CitationKey);
      if CitedPage(r) !in KeySet(d, CitedPage) {
        assert Map(d + [r], CiteOf) == Map(d, CiteOf) + [CiteOf(r)];
      }
    }
  }

  /** The citation list is the first-per-page list, no longer than the results, with no page twice. */
  lemma CitationListShape(results: seq<RetrievalResult>)
    ensures Citations(results).citations == Map(DedupBy(results, CitedPage), CiteOf)
    ensures |Citations(results).citations| <= |results|
    ensures DistinctKeys(Citations(results).citations, CitationKey)
  {
    CitationsAreFirstPerPage(results);
    var d := DedupBy(results, CitedPage);
    SubseqElements(d, results);
    MapKeySet(d, CiteOf, CitedPage, CitationKey);
    var cs := Citations(results).citations;
    forall i, j | 0 <= i < j < |cs|
      ensures CitationKey(cs[i]) != CitationKey(cs[j])
    {
      assert CitationKey(cs[i]) == CitedPage(d[i]) && CitationKey(cs[j]) == CitedPage(d[j]);
    }
  }

  lemma MapKeySet<A, B, K>(s: seq<A>, f: A -> B, k1: A -> K, k2: B -> K)
    requires forall a :: k2(f(a)) == k1(a)
    ensures KeySet(Map(s, f), k2) == KeySet(s, k1)
  {
    var m := Map(s, f);
    forall k | k in KeySet(s, k1)
      ensures k in KeySet(m, k2)
    {
      var i :| 0 <= i < |s| && k1(s[i]) == k;
      assert k2(m[i]) == k;
    }
  }

  /**
   What the citation list promises: no page is cited twice, every page a
   result comes from is cited, and each citation is built from the first
   result of its page.
   */
  lemma CitationFacts(results: seq<RetrievalResult>)
    ensures DistinctKeys(Citations(results).citations, CitationKey)
    ensures forall i :: 0 <= i < |results| ==> CitedPage(results[i]) in KeySet(Citations(results).citations, CitationKey)
    ensures forall j :: 0 <= j < |Citations(results).citations| ==> BuiltFromFirst(results, Citations(results).citations[j])
  {
    CitationsAreFirstPerPage(results);
    var d := DedupBy(results, CitedPage);
    var cs := Citations(results).citations;
    MappedDistinct(d, cs);
    MappedCovers(results, d, cs);
    MappedFirst(results, d, cs);
  }

  /** `c` is built from a result of `results` that no earlier result shares a page with. */
  ghost predicate BuiltFromFirst(results: seq<RetrievalResult>, c: Citation)
  {
    exists i :: 0 <= i < |results| && c == CiteOf(results[i])
                && forall h :: 0 <= h < i ==> CitedPage(results[h]) != CitedPage(results[i])
  }

  /** Citations built from results of distinct pages have distinct pages. */
  lemma MappedDistinct(d: seq<RetrievalResult>, cs: seq<Citation>)
    requires cs == Map(d, CiteOf) && DistinctKeys(d, CitedPage)
    ensures DistinctKeys(cs, CitationKey)
  {
    forall i, j | 0 <= i < j < |cs|
      ensures CitationKey(cs[i]) != CitationKey(cs[j])
    {
      assert CitationKey(cs[i]) == CitedPage(d[i]) && CitationKey(cs[j]) == CitedPage(d[j]);
    }
  }

  /** Citations built from one result per page of `results` cite every page of `results`. */
  lemma MappedCovers(results: seq<RetrievalResult>, d: seq<RetrievalResult>, cs: seq<Citation>)
    requires cs == Map(d, CiteOf) && KeySet(d, CitedPage) == KeySet(results, CitedPage)
    ensures forall i :: 0 <= i < |results| ==> CitedPage(results[i]) in KeySet(cs, CitationKey)
  {
    MapKeySet(d, CiteOf, CitedPage, CitationKey);
    forall i | 0 <= i < |results|
      ensures CitedPage(results[i]) in KeySet(cs, CitationKey)
    {
      assert CitedPage(results[i]) in KeySet(results, CitedPage);
    }
  }

  /** Citations built from first-of-their-page results are each built from the first result of a page. */
  lemma MappedFirst(results: seq<RetrievalResult>, d: seq<RetrievalResult>, cs: seq<Citation>)
    requires cs == Map(d, CiteOf) && forall j :: 0 <= j < |d| ==> FirstWithKey(results, CitedPage, d[j])
    ensures forall j :: 0 <= j < |cs| ==> BuiltFromFirst(results, cs[j])
  {
    forall j | 0 <= j < |cs|
      ensures BuiltFromFirst(results, cs[j])
    {
      assert FirstWithKey(results, CitedPage, d[j]);
      var i :| 0 <= i < |results| && results[i] == d[j] && forall h :: 0 <= h < i ==> CitedPage(results[h]) != CitedPage(d[j]);
      assert cs[j] == CiteOf(results[i]);
    }
  }

  /** With the mock provider every non-empty question is answered with the mock text and the citations. */
  lemma MockAlwaysAnswers(query: string, results: seq<RetrievalResult>, gemini: (string, string) -> Option<string>)
    requires |results| > 0
    ensures GenerateAnswer(query, results, Mock, gemini) == Ok(Answer(MockAnswer, Citations(results).citations))
  {
  }

  /** Results from one page give exactly one citation, built from the first of them. */
  lemma {:induction false} OnePageOneCitation(results: seq<RetrievalResult>)
    requires |results| > 0
    requires forall i :: 0 <= i < |results| ==> CitedPage(results[i]) == CitedPage(results[0])
    ensures Citations(results).citations == [CiteOf(results[0])]
    ensures Citations(results).seen == {CitedPage(results[0])}
    decreases |results|
  {
    if |results| > 1 {
      var p := results[..|results| - 1];
      assert p[0] == results[0];
      OnePageOneCitation(p);
    }
  }
}

=== FILE: pdf_processor.dfy ===
/**
 The span-to-section loop of `PDFProcessor.process_pdf`
 (app/services/pdf_processor.py). Opening the PDF and reading each page's
 text dictionary belong to the PDF library; here every page arrives as its
 list of blocks, each text block holding lines of spans.
 */
module PdfProcessor {
  import opened Results
  import opened Seqs
  import opened Text

  /** `PDFProcessor()` with no argument: spans of at least 12.0 points are headers. */
  const DefaultMinHeaderSize: real := 12.0

  /** One span of the text dictionary: its text, font size and font flags. */
  datatype Span = Span(text: string, size: real, flags: int)

  /** One block: a text block has lines of spans, an image block has no "lines" key. */
  datatype Block = Block(lines: Option<seq<seq<Span>>>)

  datatype Section = Section(title: string, content: string, index: nat)

  datatype PageData = PageData(pageNumber: nat, sections: seq<Section>)

  // ---------------------------------------------------------------------------
  // The spans of a page, in reading order.
  // ---------------------------------------------------------------------------

  function Concat(lines: seq<seq<Span>>): seq<Span>
    decreases |lines|
  {
    if |lines| == 0 then [] else Concat(lines[..|lines| - 1]) + lines[|lines| - 1]
  }

  function BlockSpans(b: Block): seq<Span>
  {
    if b.lines.Some? then Concat(b.lines.value) else []
  }

  /** The three nested loops over blocks, lines and spans, as one sequence of spans. */
  function Spans(blocks: seq<Block>): seq<Span>
    decreases |blocks|
  {
    if |blocks| == 0 then [] else Spans(blocks[..|blocks| - 1]) + BlockSpans(blocks[|blocks| - 1])
  }

  // ---------------------------------------------------------------------------
  // Classifying a span.
  // ---------------------------------------------------------------------------

  /**
   `flags & 2**4` is non-zero: bit 4 of the flags. Python's `&` reads a
   negative number in two's complement, which is what flooring division by 16
   followed by a parity test gives for every integer.
   */
  predicate Bold(flags: int)
  {
    (flags / 16) % 2 == 1
  }

  predicate IsHeader(s: Span, minHeaderSize: real)
  {
    s.size >= minHeaderSize || Bold(s.flags)
  }

  /** With the default of 12.0 points, a span is a header exactly when it is at least that size or bold. */
  lemma DefaultHeaders(s: Span)
    ensures IsHeader(s, DefaultMinHeaderSize) <==> s.size >= 12.0 || s.flags % 32 >= 16
  {
    BoldIsBitFour(s.flags);
  }

  /** `s.strip()` is empty. */
  predicate Blank(s: string)
  {
    |Strip(s)| == 0
  }

  /** Bit 4 is set exactly when the remainder modulo 32 is at least 16: 16 and 48 are bold, 0, 15 and 32 are not. */
  lemma BoldIsBitFour(flags: int)
    ensures Bold(flags) <==> flags % 32 >= 16
  {
    var q := flags / 32;
    var m := flags % 32;
    assert flags == 32 * q + m;
    if m >= 16 {
      assert flags == 16 * (2 * q + 1) + (m - 16);
      assert flags / 16 == 2 * q + 1;
    } else {
      assert flags == 16 * (2 * q) + m;
      assert flags / 16 == 2 * q;
    }
  }

  // ---------------------------------------------------------------------------
  // The loop.
  // ---------------------------------------------------------------------------

  /** The loop state: the closed sections, the open section and `section_count`. */
  datatype Builder = Builder(sections: seq<Section>, current: Section, count: nat)

  /** `f"Page {page_num + 1} Introduction"`. */
  function IntroTitle(pageNum: nat): (t: string)
    ensures |t| > 0
  {
    "Page " + NatToString(pageNum + 1) + " Introduction"
  }

  /** The state before the first span of page `pageNum` (counted from 0). */
  function Start(pageNum: nat): Builder
  {
    Builder([], Section(IntroTitle(pageNum), "", 0), 1)
  }

  /**
   One span. Blank text is skipped. A header closes the open section when its
   content is not blank and opens one titled by the header, with the next
   index; on blank content it only retitles the open section. Any other span
   adds its stripped text and one space to the open section's content.
   */
  function Step(b: Builder, s: Span, minHeaderSize: real): Builder
  {
    var text := Strip(s.text);
    if |text| == 0 then b
    else if IsHeader(s, minHeaderSize) then
      if !Blank(b.current.content) then
        Builder(b.sections + [b.current], Section(text, "", b.count), b.count + 1)
      else
        b.(current := b.current.(title := text))
    else
      b.(current := b.current.(content := b.current.content + text + " "))
  }

  /** The state after the spans `spans`, in order. */
  function Build(spans: seq<Span>, pageNum: nat, minHeaderSize: real): Builder
    decreases |spans|
  {
    if |spans| == 0 then Start(pageNum)
    else Step(Build(spans[..|spans| - 1], pageNum, minHeaderSize), spans[|spans| - 1], minHeaderSize)
  }

  /** "Add the last section of the page" when it has content or a title. */
  function Finish(b: Builder): seq<Section>
  {
    if !Blank(b.current.content) || |b.current.title| > 0 then b.sections + [b.current] else b.sections
  }

  /**
   One page: its number counted from 1 and its sections. There is always at
   least one section; the indices run 0, 1, 2, … in order; every section but
   the last has some non-whitespace content; the contents together are the
   body text of the page; every title is the page's introduction title or the
   text of a header span.
   */
  function ProcessPage(pageNum: nat, blocks: seq<Block>, minHeaderSize: real): (r: PageData)
    ensures r.pageNumber == pageNum + 1
    ensures |r.sections| >= 1
    ensures forall i :: 0 <= i < |r.sections| ==> r.sections[i].index == i
    ensures forall i :: 0 <= i < |r.sections| - 1 ==> !AllSpace(r.sections[i].content)
    ensures Contents(r.sections) == BodyText(Spans(blocks), minHeaderSize)
    ensures forall i :: 0 <= i < |r.sections| ==>
      r.sections[i].title == IntroTitle(pageNum) || r.sections[i].title in HeaderTitles(Spans(blocks), minHeaderSize)
  {
    var spans := Spans(blocks);
    var b := Build(spans, pageNum, minHeaderSize);
    BuildFacts(spans, pageNum, minHeaderSize);
    FinishFacts(b, spans, pageNum, minHeaderSize);
    PageData(pageNum + 1, Finish(b))
  }

  /** `process_pdf`: one entry per page, numbered from 1 in page order. */
  function ProcessPdf(pages: seq<seq<Block>>, minHeaderSize: real): (r: seq<PageData>)
    ensures |r| == |pages|
    ensures forall i :: 0 <= i < |pages| ==> r[i].pageNumber == i + 1 && |r[i].sections| >= 1
    ensures forall i :: 0 <= i < |pages| ==> r[i].sections == ProcessPage(i, pages[i], minHeaderSize).sections
  {
    seq(|pages|, i requires 0 <= i < |pages| => ProcessPage(i, pages[i], minHeaderSize))
  }

  // ---------------------------------------------------------------------------
  // The reference: what the sections should hold.
  // ---------------------------------------------------------------------------

  /** The contents of the sections, one after another. */
  function Contents(sections: seq<Section>): string
    decreases |sections|
  {
    if |sections| == 0 then [] else Contents(sections[..|sections| - 1]) + sections[|sections| - 1].content
  }

  /** The body text of the spans: each non-blank, non-header span's stripped text followed by one space. */
  function BodyText(spans: seq<Span>, minHeaderSize: real): string
    decreases |spans|
  {
    if |spans| == 0 then []
    else
      var s := spans[|spans| - 1];
      BodyText(spans[..|spans| - 1], minHeaderSize)
        + (if !Blank(s.text) && !IsHeader(s, minHeaderSize) then Strip(s.text) + " " else [])
  }

  /** The stripped texts of the non-blank header spans. */
  function HeaderTitles(spans: seq<Span>, minHeaderSize: real): set<string>
    decreases |spans|
  {
    if |spans| == 0 then {}
    else
      var s := spans[|spans| - 1];
      HeaderTitles(spans[..|spans| - 1], minHeaderSize)
        + (if !Blank(s.text) && IsHeader(s, minHeaderSize) then {Strip(s.text)} else {})
  }

  /** The shape the loop keeps: numbering, non-empty titles, and content that is empty or has text. */
  ghost predicate Good(b: Builder)
  {
    && (forall i :: 0 <= i < |b.sections| ==> b.sections[i].index == i && !AllSpace(b.sections[i].content))
    && b.current.index == |b.sections| && b.count == |b.sections| + 1
    && |b.current.title| > 0
    && (b.current.content == [] || !AllSpace(b.current.content))
  }

  /** The contents so far, open section included, are the body text of the spans read so far. */
  ghost predicate Conserves(b: Builder, spans: seq<Span>, minHeaderSize: real)
  {
    Contents(b.sections) + b.current.content == BodyText(spans, minHeaderSize)
  }

  /** Every title so far is the introduction title or a header's text. */
  ghost predicate Titled(b: Builder, spans: seq<Span>, pageNum: nat, minHeaderSize: real)
  {
    && (forall i :: 0 <= i < |b.sections| ==>
          b.sections[i].title == IntroTitle(pageNum) || b.sections[i].title in HeaderTitles(spans, minHeaderSize))
    && (b.current.title == IntroTitle(pageNum) || b.current.title in HeaderTitles(spans, minHeaderSize))
  }

  // ---------------------------------------------------------------------------
  // Proofs.
  // ---------------------------------------------------------------------------

  /** `not s.strip()` holds exactly when every character of `s` is whitespace. */
  lemma BlankIsAllSpace(s: string)
    ensures Blank(s) <==> AllSpace(s)
  {
    var r := Strip(s);
    StripSlice(s);
    var i, j :| 0 <= i <= j <= |s| && r == s[i..j] && AllSpace(s[..i]) && AllSpace(s[j..]);
    if |r| == 0 {
      forall k | 0 <= k < |s|
        ensures IsSpace(s[k])
      {
        if k < i {
          assert s[k] == s[..i][k];
        } else {
          assert s[k] == s[j..][k - j];
        }
      }
    } else {
      assert r[0] == s[i] && !IsSpace(r[0]);
    }
  }

  /** Appending stripped, non-empty text and a space leaves content with text in it. */
  lemma AppendedHasText(c: string, text: string)
    requires |text| > 0 && Trimmed(text)
    ensures !AllSpace(c + text + " ")
  {
    assert (c + text + " ")[|c|] == text[0];
  }

  // The four branches of `Step`, one lemma each.

  lemma StepSkip(b: Builder, s: Span, minHeaderSize: real)
    requires Blank(s.text)
    ensures Step(b, s, minHeaderSize) == b
  {
  }

  lemma StepClose(b: Builder, s: Span, minHeaderSize: real)
    requires !Blank(s.text) && IsHeader(s, minHeaderSize) && !Blank(b.current.content)
    ensures Step(b, s, minHeaderSize) == Builder(b.sections + [b.current], Section(Strip(s.text), "", b.count), b.count + 1)
  {
  }

  lemma StepRetitle(b: Builder, s: Span, minHeaderSize: real)
    requires !Blank(s.text) && IsHeader(s, minHeaderSize) && Blank(b.current.content)
    ensures Step(b, s, minHeaderSize) == b.(current := b.current.(title := Strip(s.text)))
  {
  }

  lemma StepAppend(b: Builder, s: Span, minHeaderSize: real)
    requires !Blank(s.text) && !IsHeader(s, minHeaderSize)
    ensures Step(b, s, minHeaderSize) == b.(current := b.current.(content := b.current.content + Strip(s.text) + " "))
  {
  }

  /** Reading one span more is one more step. */
  lemma BuildSnoc(p: seq<Span>, s: Span, pageNum: nat, minHeaderSize: real)
    ensures Build(p + [s], pageNum, minHeaderSize) == Step(Build(p, pageNum, minHeaderSize), s, minHeaderSize)
  {
    assert (p + [s])[..|p|] == p;
  }

  lemma ContentsSnoc(sections: seq<Section>, c: Section)
    ensures Contents(sections + [c]) == Contents(sections) + c.content
  {
    assert (sections + [c])[..|sections|] == sections;
  }

  lemma BodyTextSnoc(spans: seq<Span>, s: Span, minHeaderSize: real)
    ensures BodyText(spans + [s], minHeaderSize) ==
      BodyText(spans, minHeaderSize) + (if !Blank(s.text) && !IsHeader(s, minHeaderSize) then Strip(s.text) + " " else [])
  {
    assert (spans + [s])[..|spans|] == spans;
  }

  lemma HeaderTitlesSnoc(spans: seq<Span>, s: Span, minHeaderSize: real)
    ensures HeaderTitles(spans + [s], minHeaderSize) ==
      HeaderTitles(spans, minHeaderSize) + (if !Blank(s.text) && IsHeader(s, minHeaderSize) then {Strip(s.text)} else {})
  {
    assert (spans + [s])[..|spans|] == spans;
  }

  /** Closing the open section keeps the shape: it had text, and the new one is numbered next. */
  lemma GoodClose(b: Builder, title: string)
    requires Good(b) && !AllSpace(b.current.content) && |title| > 0
    ensures Good(Builder(b.sections + [b.current], Section(title, "", b.count), b.count + 1))
  {
    var ss := b.sections + [b.current];
    forall i | 0 <= i < |ss|
      ensures ss[i].index == i && !AllSpace(ss[i].content)
    {
      if i < |b.sections| {
        assert ss[i] == b.sections[i];
      }
    }
  }

  lemma StepGood(b: Builder, s: Span, minHeaderSize: real)
    requires Good(b)
    ensures Good(Step(b, s, minHeaderSize))
  {
    if Blank(s.text) {
      StepSkip(b, s, minHeaderSize);
    } else if IsHeader(s, minHeaderSize) {
      BlankIsAllSpace(b.current.content);
      if Blank(b.current.content) {
        StepRetitle(b, s, minHeaderSize);
      } else {
        StepClose(b, s, minHeaderSize);
        GoodClose(b, Strip(s.text));
      }
    } else {
      StepAppend(b, s, minHeaderSize);
      AppendedHasText(b.current.content, Strip(s.text));
    }
  }

  lemma StepConserves(b: Builder, spans: seq<Span>, s: Span, minHeaderSize: real)
    requires Conserves(b, spans, minHeaderSize)
    ensures Conserves(Step(b, s, minHeaderSize), spans + [s], minHeaderSize)
  {
    BodyTextSnoc(spans, s, minHeaderSize);
    var r := Step(b, s, minHeaderSize);
    if Blank(s.text) {
      StepSkip(b, s, minHeaderSize);
      ConservesSame(b, spans, s, minHeaderSize);
    } else if IsHeader(s, minHeaderSize) {
      if Blank(b.current.content) {
        StepRetitle(b, s, minHeaderSize);
        ConservesSame(b, spans, s, minHeaderSize);
        ConservesRetitled(b, r, spans + [s], minHeaderSize);
      } else {
        StepClose(b, s, minHeaderSize);
        ConservesSame(b, spans, s, minHeaderSize);
        ConservesClosed(b, r, spans + [s], minHeaderSize);
      }
    } else {
      StepAppend(b, s, minHeaderSize);
      ConservesAppended(b, r, spans, s, Strip(s.text), minHeaderSize);
    }
  }

  /** A span that adds no body text leaves the body text as it was. */
  lemma ConservesSame(b: Builder, spans: seq<Span>, s: Span, minHeaderSize: real)
    requires Conserves(b, spans, minHeaderSize)
    requires BodyText(spans + [s], minHeaderSize) == BodyText(spans, minHeaderSize) + []
    ensures Conserves(b, spans + [s], minHeaderSize)
  {
    assert BodyText(spans, minHeaderSize) + [] == BodyText(spans, minHeaderSize);
  }

  lemma ConservesRetitled(b: Builder, r: Builder, spans: seq<Span>, minHeaderSize: real)
    requires Conserves(b, spans, minHeaderSize)
    requires r.sections == b.sections && r.current.content == b.current.content
    ensures Conserves(r, spans, minHeaderSize)
  {
  }

  lemma ConservesClosed(b: Builder, r: Builder, spans: seq<Span>, minHeaderSize: real)
    requires Conserves(b, spans, minHeaderSize)
    requires r.sections == b.sections + [b.current] && r.current.content == ""
    ensures Conserves(r, spans, minHeaderSize)
  {
    ContentsSnoc(b.sections, b.current);
    assert Contents(r.sections) + "" == Contents(r.sections);
  }

  lemma ConservesAppended(b: Builder, r: Builder, spans: seq<Span>, s: Span, text: string, minHeaderSize: real)
    requires Conserves(b, spans, minHeaderSize)
    requires BodyText(spans + [s], minHeaderSize) == BodyText(spans, minHeaderSize) + (text + " ")
    requires r.sections == b.sections && r.current.content == b.current.content + text + " "
    ensures Conserves(r, spans + [s], minHeaderSize)
  {
    TextAppended(Contents(b.sections), b.current.content, text);
  }

  lemma TextAppended(done: string, open: string, text: string)
    ensures done + (open + text + " ") == (done + open) + (text + " ")
  {
  }

  lemma StepTitled(b: Builder, spans: seq<Span>, s: Span, pageNum: nat, minHeaderSize: real)
    requires Titled(b, spans, pageNum, minHeaderSize)
    ensures Titled(Step(b, s, minHeaderSize), spans + [s], pageNum, minHeaderSize)
  {
    HeaderTitlesSnoc(spans, s, minHeaderSize);
    if Blank(s.text) {
      StepSkip(b, s, minHeaderSize);
    } else if IsHeader(s, minHeaderSize) {
      if Blank(b.current.content) {
        StepRetitle(b, s, minHeaderSize);
      } else {
        StepClose(b, s, minHeaderSize);
        TitledClose(b, HeaderTitles(spans + [s], minHeaderSize), IntroTitle(pageNum));
      }
    } else {
      StepAppend(b, s, minHeaderSize);
    }
  }

  /** Closing the open section moves its title, which was allowed, among the closed ones. */
  lemma TitledClose(b: Builder, titles: set<string>, intro: string)
    requires forall i :: 0 <= i < |b.sections| ==> b.sections[i].title == intro || b.sections[i].title in titles
    requires b.current.title == intro || b.current.title in titles
    ensures forall i :: 0 <= i < |b.sections + [b.current]| ==>
      (b.sections + [b.current])[i].title == intro || (b.sections + [b.current])[i].title in titles
  {
    var ss := b.sections + [b.current];
    forall i | 0 <= i < |ss|
      ensures ss[i].title == intro || ss[i].title in titles
    {
      if i < |b.sections| {
        assert ss[i] == b.sections[i];
      }
    }
  }

  /** The loop keeps its shape, conserves the body text and invents no title. */
  lemma {:induction false} BuildFacts(spans: seq<Span>, pageNum: nat, minHeaderSize: real)
    ensures Good(Build(spans, pageNum, minHeaderSize))
    ensures Conserves(Build(spans, pageNum, minHeaderSize), spans, minHeaderSize)
    ensures Titled(Build(spans, pageNum, minHeaderSize), spans, pageNum, minHeaderSize)
    decreases |spans|
  {
    if |spans| > 0 {
      var p := spans[..|spans| - 1];
      var s := spans[|spans| - 1];
      BuildFacts(p, pageNum, minHeaderSize);
      assert spans == p + [s];
      var b := Build(p, pageNum, minHeaderSize);
      BuildSnoc(p, s, pageNum, minHeaderSize);
      StepGood(b, s, minHeaderSize);
      StepConserves(b, p, s, minHeaderSize);
      StepTitled(b, p, s, pageNum, minHeaderSize);
    } else {
      assert Contents([]) + [] == BodyText([], minHeaderSize);
    }
  }

  /** The open section is always added at the end, since its title is never empty. */
  lemma FinishFacts(b: Builder, spans: seq<Span>, pageNum: nat, minHeaderSize: real)
    requires Good(b) && Conserves(b, spans, minHeaderSize) && Titled(b, spans, pageNum, minHeaderSize)
    ensures Finish(b) == b.sections + [b.current]
    ensures forall i :: 0 <= i < |Finish(b)| ==> Finish(b)[i].index == i
    ensures forall i :: 0 <= i < |Finish(b)| - 1 ==> !AllSpace(Finish(b)[i].content)
    ensures Contents(Finish(b)) == BodyText(spans, minHeaderSize)
    ensures forall i :: 0 <= i < |Finish(b)| ==>
      Finish(b)[i].title == IntroTitle(pageNum) || Finish(b)[i].title in HeaderTitles(spans, minHeaderSize)
  {
    ContentsSnoc(b.sections, b.current);
  }

  // ---------------------------------------------------------------------------
  // Properties of the loop.
  // ---------------------------------------------------------------------------

  function NotBlankSpan(s: Span): bool
  {
    !Blank(s.text)
  }

  /** Spans with blank text change nothing: the page reads as if they were absent. */
  lemma {:induction false} BlankSpansIgnored(spans: seq<Span>, pageNum: nat, minHeaderSize: real)
    ensures Build(spans, pageNum, minHeaderSize) == Build(Filter(spans, NotBlankSpan), pageNum, minHeaderSize)
    decreases |spans|
  {
    if |spans| > 0 {
      var p := spans[..|spans| - 1];
      var s := spans[|spans| - 1];
      BlankSpansIgnored(p, pageNum, minHeaderSize);
      assert spans == p + [s];
      BuildSnoc(p, s, pageNum, minHeaderSize);
      FilterSnoc(p, s, NotBlankSpan);
      var f := Filter(p, NotBlankSpan);
      if NotBlankSpan(s) {
        BuildSnoc(f, s, pageNum, minHeaderSize);
      } else {
        StepSkip(Build(p, pageNum, minHeaderSize), s, minHeaderSize);
        assert f + [] == f;
      }
    }
  }

  /**
   A header arriving while the open section still has no text only renames
   it: no section is closed and the index does not move.
   */
  lemma HeaderOnEmptyRetitles(b: Builder, s: Span, minHeaderSize: real)
    requires Good(b) && b.current.content == []
    requires !Blank(s.text) && IsHeader(s, minHeaderSize)
    ensures Step(b, s, minHeaderSize).sections == b.sections
    ensures Step(b, s, minHeaderSize).current == Section(Strip(s.text), [], b.current.index)
  {
  }

  /**
   A header after some body text closes the open section unchanged and opens
   an empty one titled by the header, with the next index.
   */
  lemma HeaderAfterTextOpensSection(b: Builder, s: Span, minHeaderSize: real)
    requires Good(b) && b.current.content != []
    requires !Blank(s.text) && IsHeader(s, minHeaderSize)
    ensures Step(b, s, minHeaderSize).sections == b.sections + [b.current]
    ensures Step(b, s, minHeaderSize).current == Section(Strip(s.text), [], |b.sections| + 1)
  {
    BlankIsAllSpace(b.current.content);
  }

  /** A page without text has exactly its introduction section, empty. */
  lemma EmptyPage(pageNum: nat, minHeaderSize: real)
    ensures ProcessPage(pageNum, [], minHeaderSize).sections == [Section(IntroTitle(pageNum), [], 0)]
  {
  }

  /** A first body span and then a header give two sections: the introduction with the text, and the header's. */
  lemma TextThenHeader(pageNum: nat, body: Span, header: Span, minHeaderSize: real)
    requires !Blank(body.text) && !IsHeader(body, minHeaderSize)
    requires !Blank(header.text) && IsHeader(header, minHeaderSize)
    ensures Finish(Build([body, header], pageNum, minHeaderSize)) ==
      [Section(IntroTitle(pageNum), Strip(body.text) + " ", 0), Section(Strip(header.text), [], 1)]
  {
    var b1 := FirstBodySpan(pageNum, body, minHeaderSize);
    BuildSnoc([body], header, pageNum, minHeaderSize);
    assert [body] + [header] == [body, header];
    StepClose(b1, header, minHeaderSize);
    var r := Step(b1, header, minHeaderSize);
    assert [] + [b1.current] == [b1.current];
    FinishTitled(r);
  }

  /** After one body span, the introduction section holds its text, which is not blank. */
  lemma FirstBodySpan(pageNum: nat, body: Span, minHeaderSize: real) returns (b1: Builder)
    requires !Blank(body.text) && !IsHeader(body, minHeaderSize)
    ensures b1 == Build([body], pageNum, minHeaderSize)
    ensures b1 == Builder([], Section(IntroTitle(pageNum), Strip(body.text) + " ", 0), 1)
    ensures !Blank(b1.current.content)
  {
    BuildSnoc([], body, pageNum, minHeaderSize);
    assert [] + [body] == [body];
    StepAppend(Start(pageNum), body, minHeaderSize);
    var t := Strip(body.text);
    assert [] + t + " " == t + " ";
    TextIsNotBlank(t);
    b1 := Build([body], pageNum, minHeaderSize);
  }

  /** Stripped, non-empty text followed by a space is not blank. */
  lemma TextIsNotBlank(t: string)
    requires |t| > 0 && Trimmed(t)
    ensures !Blank(t + " ")
  {
    AppendedHasText([], t);
    assert [] + t + " " == t + " ";
    BlankIsAllSpace(t + " ");
  }

  /** An open section with a title is always added at the end. */
  lemma FinishTitled(b: Builder)
    requires |b.current.title| > 0
    ensures Finish(b) == b.sections + [b.current]
  {
  }
}

=== FILE: reranker.dfy ===
/**
 Cross-encoder re-ranking (`ReRanker.rerank` in app/services/reranker.py).
 The model is an input: `None` when it is switched off by failing to load,
 otherwise a batch scorer whose `None` answer stands for `predict` raising.
 The result records are Python objects that the loop updates in place, so a
 fallback taken after the loop returns the caller's list with the new scores
 already written into it; `Mutated` models that list.
 */
module Reranker {
  import opened Results
  import opened Seqs
  import opened Retrieval

  /** The loaded cross-encoder: scores a batch of (query, passage) pairs, or fails. */
  datatype CrossEncoder = CrossEncoder(predict: seq<(string, string)> -> Option<seq<real>>)

  function ResultScore(r: RetrievalResult): real
  {
    r.score
  }

  function Min(a: nat, b: nat): nat
  {
    if a <= b then a else b
  }

  /** `[(query, r.section_content) for r in results]`. */
  function Pairs(query: string, results: seq<RetrievalResult>): (ps: seq<(string, string)>)
    ensures |ps| == |results|
    ensures forall i :: 0 <= i < |results| ==> ps[i] == (query, results[i].sectionContent)
  {
    seq(|results|, i requires 0 <= i < |results| => (query, results[i].sectionContent))
  }

  /** `list(zip(results, scores))`: as long as the shorter of the two. */
  function Zip(results: seq<RetrievalResult>, scores: seq<real>): (z: seq<(RetrievalResult, real)>)
    ensures |z| == Min(|results|, |scores|)
    ensures forall i :: 0 <= i < |z| ==> z[i] == (results[i], scores[i])
  {
    var n := Min(|results|, |scores|);
    seq(n, i requires 0 <= i < n => (results[i], scores[i]))
  }

  function PairScore(p: (RetrievalResult, real)): real
  {
    p.1
  }

  /** `result.score = float(ce_score)`. */
  function WithScore(p: (RetrievalResult, real)): RetrievalResult
  {
    p.0.(score := p.1)
  }

  /** The zipped results, each carrying its cross-encoder score. */
  function Rescored(results: seq<RetrievalResult>, scores: seq<real>): (r: seq<RetrievalResult>)
    ensures |r| == Min(|results|, |scores|)
    ensures forall i :: 0 <= i < |r| ==> r[i] == results[i].(score := scores[i])
  {
    Map(Zip(results, scores), WithScore)
  }

  /** The caller's list once the loop has run: the zipped prefix re-scored, the rest untouched. */
  function Mutated(results: seq<RetrievalResult>, scores: seq<real>): (r: seq<RetrievalResult>)
    ensures |r| == |results|
    ensures forall i :: 0 <= i < |r| ==> r[i] == if i < |scores| then results[i].(score := scores[i]) else results[i]
  {
    Rescored(results, scores) + results[Min(|results|, |scores|)..]
  }

  /** The length of Python's `s[:n]` for a list of length `len`; a negative `n` counts from the end. */
  function HeadLength(len: nat, n: int): (m: nat)
    ensures m <= len
    ensures n >= 0 ==> m == Min(len, n)
    ensures n < 0 ==> m == if len + n > 0 then len + n else 0
  {
    if n >= 0 then Min(len, n)
    else if len + n > 0 then len + n else 0
  }

  /** `top_n` is truthy: neither `None` nor 0. */
  predicate Truthy(topN: Option<int>)
  {
    topN.Some? && topN.value != 0
  }

  /** `reranked[:top_n] if top_n else reranked`. */
  function Cut<T>(s: seq<T>, topN: Option<int>): (r: seq<T>)
    ensures Truthy(topN) ==> r == s[..HeadLength(|s|, topN.value)]
    ensures !Truthy(topN) ==> r == s
  {
    if Truthy(topN) then s[..HeadLength(|s|, topN.value)] else s
  }

  /**
   The loop over the pairs sorted by cross-encoder score: the same as sorting
   the re-scored results by their new score.
   */
  function Reranked(results: seq<RetrievalResult>, scores: seq<real>): (r: seq<RetrievalResult>)
    ensures r == SortDesc(Rescored(results, scores), ResultScore)
  {
    SortDescMap(Zip(results, scores), PairScore, WithScore, ResultScore);
    Map(SortDesc(Zip(results, scores), PairScore), WithScore)
  }

  /** How many of `m` re-ranked results the `top_n` cut keeps. */
  function Kept(m: nat, topN: Option<int>): (n: nat)
    ensures n <= m
    ensures !Truthy(topN) ==> n == m
  {
    if Truthy(topN) then HeadLength(m, topN.value) else m
  }

  /** What the `try` block returns once `predict` has answered with `scores`. */
  function Scored(results: seq<RetrievalResult>, scores: seq<real>, topN: Option<int>): (r: seq<RetrievalResult>)
    ensures var n := Kept(Min(|results|, |scores|), topN);
      if n == 0 then r == Mutated(results, scores)
      else r == SortDesc(Rescored(results, scores), ResultScore)[..n]
  {
    var cut := Cut(Reranked(results, scores), topN);
    if |cut| == 0 then Mutated(results, scores) else cut
  }

  /**
   `rerank(query, results, top_n)`. Disabled, empty input, no model and a
   failing `predict` return the input. Otherwise the re-scored results in
   descending order, cut to `top_n`; when that leaves nothing, reading
   `reranked[0]` raises and the handler returns the caller's (mutated) list.
   */
  function Rerank(enabled: bool, query: string, results: seq<RetrievalResult>,
                  model: Option<CrossEncoder>, topN: Option<int>): (r: seq<RetrievalResult>)
    ensures !enabled || |results| == 0 || model.None? ==> r == results
    ensures enabled && model.Some? && model.value.predict(Pairs(query, results)).None? ==> r == results
    ensures enabled && |results| > 0 && model.Some? && model.value.predict(Pairs(query, results)).Some? ==>
      var scores := model.value.predict(Pairs(query, results)).value;
      var n := Kept(Min(|results|, |scores|), topN);
      if n == 0 then r == Mutated(results, scores)
      else r == SortDesc(Rescored(results, scores), ResultScore)[..n]
  {
    if !enabled then results
    else if |results| == 0 then results
    else if model.None? then results
    else
      match model.value.predict(Pairs(query, results))
      case None => results
      case Some(scores) => Scored(results, scores, topN)
  }

  // ---------------------------------------------------------------------------
  // What a successful re-rank promises.
  // ---------------------------------------------------------------------------

  /**
   When scoring succeeds and the cut keeps something, the result is in
   non-increasing score order, draws every record from the re-scored results
   (each at most as often as there), keeps results with equal scores in their
   input order, and without a cut holds all of them.
   */
  lemma RerankFacts(query: string, results: seq<RetrievalResult>, model: CrossEncoder,
                    topN: Option<int>, scores: seq<real>)
    requires model.predict(Pairs(query, results)) == Some(scores)
    requires Kept(Min(|results|, |scores|), topN) > 0
    ensures SortedDesc(Rerank(true, query, results, Some(model), topN), ResultScore)
    ensures multiset(Rerank(true, query, results, Some(model), topN)) <= multiset(Rescored(results, scores))
    ensures forall v :: Subseq(WithKey(Rerank(true, query, results, Some(model), topN), ResultScore, v),
                               WithKey(Rescored(results, scores), ResultScore, v))
    ensures !Truthy(topN) ==> multiset(Rerank(true, query, results, Some(model), topN)) == multiset(Rescored(results, scores))
  {
    var n := Kept(Min(|results|, |scores|), topN);
    SortedPrefix(Rescored(results, scores), n);
  }

  /** A prefix of the stable descending sort of `s`. */
  lemma SortedPrefix(s: seq<RetrievalResult>, n: nat)
    requires n <= |s|
    ensures SortedDesc(SortDesc(s, ResultScore)[..n], ResultScore)
    ensures multiset(SortDesc(s, ResultScore)[..n]) <= multiset(s)
    ensures forall v :: Subseq(WithKey(SortDesc(s, ResultScore)[..n], ResultScore, v), WithKey(s, ResultScore, v))
    ensures n == |s| ==> multiset(SortDesc(s, ResultScore)[..n]) == multiset(s)
  {
    var all := SortDesc(s, ResultScore);
    var r := all[..n];
    assert all == r + all[n..];
    forall i, j | 0 <= i < j < |r|
      ensures ResultScore(r[i]) >= ResultScore(r[j])
    {
      assert r[i] == all[i] && r[j] == all[j];
    }
    forall v
      ensures Subseq(WithKey(r, ResultScore, v), WithKey(s, ResultScore, v))
    {
      WithKeyAppend(r, all[n..], ResultScore, v);
      PrefixSubseq(WithKey(r, ResultScore, v), WithKey(all[n..], ResultScore, v));
    }
  }

  lemma PrefixSubseq<T>(a: seq<T>, b: seq<T>)
    ensures Subseq(a, a + b)
  {
    SubseqRefl(a);
    SubseqAppend(a, a, b);
  }

  lemma {:induction false} SubseqAppend<T>(a: seq<T>, c: seq<T>, b: seq<T>)
    requires Subseq(a, c)
    ensures Subseq(a, c + b)
    decreases |b|
  {
    if |b| > 0 {
      var b' := b[..|b| - 1];
      SubseqAppend(a, c, b');
      SubseqSnoc(a, c + b', b[|b| - 1]);
      assert c + b' + [b[|b| - 1]] == c + b;
    } else {
      assert c + b == c;
    }
  }

  /** A model that returns no scores leaves nothing to rank: the fallback hands back the input as it was. */
  lemma RerankNoScores(query: string, results: seq<RetrievalResult>, model: CrossEncoder, topN: Option<int>)
    requires model.predict(Pairs(query, results)) == Some([])
    ensures Rerank(true, query, results, Some(model), topN) == results
  {
    if |results| > 0 {
      assert Mutated(results, []) == results;
    }
  }

  /**
   A negative `top_n` that cuts everything away makes the log line raise after
   the loop: the caller gets its own list back, with every zipped score replaced.
   */
  lemma RerankCutToNothing(query: string, results: seq<RetrievalResult>, model: CrossEncoder, n: int, scores: seq<real>)
    requires model.predict(Pairs(query, results)) == Some(scores)
    requires |results| > 0 && n < 0 && Min(|results|, |scores|) + n <= 0
    ensures Rerank(true, query, results, Some(model), Some(n)) == Mutated(results, scores)
  {
  }
}

=== FILE: results.dfy ===
/** Optional values and results with an error, for the source's `None` and its exceptions. */
module Results {

  datatype Option<+T> = None | Some(value: T)

  datatype Result<+T, +E> = Ok(value: T) | Err(error: E)
}

=== FILE: retrieval.dfy ===
/**
 The pure part of hierarchical retrieval (`RetrievalService.search` in
 app/services/retrieval.py): the vector-store hits are turned into a
 `hit_map` dict (section id to score), the joined Section/Page/Document rows
 for those ids are turned into a `results_map` dict, and the results are read
 back in the order in which the ids first appeared among the hits. Embedding
 the query, the vector search and the SQL join are inputs: `hits` is what the
 vector store answered and `rows` is the joined table before the `IN` filter.
 */
module Retrieval {
  import opened Results
  import opened Seqs
  import Fusion

  /** One vector-store hit: a section id (already `str(hit.id)`) and its similarity score, the same pair fusion ranks. */
  type Hit = Fusion.Ranked

  /** One row of the Section JOIN Page JOIN Document query, reduced to the fields `search` reads. */
  datatype Row = Row(
    sectionId: string,
    title: Option<string>,
    content: string,
    sectionIndex: int,
    pageNumber: int,
    filename: string,
    documentId: string)

  /** The `RetrievalResult` record: a section with its page, its document and its score. */
  datatype RetrievalResult = RetrievalResult(
    sectionId: string,
    sectionTitle: Option<string>,
    sectionContent: string,
    sectionIndex: int,
    pageNumber: int,
    documentFilename: string,
    documentId: string,
    score: real)

  /** The record built from a row and the score looked up for its id. */
  function Hydrate(row: Row, score: real): (r: RetrievalResult)
    ensures r.sectionId == row.sectionId && r.score == score
  {
    RetrievalResult(row.sectionId, row.title, row.content, row.sectionIndex,
                    row.pageNumber, row.filename, row.documentId, score)
  }

  function ResultIds(rs: seq<RetrievalResult>): (ids: seq<string>)
    ensures |ids| == |rs|
    ensures forall j :: 0 <= j < |rs| ==> ids[j] == rs[j].sectionId
  {
    seq(|rs|, j requires 0 <= j < |rs| => rs[j].sectionId)
  }

  // ---------------------------------------------------------------------------
  // The reference: which row and which score belong to an id.
  // ---------------------------------------------------------------------------

  /** The score of the LAST hit with this id, if any (later dict assignments overwrite earlier ones). */
  function LastScore(hits: seq<Hit>, id: string): Option<real>
    decreases |hits|
  {
    if |hits| == 0 then None
    else if hits[|hits| - 1].id == id then Some(hits[|hits| - 1].score)
    else LastScore(hits[..|hits| - 1], id)
  }

  /** The LAST row with this section id, if any. */
  function LastRow(rows: seq<Row>, id: string): Option<Row>
    decreases |rows|
  {
    if |rows| == 0 then None
    else if rows[|rows| - 1].sectionId == id then Some(rows[|rows| - 1])
    else LastRow(rows[..|rows| - 1], id)
  }

  lemma {:induction false} LastScoreFound(hits: seq<Hit>, id: string)
    ensures LastScore(hits, id).Some? <==> id in Fusion.IdsOf(hits)
    decreases |hits|
  {
    if |hits| > 0 {
      var p := hits[..|hits| - 1];
      LastScoreFound(p, id);
      assert Fusion.IdsOf(hits) == Fusion.IdsOf(p) + [hits[|hits| - 1].id];
    }
  }

  lemma {:induction false} LastRowFound(rows: seq<Row>, id: string)
    ensures LastRow(rows, id).Some? <==> exists j :: 0 <= j < |rows| && rows[j].sectionId == id
    ensures LastRow(rows, id).Some? ==> LastRow(rows, id).value in rows && LastRow(rows, id).value.sectionId == id
    decreases |rows|
  {
    if |rows| > 0 {
      var p := rows[..|rows| - 1];
      LastRowFound(p, id);
      if exists j :: 0 <= j < |p| && p[j].sectionId == id {
        var j :| 0 <= j < |p| && p[j].sectionId == id;
        assert rows[j] == p[j];
      }
      if LastRow(p, id).Some? {
        assert LastRow(p, id).value in rows;
      }
      if rows[|rows| - 1].sectionId != id {
        forall j | 0 <= j < |rows| && rows[j].sectionId == id
          ensures 0 <= j < |p| && p[j].sectionId == id
        {
        }
      }
    }
  }

  // ---------------------------------------------------------------------------
  // The loops of `search`.
  // ---------------------------------------------------------------------------

  /** `hit_map[str(hit.id)] = hit.score` for every hit in turn. */
  function HitMap(hits: seq<Hit>): map<string, real>
    decreases |hits|
  {
    if |hits| == 0 then map[]
    else
      var h := hits[|hits| - 1];
      HitMap(hits[..|hits| - 1])[h.id := h.score]
  }

  /** `results_map[str(section.id)] = RetrievalResult(...)` for every row the `IN` filter lets through. */
  function ResultsMap(rows: seq<Row>, hitMap: map<string, real>): map<string, RetrievalResult>
    decreases |rows|
  {
    if |rows| == 0 then map[]
    else
      var row := rows[|rows| - 1];
      var m := ResultsMap(rows[..|rows| - 1], hitMap);
      if row.sectionId in hitMap then
        m[row.sectionId := Hydrate(row, hitMap[row.sectionId])]
      else m
  }

  /** The closing loop: the results of the ids that have one, in the order of `ids`. */
  function InOrder(ids: seq<string>, resultsMap: map<string, RetrievalResult>): seq<RetrievalResult>
    decreases |ids|
  {
    if |ids| == 0 then []
    else
      var sid := ids[|ids| - 1];
      InOrder(ids[..|ids| - 1], resultsMap) + (if sid in resultsMap then [resultsMap[sid]] else [])
  }

  /** The dict keys of `hit_map`: each hit id once, in the order of its first hit. */
  function SectionIds(hits: seq<Hit>): (ids: seq<string>)
    ensures Subseq(ids, Fusion.IdsOf(hits))
    ensures forall i, j :: 0 <= i < j < |ids| ==> ids[i] != ids[j]
    ensures forall x :: x in ids <==> x in Fusion.IdsOf(hits)
  {
    var u := DedupBy(Fusion.IdsOf(hits), Same);
    DistinctSame(u);
    SameKeys(u);
    SameKeys(Fusion.IdsOf(hits));
    u
  }

  /** `search` after the vector query: no hits gives no results, otherwise the hydrated rows in hit order. */
  function Search(hits: seq<Hit>, rows: seq<Row>): (r: seq<RetrievalResult>)
    ensures |hits| == 0 ==> r == []
    ensures |r| <= |SectionIds(hits)|
    ensures forall i, j :: 0 <= i < j < |r| ==> r[i].sectionId != r[j].sectionId
    ensures forall id :: id in ResultIds(r) <==> id in Fusion.IdsOf(hits) && LastRow(rows, id).Some?
    ensures forall j :: 0 <= j < |r| ==>
      LastRow(rows, r[j].sectionId).Some? && LastScore(hits, r[j].sectionId).Some? &&
      r[j] == Hydrate(LastRow(rows, r[j].sectionId).value, LastScore(hits, r[j].sectionId).value)
    ensures Subseq(ResultIds(r), SectionIds(hits))
  {
    if |hits| == 0 then []
    else
      var ids := SectionIds(hits);
      var hm := HitMap(hits);
      var rm := ResultsMap(rows, hm);
      SearchFacts(hits, rows, ids, hm, rm);
      InOrder(ids, rm)
  }

  // ---------------------------------------------------------------------------
  // Proofs.
  // ---------------------------------------------------------------------------

  /** `hit_map` holds exactly the hit ids, each with its last hit's score. */
  lemma {:induction false} HitMapIsLast(hits: seq<Hit>)
    ensures forall id :: id in HitMap(hits) <==> LastScore(hits, id).Some?
    ensures forall id :: id in HitMap(hits) ==> HitMap(hits)[id] == LastScore(hits, id).value
    decreases |hits|
  {
    if |hits| > 0 {
      HitMapIsLast(hits[..|hits| - 1]);
    }
  }

  /** `results_map` holds the ids that are hits and have a row, each hydrated from its last row. */
  lemma {:induction false} ResultsMapIsLast(rows: seq<Row>, hm: map<string, real>)
    ensures forall id :: id in ResultsMap(rows, hm) <==> id in hm && LastRow(rows, id).Some?
    ensures forall id :: id in ResultsMap(rows, hm) ==>
      ResultsMap(rows, hm)[id] == Hydrate(LastRow(rows, id).value, hm[id])
    decreases |rows|
  {
    if |rows| > 0 {
      var p := rows[..|rows| - 1];
      ResultsMapIsLast(p, hm);
      var row := rows[|rows| - 1];
      forall id | id in hm && row.sectionId == id
        ensures LastRow(rows, id) == Some(row)
      {
      }
    }
  }

  /** The closing loop keeps the ids that have a result, in order, and reads each from the map. */
  lemma InOrderFacts(ids: seq<string>, rm: map<string, RetrievalResult>)
    requires forall id :: id in rm ==> rm[id].sectionId == id
    ensures Subseq(ResultIds(InOrder(ids, rm)), ids)
    ensures forall id :: id in ResultIds(InOrder(ids, rm)) <==> id in ids && id in rm
    ensures forall j :: 0 <= j < |InOrder(ids, rm)| ==>
      InOrder(ids, rm)[j].sectionId in rm && InOrder(ids, rm)[j] == rm[InOrder(ids, rm)[j].sectionId]
  {
    InOrderSubseq(ids, rm);
    InOrderMembers(ids, rm);
    InOrderEntries(ids, rm);
  }

  /** One more id adds its result's id, when it has a result. */
  lemma InOrderIdsSnoc(ids: seq<string>, rm: map<string, RetrievalResult>)
    requires |ids| > 0
    requires forall id :: id in rm ==> rm[id].sectionId == id
    ensures var sid := ids[|ids| - 1];
      ResultIds(InOrder(ids, rm)) == ResultIds(InOrder(ids[..|ids| - 1], rm)) + (if sid in rm then [sid] else [])
  {
    var sid := ids[|ids| - 1];
    var a := InOrder(ids[..|ids| - 1], rm);
    if sid in rm {
      assert ResultIds(a + [rm[sid]]) == ResultIds(a) + [sid];
    }
  }

  lemma {:induction false} InOrderSubseq(ids: seq<string>, rm: map<string, RetrievalResult>)
    requires forall id :: id in rm ==> rm[id].sectionId == id
    ensures Subseq(ResultIds(InOrder(ids, rm)), ids)
    decreases |ids|
  {
    if |ids| > 0 {
      var p := ids[..|ids| - 1];
      var sid := ids[|ids| - 1];
      InOrderSubseq(p, rm);
      InOrderIdsSnoc(ids, rm);
      var r := ResultIds(InOrder(p, rm));
      assert ids == p + [sid];
      SubseqSnoc(r, p, sid);
      if sid in rm {
        assert ResultIds(InOrder(ids, rm)) == r + [sid];
      } else {
        assert ResultIds(InOrder(ids, rm)) == r;
      }
    }
  }

  lemma {:induction false} InOrderMembers(ids: seq<string>, rm: map<string, RetrievalResult>)
    requires forall id :: id in rm ==> rm[id].sectionId == id
    ensures forall id :: id in ResultIds(InOrder(ids, rm)) <==> id in ids && id in rm
    decreases |ids|
  {
    if |ids| > 0 {
      var p := ids[..|ids| - 1];
      InOrderMembers(p, rm);
      InOrderIdsSnoc(ids, rm);
      assert ids == p + [ids[|ids| - 1]];
    }
  }

  lemma {:induction false} InOrderEntries(ids: seq<string>, rm: map<string, RetrievalResult>)
    requires forall id :: id in rm ==> rm[id].sectionId == id
    ensures forall j :: 0 <= j < |InOrder(ids, rm)| ==>
      InOrder(ids, rm)[j].sectionId in rm && InOrder(ids, rm)[j] == rm[InOrder(ids, rm)[j].sectionId]
    decreases |ids|
  {
    if |ids| > 0 {
      InOrderEntries(ids[..|ids| - 1], rm);
    }
  }

  lemma SearchFacts(hits: seq<Hit>, rows: seq<Row>, ids: seq<string>, hm: map<string, real>,
                    rm: map<string, RetrievalResult>)
    requires ids == SectionIds(hits) && hm == HitMap(hits) && rm == ResultsMap(rows, hm)
    ensures |InOrder(ids, rm)| <= |ids|
    ensures forall i, j :: 0 <= i < j < |InOrder(ids, rm)| ==> InOrder(ids, rm)[i].sectionId != InOrder(ids, rm)[j].sectionId
    ensures forall id :: id in ResultIds(InOrder(ids, rm)) <==> id in Fusion.IdsOf(hits) && LastRow(rows, id).Some?
    ensures forall j :: 0 <= j < |InOrder(ids, rm)| ==>
      LastRow(rows, InOrder(ids, rm)[j].sectionId).Some? && LastScore(hits, InOrder(ids, rm)[j].sectionId).Some? &&
      InOrder(ids, rm)[j] == Hydrate(LastRow(rows, InOrder(ids, rm)[j].sectionId).value,
                                     LastScore(hits, InOrder(ids, rm)[j].sectionId).value)
    ensures Subseq(ResultIds(InOrder(ids, rm)), ids)
  {
    MapFacts(hits, rows);
    InOrderFacts(ids, rm);
    var out := InOrder(ids, rm);
    SubseqElements(ResultIds(out), ids);
    SubseqDistinct(ResultIds(out), ids);
    DistinctResultIds(out);
  }

  /** `results_map` maps each id that is a hit and has a row to the result built from its last row and last score. */
  lemma MapFacts(hits: seq<Hit>, rows: seq<Row>)
    ensures var rm := ResultsMap(rows, HitMap(hits));
      && (forall id :: id in rm ==> rm[id].sectionId == id)
      && (forall id :: id in rm <==> id in Fusion.IdsOf(hits) && LastRow(rows, id).Some?)
      && (forall id :: id in rm ==> LastRow(rows, id).Some? && LastScore(hits, id).Some? &&
                                    rm[id] == Hydrate(LastRow(rows, id).value, LastScore(hits, id).value))
  {
    var hm := HitMap(hits);
    var rm := ResultsMap(rows, hm);
    HitMapIsLast(hits);
    ResultsMapIsLast(rows, hm);
    forall id | id in rm
      ensures rm[id].sectionId == id
    {
      LastRowFound(rows, id);
    }
    forall id
      ensures id in hm <==> id in Fusion.IdsOf(hits)
    {
      LastScoreFound(hits, id);
    }
  }

  lemma DistinctResultIds(out: seq<RetrievalResult>)
    requires forall i, j :: 0 <= i < j < |ResultIds(out)| ==> ResultIds(out)[i] != ResultIds(out)[j]
    ensures forall i, j :: 0 <= i < j < |out| ==> out[i].sectionId != out[j].sectionId
  {
    forall i, j | 0 <= i < j < |out|
      ensures out[i].sectionId != out[j].sectionId
    {
      assert ResultIds(out)[i] != ResultIds(out)[j];
    }
  }
}

=== FILE: seqs.dfy ===
/**
 Sequence vocabulary shared by the retrieval pipeline: order-preserving
 subsequences, first-occurrence de-duplication by a key (a Python loop with a
 `seen` set) and a stable descending sort (Python's `sorted(..., reverse=True)`).
 Every loop of the pipeline walks its input left to right, so the recursive
 definitions here peel the LAST element: the state after `s` is the state after
 `s[..|s| - 1]` updated with `s[|s| - 1]`.
 */
module Seqs {

  /** `a` is `b` with some elements deleted and the rest kept in order. */
  ghost predicate Subseq<T>(a: seq<T>, b: seq<T>)
    decreases |b|
  {
    if |a| == 0 then true
    else if |b| == 0 then false
    else if a[|a| - 1] == b[|b| - 1] && Subseq(a[..|a| - 1], b[..|b| - 1]) then true
    else Subseq(a, b[..|b| - 1])
  }

  /** Appending one element to `b` keeps `a` a subsequence, with or without that element. */
  lemma SubseqSnoc<T>(a: seq<T>, b: seq<T>, x: T)
    requires Subseq(a, b)
    ensures Subseq(a + [x], b + [x])
    ensures Subseq(a, b + [x])
  {
    assert (a + [x])[..|a|] == a;
    assert (b + [x])[..|b|] == b;
  }

  lemma {:induction false} SubseqRefl<T>(a: seq<T>)
    ensures Subseq(a, a)
    decreases |a|
  {
    if |a| > 0 {
      SubseqRefl(a[..|a| - 1]);
    }
  }

  lemma {:induction false} SubseqTrans<T>(a: seq<T>, b: seq<T>, c: seq<T>)
    requires Subseq(a, b) && Subseq(b, c)
    ensures Subseq(a, c)
    decreases |c|
  {
    if |a| == 0 {
    } else if |b| == 0 {
    } else {
      var c' := c[..|c| - 1];
      if b[|b| - 1] == c[|c| - 1] && Subseq(b[..|b| - 1], c') {
        if a[|a| - 1] == b[|b| - 1] && Subseq(a[..|a| - 1], b[..|b| - 1]) {
          SubseqTrans(a[..|a| - 1], b[..|b| - 1], c');
        } else {
          SubseqTrans(a, b[..|b| - 1], c');
        }
      } else {
        SubseqTrans(a, b, c');
      }
    }
  }

  /** A subsequence is no longer than its source and draws every element from it. */
  lemma {:induction false} SubseqElements<T>(a: seq<T>, b: seq<T>)
    requires Subseq(a, b)
    ensures |a| <= |b|
    ensures forall i :: 0 <= i < |a| ==> a[i] in b
    decreases |b|
  {
    if |a| > 0 {
      var b' := b[..|b| - 1];
      if a[|a| - 1] == b[|b| - 1] && Subseq(a[..|a| - 1], b') {
        SubseqElements(a[..|a| - 1], b');
        forall i | 0 <= i < |a|
          ensures a[i] in b
        {
          if i < |a| - 1 {
            assert a[i] == a[..|a| - 1][i];
            assert a[i] in b';
          } else {
            assert a[i] == b[|b| - 1];
          }
        }
      } else {
        SubseqElements(a, b');
      }
    }
  }

  /** The keys of the elements of `s`. */
  function KeySet<T, K(==)>(s: seq<T>, key: T -> K): set<K>
  {
    set i | 0 <= i < |s| :: key(s[i])
  }

  lemma KeySetSnoc<T, K>(s: seq<T>, key: T -> K, x: T)
    ensures KeySet(s + [x], key) == KeySet(s, key) + {key(x)}
  {
    var t := s + [x];
    forall k | k in KeySet(t, key)
      ensures k in KeySet(s, key) + {key(x)}
    {
      var i :| 0 <= i < |t| && key(t[i]) == k;
      if i < |s| {
        assert t[i] == s[i];
      }
    }
    forall k | k in KeySet(s, key)
      ensures k in KeySet(t, key)
    {
      var i :| 0 <= i < |s| && key(s[i]) == k;
      assert t[i] == s[i];
    }
    assert key(t[|s|]) == key(x);
  }

  /** No two elements of `s` share a key. */
  ghost predicate DistinctKeys<T, K>(s: seq<T>, key: T -> K)
  {
    forall i, j :: 0 <= i < j < |s| ==> key(s[i]) != key(s[j])
  }

  /** `x` occurs in `s`, and no element before that occurrence has the key of `x`. */
  ghost predicate FirstWithKey<T, K>(s: seq<T>, key: T -> K, x: T)
  {
    exists i :: 0 <= i < |s| && s[i] == x && forall h :: 0 <= h < i ==> key(s[h]) != key(x)
  }

  /**
   Keeps the first element of `s` for each key and drops the later ones,
   as a left-to-right loop with a `seen` set of keys does.
   */
  function DedupBy<T, K(==)>(s: seq<T>, key: T -> K): (r: seq<T>)
    ensures Subseq(r, s)
    ensures KeySet(r, key) == KeySet(s, key)
    ensures DistinctKeys(r, key)
    ensures forall j :: 0 <= j < |r| ==> FirstWithKey(s, key, r[j])
    decreases |s|
  {
    if |s| == 0 then []
    else
      var d := DedupBy(s[..|s| - 1], key);
      DedupStep(s, key, d);
      if key(s[|s| - 1]) in KeySet(d, key) then d else d + [s[|s| - 1]]
  }

  /** The step of `DedupBy`: what holds of `d` for all but the last element holds after it. */
  lemma DedupStep<T, K>(s: seq<T>, key: T -> K, d: seq<T>)
    requires |s| > 0
    requires Subseq(d, s[..|s| - 1]) && KeySet(d, key) == KeySet(s[..|s| - 1], key) && DistinctKeys(d, key)
    requires forall j :: 0 <= j < |d| ==> FirstWithKey(s[..|s| - 1], key, d[j])
    ensures var x := s[|s| - 1];
      var r := if key(x) in KeySet(d, key) then d else d + [x];
      && Subseq(r, s) && KeySet(r, key) == KeySet(s, key) && DistinctKeys(r, key)
      && forall j :: 0 <= j < |r| ==> FirstWithKey(s, key, r[j])
  {
    var p := s[..|s| - 1];
    var x := s[|s| - 1];
    assert s == p + [x];
    if key(x) in KeySet(d, key) {
      DedupKeep(p, x, key, d);
    } else {
      DedupAdd(p, x, key, d);
    }
  }

  /** A later element whose key was seen is dropped. */
  lemma DedupKeep<T, K>(p: seq<T>, x: T, key: T -> K, d: seq<T>)
    requires Subseq(d, p) && KeySet(d, key) == KeySet(p, key)
    requires forall j :: 0 <= j < |d| ==> FirstWithKey(p, key, d[j])
    requires key(x) in KeySet(d, key)
    ensures Subseq(d, p + [x]) && KeySet(d, key) == KeySet(p + [x], key)
    ensures forall j :: 0 <= j < |d| ==> FirstWithKey(p + [x], key, d[j])
  {
    KeySetSnoc(p, key, x);
    SubseqSnoc(d, p, x);
    FirstWithKeyGrow(p, key, x, d);
  }

  /** An element with a new key is kept, and is the first with its key. */
  lemma DedupAdd<T, K>(p: seq<T>, x: T, key: T -> K, d: seq<T>)
    requires Subseq(d, p) && KeySet(d, key) == KeySet(p, key) && DistinctKeys(d, key)
    requires forall j :: 0 <= j < |d| ==> FirstWithKey(p, key, d[j])
    requires key(x) !in KeySet(d, key)
    ensures Subseq(d + [x], p + [x]) && KeySet(d + [x], key) == KeySet(p + [x], key) && DistinctKeys(d + [x], key)
    ensures forall j :: 0 <= j < |d + [x]| ==> FirstWithKey(p + [x], key, (d + [x])[j])
  {
    KeySetSnoc(p, key, x);
    KeySetSnoc(d, key, x);
    SubseqSnoc(d, p, x);
    FirstWithKeyGrow(p, key, x, d);
    FirstWithKeyNew(p, key, x);
    DistinctKeysSnoc(d, key, x);
    var r := d + [x];
    forall j | 0 <= j < |r|
      ensures FirstWithKey(p + [x], key, r[j])
    {
      if j < |d| {
        assert r[j] == d[j];
      } else {
        assert r[j] == x;
      }
    }
  }

  /** An element with a new key keeps the keys distinct. */
  lemma DistinctKeysSnoc<T, K>(d: seq<T>, key: T -> K, x: T)
    requires DistinctKeys(d, key) && key(x) !in KeySet(d, key)
    ensures DistinctKeys(d + [x], key)
  {
    var r := d + [x];
    forall i, j | 0 <= i < j < |r|
      ensures key(r[i]) != key(r[j])
    {
      assert r[i] == d[i];
      if j < |d| {
        assert r[j] == d[j];
      } else {
        assert key(d[i]) in KeySet(d, key);
      }
    }
  }

  lemma FirstWithKeyGrow<T, K>(p: seq<T>, key: T -> K, x: T, d: seq<T>)
    requires forall j :: 0 <= j < |d| ==> FirstWithKey(p, key, d[j])
    ensures forall j :: 0 <= j < |d| ==> FirstWithKey(p + [x], key, d[j])
  {
    forall j | 0 <= j < |d|
      ensures FirstWithKey(p + [x], key, d[j])
    {
      assert FirstWithKey(p, key, d[j]);
      var i :| 0 <= i < |p| && p[i] == d[j] && forall h :: 0 <= h < i ==> key(p[h]) != key(d[j]);
      assert (p + [x])[i] == d[j];
      assert forall h :: 0 <= h < i ==> (p + [x])[h] == p[h];
    }
  }

  lemma FirstWithKeyNew<T, K>(p: seq<T>, key: T -> K, x: T)
    requires key(x) !in KeySet(p, key)
    ensures FirstWithKey(p + [x], key, x)
  {
    var t := p + [x];
    assert t[|p|] == x;
    forall h | 0 <= h < |p|
      ensures key(t[h]) != key(x)
    {
      assert t[h] == p[h];
      assert key(p[h]) in KeySet(p, key);
    }
  }

  /** Every adjacent pair, and hence every pair, is in non-increasing key order. */
  ghost predicate SortedDesc<T>(s: seq<T>, key: T -> real)
  {
    forall i, j :: 0 <= i < j < |s| ==> key(s[i]) >= key(s[j])
  }

  /** The elements of `s` whose key is `v`, in their order in `s`. */
  function WithKey<T>(s: seq<T>, key: T -> real, v: real): seq<T>
    decreases |s|
  {
    if |s| == 0 then []
    else WithKey(s[..|s| - 1], key, v) + (if key(s[|s| - 1]) == v then [s[|s| - 1]] else [])
  }

  lemma {:induction false} WithKeyAppend<T>(a: seq<T>, b: seq<T>, key: T -> real, v: real)
    ensures WithKey(a + b, key, v) == WithKey(a, key, v) + WithKey(b, key, v)
    decreases |b|
  {
    if |b| == 0 {
      assert a + b == a;
    } else {
      var b' := b[..|b| - 1];
      assert (a + b)[..|a + b| - 1] == a + b';
      WithKeyAppend(a, b', key, v);
    }
  }

  /** The first element of `s` and then the rest, one element at a time from the front. */
  lemma WithKeyCons<T>(x: T, s: seq<T>, key: T -> real, v: real)
    ensures WithKey([x] + s, key, v) == (if key(x) == v then [x] else []) + WithKey(s, key, v)
  {
    WithKeyAppend([x], s, key, v);
    assert [x][..0] == [];
  }

  /** Inserts `x` after every element of `s` whose key is at least key(x). */
  function InsertDesc<T>(x: T, s: seq<T>, key: T -> real): (r: seq<T>)
    ensures multiset(r) == multiset(s) + multiset{x}
    ensures SortedDesc(s, key) ==> SortedDesc(r, key)
    ensures SortedDesc(s, key) ==> forall v :: WithKey(r, key, v) == WithKey(s, key, v) + (if key(x) == v then [x] else [])
    decreases |s|
  {
    if |s| == 0 then [x]
    else if key(s[0]) >= key(x) then
      var t := InsertDesc(x, s[1..], key);
      assert s == [s[0]] + s[1..];
      StableInsertHead(x, s, key, t);
      [s[0]] + t
    else
      StableInsertFront(x, s, key);
      [x] + s
  }

  lemma StableInsertHead<T>(x: T, s: seq<T>, key: T -> real, t: seq<T>)
    requires |s| > 0 && key(s[0]) >= key(x)
    requires multiset(t) == multiset(s[1..]) + multiset{x}
    requires SortedDesc(s[1..], key) ==> SortedDesc(t, key)
    requires SortedDesc(s[1..], key) ==> forall v :: WithKey(t, key, v) == WithKey(s[1..], key, v) + (if key(x) == v then [x] else [])
    ensures SortedDesc(s, key) ==> SortedDesc([s[0]] + t, key)
    ensures SortedDesc(s, key) ==> forall v :: WithKey([s[0]] + t, key, v) == WithKey(s, key, v) + (if key(x) == v then [x] else [])
  {
    if SortedDesc(s, key) {
      assert SortedDesc(s[1..], key);
      HeadDominates(x, s, key, t);
      SortedCons(s[0], t, key);
      assert s == [s[0]] + s[1..];
      HeadWithKey(x, s[0], s[1..], key, t);
    }
  }

  /** Keeping the head in front keeps, key by key, the order of the rest. */
  lemma HeadWithKey<T>(x: T, h: T, tl: seq<T>, key: T -> real, t: seq<T>)
    requires forall v :: WithKey(t, key, v) == WithKey(tl, key, v) + (if key(x) == v then [x] else [])
    ensures forall v :: WithKey([h] + t, key, v) == WithKey([h] + tl, key, v) + (if key(x) == v then [x] else [])
  {
    forall v
      ensures WithKey([h] + t, key, v) == WithKey([h] + tl, key, v) + (if key(x) == v then [x] else [])
    {
      WithKeyCons(h, t, key, v);
      WithKeyCons(h, tl, key, v);
    }
  }

  /** The head of a descending `s` bounds every element of a permutation of its tail plus `x`. */
  lemma HeadDominates<T>(x: T, s: seq<T>, key: T -> real, t: seq<T>)
    requires |s| > 0 && key(s[0]) >= key(x)
    requires SortedDesc(s, key)
    requires multiset(t) == multiset(s[1..]) + multiset{x}
    ensures forall j :: 0 <= j < |t| ==> key(s[0]) >= key(t[j])
  {
    forall j | 0 <= j < |t|
      ensures key(s[0]) >= key(t[j])
    {
      assert t[j] in multiset(t);
      if t[j] != x {
        assert t[j] in multiset(s[1..]);
        var i :| 0 <= i < |s[1..]| && s[1..][i] == t[j];
        assert s[1..][i] == s[i + 1];
      }
    }
  }

  lemma SortedCons<T>(y: T, t: seq<T>, key: T -> real)
    requires SortedDesc(t, key)
    requires forall j :: 0 <= j < |t| ==> key(y) >= key(t[j])
    ensures SortedDesc([y] + t, key)
  {
    var r := [y] + t;
    forall i, j | 0 <= i < j < |r|
      ensures key(r[i]) >= key(r[j])
    {
      assert r[j] == t[j - 1];
      if i > 0 {
        assert r[i] == t[i - 1];
      }
    }
  }

  lemma StableInsertFront<T>(x: T, s: seq<T>, key: T -> real)
    requires |s| > 0 && key(s[0]) < key(x)
    ensures SortedDesc(s, key) ==> SortedDesc([x] + s, key)
    ensures SortedDesc(s, key) ==> forall v :: WithKey([x] + s, key, v) == WithKey(s, key, v) + (if key(x) == v then [x] else [])
  {
    if SortedDesc(s, key) {
      FrontSorted(x, s, key);
      FrontWithKey(x, s, key);
    }
  }

  /** An element above the head of a descending sequence can go in front. */
  lemma FrontSorted<T>(x: T, s: seq<T>, key: T -> real)
    requires |s| > 0 && key(s[0]) < key(x) && SortedDesc(s, key)
    ensures SortedDesc([x] + s, key)
  {
    forall j | 0 <= j < |s|
      ensures key(x) >= key(s[j])
    {
      assert j == 0 || key(s[0]) >= key(s[j]);
    }
    SortedCons(x, s, key);
  }

  /** No element of a descending sequence headed below `x` shares the key of `x`. */
  lemma FrontWithKey<T>(x: T, s: seq<T>, key: T -> real)
    requires |s| > 0 && key(s[0]) < key(x) && SortedDesc(s, key)
    ensures forall v :: WithKey([x] + s, key, v) == WithKey(s, key, v) + (if key(x) == v then [x] else [])
  {
    forall v
      ensures WithKey([x] + s, key, v) == WithKey(s, key, v) + (if key(x) == v then [x] else [])
    {
      WithKeyCons(x, s, key, v);
      if key(x) == v {
        NoneWithKeyAbove(s, key, v);
      }
    }
  }

  /** In a descending sequence headed below `v`, no element has key `v`. */
  lemma NoneWithKeyAbove<T>(s: seq<T>, key: T -> real, v: real)
    requires SortedDesc(s, key)
    requires |s| > 0 && key(s[0]) < v
    ensures WithKey(s, key, v) == []
  {
    WithKeyElements(s, key, v);
  }

  lemma {:induction false} WithKeyElements<T>(s: seq<T>, key: T -> real, v: real)
    ensures forall y :: y in WithKey(s, key, v) ==> y in s && key(y) == v
    decreases |s|
  {
    if |s| > 0 {
      var p := s[..|s| - 1];
      WithKeyElements(p, key, v);
      assert s == p + [s[|s| - 1]];
    }
  }

  /**
   Stable sort in descending key order: a permutation of `s`, non-increasing
   by key, in which elements with equal keys keep their order in `s`.
   */
  function SortDesc<T>(s: seq<T>, key: T -> real): (r: seq<T>)
    ensures multiset(r) == multiset(s)
    ensures |r| == |s|
    ensures SortedDesc(r, key)
    ensures forall v :: WithKey(r, key, v) == WithKey(s, key, v)
    decreases |s|
  {
    if |s| == 0 then []
    else
      var p := s[..|s| - 1];
      var x := s[|s| - 1];
      assert s == p + [x];
      var t := SortDesc(p, key);
      assert forall v :: WithKey(s, key, v) == WithKey(p, key, v) + (if key(x) == v then [x] else []);
      var r := InsertDesc(x, t, key);
      assert |r| == |multiset(r)| == |multiset(t)| + 1;
      r
  }

  /** Sorting a sequence that is already descending leaves it as it is. */
  lemma {:induction false} SortDescOfSorted<T>(s: seq<T>, key: T -> real)
    requires SortedDesc(s, key)
    ensures SortDesc(s, key) == s
    decreases |s|
  {
    if |s| > 0 {
      var p := s[..|s| - 1];
      var x := s[|s| - 1];
      assert s == p + [x];
      assert SortedDesc(p, key);
      SortDescOfSorted(p, key);
      forall i | 0 <= i < |p|
        ensures key(p[i]) >= key(x)
      {
        assert p[i] == s[i];
      }
      InsertAtEnd(x, p, key);
      SortDescSnoc(p, x, key);
    }
  }

  /** Sorting one more element inserts it into the sorted rest. */
  lemma SortDescSnoc<T>(p: seq<T>, x: T, key: T -> real)
    ensures SortDesc(p + [x], key) == InsertDesc(x, SortDesc(p, key), key)
  {
    assert (p + [x])[..|p|] == p;
  }

  lemma {:induction false} InsertAtEnd<T>(x: T, s: seq<T>, key: T -> real)
    requires forall i :: 0 <= i < |s| ==> key(s[i]) >= key(x)
    ensures InsertDesc(x, s, key) == s + [x]
    decreases |s|
  {
    if |s| > 0 {
      InsertAtEnd(x, s[1..], key);
      assert s == [s[0]] + s[1..];
    }
  }

  /** No value occurs twice in `s`. */
  ghost predicate Distinct<T>(s: seq<T>)
  {
    forall i, j :: 0 <= i < j < |s| ==> s[i] != s[j]
  }

  lemma {:induction false} DistinctCount<T>(a: seq<T>, x: T)
    requires Distinct(a)
    ensures multiset(a)[x] <= 1
    decreases |a|
  {
    if |a| > 0 {
      var p := a[..|a| - 1];
      var y := a[|a| - 1];
      assert a == p + [y];
      assert Distinct(p);
      DistinctCount(p, x);
      if y == x {
        assert forall i :: 0 <= i < |p| ==> p[i] != x by {
          forall i | 0 <= i < |p|
            ensures p[i] != x
          {
            assert a[i] != a[|a| - 1];
          }
        }
      }
    }
  }

  lemma TwoCount<T>(b: seq<T>, i: nat, j: nat)
    requires i < j < |b| && b[i] == b[j]
    ensures multiset(b)[b[i]] >= 2
  {
    assert b == b[..j] + [b[j]] + b[j + 1..];
    assert b[..j][i] == b[i];
  }

  /** A permutation of a sequence without repeated values has none either. */
  lemma PermutationKeepsDistinct<T>(a: seq<T>, b: seq<T>)
    requires multiset(a) == multiset(b)
    requires Distinct(a)
    ensures Distinct(b)
  {
    forall i, j | 0 <= i < j < |b|
      ensures b[i] != b[j]
    {
      if b[i] == b[j] {
        TwoCount(b, i, j);
        DistinctCount(a, b[i]);
      }
    }
  }

  /** De-duplicating a sequence whose keys are already distinct changes nothing. */
  lemma {:induction false} DedupByDistinct<T, K>(s: seq<T>, key: T -> K)
    requires DistinctKeys(s, key)
    ensures DedupBy(s, key) == s
    decreases |s|
  {
    if |s| > 0 {
      var p := s[..|s| - 1];
      var x := s[|s| - 1];
      assert s == p + [x];
      assert DistinctKeys(p, key);
      DedupByDistinct(p, key);
      forall k | k in KeySet(p, key)
        ensures k != key(x)
      {
        var i :| 0 <= i < |p| && key(p[i]) == k;
        assert key(s[i]) != key(s[|s| - 1]);
      }
      DedupBySnoc(p, key, x);
    }
  }

  /** De-duplicating one more element keeps it exactly when its key is new. */
  lemma DedupBySnoc<T, K>(p: seq<T>, key: T -> K, x: T)
    ensures DedupBy(p + [x], key) ==
      if key(x) in KeySet(DedupBy(p, key), key) then DedupBy(p, key) else DedupBy(p, key) + [x]
  {
    assert (p + [x])[..|p|] == p;
  }

  /** A subsequence of a sequence without repeats has none either. */
  lemma {:induction false} SubseqDistinct<T>(a: seq<T>, b: seq<T>)
    requires Subseq(a, b) && Distinct(b)
    ensures Distinct(a)
    decreases |b|
  {
    if |a| > 0 {
      var b' := b[..|b| - 1];
      assert Distinct(b');
      var a' := a[..|a| - 1];
      if a[|a| - 1] == b[|b| - 1] && Subseq(a', b') {
        SubseqDistinct(a', b');
        SubseqElements(a', b');
        forall i | 0 <= i < |a'|
          ensures a'[i] != b[|b| - 1]
        {
          var h :| 0 <= h < |b'| && b'[h] == a'[i];
          assert b[h] != b[|b| - 1];
        }
        forall i, j | 0 <= i < j < |a|
          ensures a[i] != a[j]
        {
          assert a[i] == a'[i];
          if j < |a| - 1 {
            assert a[j] == a'[j];
          }
        }
      } else {
        SubseqDistinct(a, b');
      }
    }
  }

  /** `[f(x) for x in s]`. */
  function Map<A, B>(s: seq<A>, f: A -> B): (r: seq<B>)
    ensures |r| == |s|
    ensures forall i :: 0 <= i < |s| ==> r[i] == f(s[i])
  {
    seq(|s|, i requires 0 <= i < |s| => f(s[i]))
  }

  lemma {:induction false} InsertDescMap<A, B>(x: A, s: seq<A>, k1: A -> real, f: A -> B, k2: B -> real)
    requires forall a :: k2(f(a)) == k1(a)
    ensures InsertDesc(f(x), Map(s, f), k2) == Map(InsertDesc(x, s, k1), f)
    decreases |s|
  {
    var m := Map(s, f);
    if |s| == 0 {
      assert Map([x], f) == [f(x)];
    } else if k1(s[0]) >= k1(x) {
      var t := InsertDesc(x, s[1..], k1);
      assert s == [s[0]] + s[1..];
      InsertDescMap(x, s[1..], k1, f, k2);
      InsertDescMapStep(x, s[0], s[1..], k1, f, k2, t);
    } else {
      MapCons(x, s, f);
    }
  }

  /** The step of `InsertDescMap` past a head `h` that stays in front. */
  lemma InsertDescMapStep<A, B>(x: A, h: A, tl: seq<A>, k1: A -> real, f: A -> B, k2: B -> real, t: seq<A>)
    requires k2(f(h)) >= k2(f(x))
    requires InsertDesc(f(x), Map(tl, f), k2) == Map(t, f)
    ensures InsertDesc(f(x), Map([h] + tl, f), k2) == Map([h] + t, f)
  {
    var m := Map(tl, f);
    MapCons(h, tl, f);
    assert ([f(h)] + m)[1..] == m;
    MapCons(h, t, f);
  }

  lemma MapCons<A, B>(a: A, t: seq<A>, f: A -> B)
    ensures Map([a] + t, f) == [f(a)] + Map(t, f)
  {
  }

  /**
   Sorting and then mapping is mapping and then sorting, when the mapped
   elements carry the same sort key as their originals.
   */
  lemma {:induction false} SortDescMap<A, B>(s: seq<A>, k1: A -> real, f: A -> B, k2: B -> real)
    requires forall a :: k2(f(a)) == k1(a)
    ensures SortDesc(Map(s, f), k2) == Map(SortDesc(s, k1), f)
    decreases |s|
  {
    if |s| > 0 {
      var p := s[..|s| - 1];
      var m := Map(s, f);
      assert m[..|m| - 1] == Map(p, f);
      SortDescMap(p, k1, f, k2);
      InsertDescMap(s[|s| - 1], SortDesc(p, k1), k1, f, k2);
    }
  }

  /** A subsequence takes each value at most as often as its source has it. */
  lemma {:induction false} SubseqMultiset<T>(a: seq<T>, b: seq<T>)
    requires Subseq(a, b)
    ensures multiset(a) <= multiset(b)
    decreases |b|
  {
    if |a| > 0 {
      var a' := a[..|a| - 1];
      var b' := b[..|b| - 1];
      assert b == b' + [b[|b| - 1]];
      if a[|a| - 1] == b[|b| - 1] && Subseq(a', b') {
        SubseqMultiset(a', b');
        assert a == a' + [a[|a| - 1]];
      } else {
        SubseqMultiset(a, b');
      }
    }
  }

  /** A subsequence of a sequence whose keys are distinct has distinct keys. */
  lemma {:induction false} SubseqDistinctKeys<T, K>(a: seq<T>, b: seq<T>, key: T -> K)
    requires Subseq(a, b) && DistinctKeys(b, key)
    ensures DistinctKeys(a, key)
    decreases |b|
  {
    if |a| > 0 {
      var b' := b[..|b| - 1];
      assert DistinctKeys(b', key);
      var a' := a[..|a| - 1];
      if a[|a| - 1] == b[|b| - 1] && Subseq(a', b') {
        SubseqDistinctKeys(a', b', key);
        SubseqElements(a', b');
        forall i | 0 <= i < |a'|
          ensures key(a'[i]) != key(b[|b| - 1])
        {
          var h :| 0 <= h < |b'| && b'[h] == a'[i];
          assert key(b[h]) != key(b[|b| - 1]);
        }
        forall i, j | 0 <= i < j < |a|
          ensures key(a[i]) != key(a[j])
        {
          assert a[i] == a'[i];
          if j < |a| - 1 {
            assert a[j] == a'[j];
          }
        }
      } else {
        SubseqDistinctKeys(a, b', key);
      }
    }
  }

  /** The elements of `s` that satisfy `p`, in order. */
  function Filter<T>(s: seq<T>, p: T -> bool): (r: seq<T>)
    ensures |r| <= |s|
    ensures forall i :: 0 <= i < |r| ==> p(r[i]) && r[i] in s
    decreases |s|
  {
    if |s| == 0 then [] else (if p(s[0]) then [s[0]] else []) + Filter(s[1..], p)
  }

  /** Filtering one more element at the end adds it when it passes. */
  lemma {:induction false} FilterSnoc<T>(s: seq<T>, x: T, p: T -> bool)
    ensures Filter(s + [x], p) == Filter(s, p) + (if p(x) then [x] else [])
    decreases |s|
  {
    if |s| == 0 {
      assert ([] + [x])[1..] == [];
    } else {
      assert (s + [x])[1..] == s[1..] + [x];
      FilterSnoc(s[1..], x, p);
    }
  }

  lemma MapSnoc<A, B>(s: seq<A>, x: A, f: A -> B)
    ensures Map(s + [x], f) == Map(s, f) + [f(x)]
  {
  }

  /** The identity on strings: de-duplicating by it keeps the first of each equal string. */
  function Same(x: string): string
  {
    x
  }

  /** With the identity as key, the key set is the set of elements. */
  lemma SameKeys(s: seq<string>)
    ensures forall x :: x in KeySet(s, Same) <==> x in s
  {
    forall x | x in s
      ensures x in KeySet(s, Same)
    {
      var i :| 0 <= i < |s| && s[i] == x;
      assert Same(s[i]) == x;
    }
  }

  /** With the identity as key, distinct keys are distinct elements. */
  lemma DistinctSame(u: seq<string>)
    requires DistinctKeys(u, Same)
    ensures forall i, j :: 0 <= i < j < |u| ==> u[i] != u[j]
  {
    forall i, j | 0 <= i < j < |u|
      ensures u[i] != u[j]
    {
      assert Same(u[i]) != Same(u[j]);
    }
  }
}

=== FILE: text.dfy ===
/**
 The string primitives the pipeline takes from Python, restricted to ASCII:
 `str.isspace`, `str.strip`, `str.split()` (no separator), `str.lower`,
 `sep.join`, `str(int)` and `int(digits)`.
 */
module Text {

  /** Python's `str.isspace` on the ASCII range: space, \t \n \v \f \r and the four separators \x1c-\x1f. */
  predicate IsSpace(c: char)
  {
    c == ' ' || c == '\t' || c == '\n' || c == '\r' || c == '\U{000B}' || c == '\U{000C}'
    || ('\U{001C}' <= c <= '\U{001F}')
  }

  ghost predicate AllSpace(s: string)
  {
    forall i :: 0 <= i < |s| ==> IsSpace(s[i])
  }

  ghost predicate NoSpace(s: string)
  {
    forall i :: 0 <= i < |s| ==> !IsSpace(s[i])
  }

  /** Neither end of `s` is whitespace: `s` is what `strip` leaves. */
  ghost predicate Trimmed(s: string)
  {
    |s| == 0 || (!IsSpace(s[0]) && !IsSpace(s[|s| - 1]))
  }

  /** `str.lstrip()`: drops the leading whitespace. */
  function StripStart(s: string): (r: string)
    ensures |r| <= |s|
    ensures |r| == 0 || !IsSpace(r[0])
    decreases |s|
  {
    if |s| > 0 && IsSpace(s[0]) then StripStart(s[1..]) else s
  }

  /** What `lstrip` leaves is a suffix of `s`, and what it cut off is whitespace. */
  lemma {:induction false} StripStartFacts(s: string)
    ensures StripStart(s) == s[|s| - |StripStart(s)|..]
    ensures AllSpace(s[..|s| - |StripStart(s)|])
    decreases |s|
  {
    if |s| > 0 && IsSpace(s[0]) {
      StripStartFacts(s[1..]);
      StripStartStep(s, StripStart(s[1..]));
    }
  }

  /** One leading space more in front of what `lstrip` left of the rest. */
  lemma StripStartStep(s: string, r: string)
    requires |s| > 0 && IsSpace(s[0])
    requires |r| <= |s| - 1 && r == s[1..][|s| - 1 - |r|..]
    requires AllSpace(s[1..][..|s| - 1 - |r|])
    ensures r == s[|s| - |r|..]
    ensures AllSpace(s[..|s| - |r|])
  {
    var n := |s| - |r|;
    assert s[1..][|s| - 1 - |r|..] == s[n..];
    forall k | 0 <= k < n
      ensures IsSpace(s[..n][k])
    {
      if k > 0 {
        assert s[..n][k] == s[1..][..n - 1][k - 1];
      }
    }
  }

  /** `str.rstrip()`: drops the trailing whitespace. */
  function StripEnd(s: string): (r: string)
    ensures |r| <= |s|
    ensures |r| == 0 || !IsSpace(r[|r| - 1])
    decreases |s|
  {
    if |s| > 0 && IsSpace(s[|s| - 1]) then StripEnd(s[..|s| - 1]) else s
  }

  /** What `rstrip` leaves is a prefix of `s`, and what it cut off is whitespace. */
  lemma {:induction false} StripEndFacts(s: string)
    ensures StripEnd(s) == s[..|StripEnd(s)|]
    ensures AllSpace(s[|StripEnd(s)|..])
    decreases |s|
  {
    if |s| > 0 && IsSpace(s[|s| - 1]) {
      StripEndFacts(s[..|s| - 1]);
      StripEndStep(s, StripEnd(s[..|s| - 1]));
    }
  }

  /** One trailing space more after what `rstrip` left of the rest. */
  lemma StripEndStep(s: string, r: string)
    requires |s| > 0 && IsSpace(s[|s| - 1])
    requires |r| <= |s| - 1 && r == s[..|s| - 1][..|r|]
    requires AllSpace(s[..|s| - 1][|r|..])
    ensures r == s[..|r|]
    ensures AllSpace(s[|r|..])
  {
    var p := s[..|s| - 1];
    assert p[..|r|] == s[..|r|];
    forall k | 0 <= k < |s| - |r|
      ensures IsSpace(s[|r|..][k])
    {
      if k < |s| - 1 - |r| {
        assert s[|r|..][k] == p[|r|..][k];
      }
    }
  }

  /** `str.strip()`: a trimmed string no longer than `s`. StripSlice shows it is a slice of `s` with only whitespace cut off on either side, and StripPadded pins it exactly. */
  function Strip(s: string): (r: string)
    ensures Trimmed(r) && |r| <= |s|
  {
    var t := StripStart(s);
    var r := StripEnd(t);
    StripStartFacts(s);
    StripEndFacts(t);
    StripBounds(s, t, r);
    r
  }

  /** What `strip` leaves is a slice of `s` with only whitespace cut off on either side. */
  lemma StripSlice(s: string)
    ensures exists i, j :: 0 <= i <= j <= |s| && Strip(s) == s[i..j] && AllSpace(s[..i]) && AllSpace(s[j..])
  {
    StripStartFacts(s);
    StripEndFacts(StripStart(s));
    StripBounds(s, StripStart(s), StripEnd(StripStart(s)));
  }

  /** Cutting leading whitespace and then trailing whitespace leaves a trimmed slice between two runs of whitespace. */
  lemma StripBounds(s: string, t: string, r: string)
    requires |t| <= |s| && t == s[|s| - |t|..] && AllSpace(s[..|s| - |t|]) && (|t| == 0 || !IsSpace(t[0]))
    requires |r| <= |t| && r == t[..|r|] && AllSpace(t[|r|..]) && (|r| == 0 || !IsSpace(r[|r| - 1]))
    ensures Trimmed(r) && |r| <= |s|
    ensures exists i, j :: 0 <= i <= j <= |s| && r == s[i..j] && AllSpace(s[..i]) && AllSpace(s[j..])
  {
    var i := |s| - |t|;
    var j := i + |r|;
    assert |r| > 0 ==> r[0] == t[0];
    assert r == s[i..j];
    assert s[j..] == t[|r|..];
  }

  lemma {:induction false} StripStartSpaces(a: string, y: string)
    requires AllSpace(a)
    requires |y| == 0 || !IsSpace(y[0])
    ensures StripStart(a + y) == y
    decreases |a|
  {
    if |a| == 0 {
      assert a + y == y;
    } else {
      assert (a + y)[1..] == a[1..] + y;
      StripStartSpaces(a[1..], y);
    }
  }

  lemma {:induction false} StripEndSpaces(y: string, b: string)
    requires AllSpace(b)
    requires |y| == 0 || !IsSpace(y[|y| - 1])
    ensures StripEnd(y + b) == y
    decreases |b|
  {
    if |b| == 0 {
      assert y + b == y;
    } else {
      assert (y + b)[..|y + b| - 1] == y + b[..|b| - 1];
      StripEndSpaces(y, b[..|b| - 1]);
    }
  }

  /** `strip` finds exactly the trimmed text between two runs of whitespace. */
  lemma StripPadded(a: string, x: string, b: string)
    requires AllSpace(a) && AllSpace(b) && Trimmed(x)
    ensures Strip(a + x + b) == x
  {
    if |x| == 0 {
      assert a + x + b == (a + b) + [];
      StripStartSpaces(a + b, []);
      StripEndSpaces([], []);
    } else {
      assert a + x + b == a + (x + b);
      StripStartSpaces(a, x + b);
      StripEndSpaces(x, b);
    }
  }

  /** Python's `str.lower` on ASCII letters; every other character is kept. */
  function LowerChar(c: char): char
  {
    if 'A' <= c <= 'Z' then (c as int - 'A' as int + 'a' as int) as char else c
  }

  function Lower(s: string): (r: string)
    ensures |r| == |s|
    ensures forall i :: 0 <= i < |s| ==> r[i] == LowerChar(s[i])
  {
    seq(|s|, i requires 0 <= i < |s| => LowerChar(s[i]))
  }

  /** Lower-casing is idempotent and leaves no upper-case ASCII letter behind. */
  lemma LowerIdempotent(s: string)
    ensures Lower(Lower(s)) == Lower(s)
    ensures forall i :: 0 <= i < |s| ==> !('A' <= Lower(s)[i] <= 'Z')
  {
  }

  /** The length of the run of non-whitespace characters that starts `s`. */
  function WordLength(s: string): (n: nat)
    ensures n <= |s| && NoSpace(s[..n])
    ensures n == |s| || IsSpace(s[n])
    decreases |s|
  {
    if |s| == 0 || IsSpace(s[0]) then 0
    else
      var m := WordLength(s[1..]);
      assert s[..m + 1] == [s[0]] + s[1..][..m];
      m + 1
  }

  /** `str.split()` with no separator: the maximal runs of non-whitespace, in order. */
  function Split(s: string): (words: seq<string>)
    decreases |s|
  {
    var t := StripStart(s);
    if |t| == 0 then []
    else
      var n := WordLength(t);
      [t[..n]] + Split(t[n..])
  }

  /** Every piece `split` produces is a word: non-empty and free of whitespace. */
  lemma {:induction false} SplitAreWords(s: string)
    ensures AreWords(Split(s))
    decreases |s|
  {
    var t := StripStart(s);
    if |t| > 0 {
      var n := WordLength(t);
      SplitAreWords(t[n..]);
      AreWordsCons(t[..n], Split(t[n..]));
    }
  }

  lemma AreWordsCons(w: string, ws: seq<string>)
    requires |w| > 0 && NoSpace(w) && AreWords(ws)
    ensures AreWords([w] + ws)
  {
    forall k | 0 < k < |ws| + 1
      ensures |([w] + ws)[k]| > 0 && NoSpace(([w] + ws)[k])
    {
      assert ([w] + ws)[k] == ws[k - 1];
    }
  }

  /** A string has at most as many words as characters. */
  lemma {:induction false} SplitCount(s: string)
    ensures |Split(s)| <= |s|
    decreases |s|
  {
    var t := StripStart(s);
    if |t| > 0 {
      SplitCount(t[WordLength(t)..]);
    }
  }

  /** `" ".join(words)`. */
  function JoinSpaces(words: seq<string>): string
  {
    Join(words, " ")
  }

  /** `sep.join(parts)`. */
  function Join(parts: seq<string>, sep: string): (r: string)
    ensures |parts| == 0 ==> r == []
    ensures |parts| == 1 ==> r == parts[0]
    decreases |parts|
  {
    if |parts| == 0 then []
    else if |parts| == 1 then parts[0]
    else parts[0] + sep + Join(parts[1..], sep)
  }

  lemma JoinCons(parts: seq<string>, sep: string)
    requires |parts| > 1
    ensures Join(parts, sep) == parts[0] + sep + Join(parts[1..], sep)
  {
  }

  /** Joining one more part appends the separator and that part. */
  lemma {:induction false} JoinSnoc(parts: seq<string>, x: string, sep: string)
    requires |parts| > 0
    ensures Join(parts + [x], sep) == Join(parts, sep) + sep + x
    decreases |parts|
  {
    var all := parts + [x];
    if |parts| == 1 {
      assert all[1..] == [x];
    } else {
      assert all[1..] == parts[1..] + [x];
      JoinSnoc(parts[1..], x, sep);
      JoinCons(all, sep);
      JoinCons(parts, sep);
    }
  }

  /** `t` occurs in `s` as a contiguous slice. */
  ghost predicate Contains(s: string, t: string)
  {
    exists off :: OccursAt(s, t, off)
  }

  ghost predicate OccursAt(s: string, t: string, off: int)
  {
    0 <= off <= |s| - |t| && s[off..off + |t|] == t
  }

  lemma ContainsPrefix(a: string, b: string)
    ensures Contains(a + b, a)
  {
    assert (a + b)[0..|a|] == a;
    assert OccursAt(a + b, a, 0);
  }

  lemma ContainsShift(a: string, b: string, t: string)
    requires Contains(b, t)
    ensures Contains(a + b, t)
  {
    var off :| OccursAt(b, t, off);
    var o := |a| + off;
    assert (a + b)[o..o + |t|] == b[off..off + |t|];
    assert OccursAt(a + b, t, o);
  }

  /** Every part occurs verbatim in the joined string. */
  lemma {:induction false} JoinHasParts(parts: seq<string>, sep: string)
    ensures forall k :: 0 <= k < |parts| ==> Contains(Join(parts, sep), parts[k])
    decreases |parts|
  {
    if |parts| == 1 {
      ContainsPrefix(parts[0], []);
      assert parts[0] + [] == parts[0];
    } else if |parts| > 1 {
      var rest := Join(parts[1..], sep);
      var r := Join(parts, sep);
      JoinHasParts(parts[1..], sep);
      assert r == parts[0] + (sep + rest);
      forall k | 0 <= k < |parts|
        ensures Contains(r, parts[k])
      {
        if k == 0 {
          ContainsPrefix(parts[0], sep + rest);
        } else {
          assert parts[k] == parts[1..][k - 1];
          ContainsShift(sep, rest, parts[k]);
          ContainsShift(parts[0], sep + rest, parts[k]);
        }
      }
    }
  }

  /** A leading whitespace character never changes the split. */
  lemma SplitSpaceCons(c: char, s: string)
    requires IsSpace(c)
    ensures Split([c] + s) == Split(s)
  {
    assert ([c] + s)[1..] == s;
  }

  /** A word followed by a space splits off as the first word. */
  lemma SplitWordSpace(w: string, rest: string)
    requires |w| > 0 && NoSpace(w)
    ensures Split(w + " " + rest) == [w] + Split(rest)
  {
    var s := w + " " + rest;
    assert s == w + ([' '] + rest);
    assert !IsSpace(s[0]);
    assert StripStart(s) == s;
    WordLengthOfWord(w, [' '] + rest);
    assert s[..|w|] == w;
    assert s[|w|..] == [' '] + rest;
    SplitSpaceCons(' ', rest);
  }

  /** A single word splits to itself. */
  lemma SplitWord(w: string)
    requires |w| > 0 && NoSpace(w)
    ensures Split(w) == [w]
  {
    assert !IsSpace(w[0]);
    assert StripStart(w) == w;
    WordLengthOfWord(w, []);
    assert w + [] == w;
    assert w[..|w|] == w;
    assert w[|w|..] == [];
  }

  /** Each word is non-empty and free of whitespace: what `split` can produce. */
  ghost predicate AreWords(words: seq<string>)
  {
    forall k :: 0 <= k < |words| ==> |words[k]| > 0 && NoSpace(words[k])
  }

  /** Splitting words joined by single spaces gives the words back. */
  lemma {:induction false} SplitJoinSpaces(words: seq<string>)
    requires AreWords(words)
    ensures Split(JoinSpaces(words)) == words
    decreases |words|
  {
    if |words| == 1 {
      SplitWord(words[0]);
    } else if |words| > 1 {
      AreWordsTail(words);
      SplitJoinSpaces(words[1..]);
      HeadTail(words);
      SplitJoinStep(words[0], words[1..]);
    }
  }

  lemma AreWordsTail(words: seq<string>)
    requires |words| > 0 && AreWords(words)
    ensures |words[0]| > 0 && NoSpace(words[0]) && AreWords(words[1..])
  {
    forall k | 0 <= k < |words| - 1
      ensures |words[1..][k]| > 0 && NoSpace(words[1..][k])
    {
      assert words[1..][k] == words[k + 1];
    }
  }

  lemma HeadTail<T>(s: seq<T>)
    requires |s| > 0
    ensures s == [s[0]] + s[1..]
  {
  }

  lemma SplitJoinStep(w: string, tl: seq<string>)
    requires |w| > 0 && NoSpace(w) && |tl| > 0
    requires Split(JoinSpaces(tl)) == tl
    ensures Split(JoinSpaces([w] + tl)) == [w] + tl
  {
    var words := [w] + tl;
    assert words[0] == w && words[1..] == tl;
    JoinCons(words, " ");
    SplitCons(w, tl, JoinSpaces(tl), JoinSpaces(words));
  }

  lemma SplitCons(w: string, tl: seq<string>, j: string, whole: string)
    requires |w| > 0 && NoSpace(w) && Split(j) == tl && whole == w + " " + j
    ensures Split(whole) == [w] + tl
  {
    SplitWordSpace(w, j);
  }

  /** The leading word of `w + t` is `w` when `t` is empty or begins with whitespace. */
  lemma {:induction false} WordLengthOfWord(w: string, t: string)
    requires NoSpace(w)
    requires |t| == 0 || IsSpace(t[0])
    ensures WordLength(w + t) == |w|
    decreases |w|
  {
    if |w| > 0 {
      assert (w + t)[1..] == w[1..] + t;
      WordLengthOfWord(w[1..], t);
    } else {
      assert w + t == t;
    }
  }

  /** `s * n` in Python: `n` copies of `s` one after another. */
  function Repeat(s: string, n: nat): (r: string)
    ensures |r| == |s| * n
  {
    if n == 0 then [] else s + Repeat(s, n - 1)
  }

  /** Repeating a word followed by a space `n` times gives exactly `n` words. */
  lemma {:induction false} SplitRepeatWord(w: string, n: nat)
    requires |w| > 0 && NoSpace(w)
    ensures Split(Repeat(w + " ", n)) == Repeat1(w, n)
    decreases n
  {
    if n > 0 {
      SplitRepeatWord(w, n - 1);
      SplitRepeatStep(w, n);
    }
  }

  lemma SplitRepeatStep(w: string, n: nat)
    requires |w| > 0 && NoSpace(w) && n > 0
    requires Split(Repeat(w + " ", n - 1)) == Repeat1(w, n - 1)
    ensures Split(Repeat(w + " ", n)) == Repeat1(w, n)
  {
    RepeatCons(w + " ", n);
    Repeat1Cons(w, n);
    SplitCons(w, Repeat1(w, n - 1), Repeat(w + " ", n - 1), Repeat(w + " ", n));
  }

  lemma RepeatCons(s: string, n: nat)
    requires n > 0
    ensures Repeat(s, n) == s + Repeat(s, n - 1)
  {
  }

  lemma Repeat1Cons(w: string, n: nat)
    requires n > 0
    ensures Repeat1(w, n) == [w] + Repeat1(w, n - 1)
  {
  }

  /** `[w] * n` in Python. */
  function Repeat1(w: string, n: nat): (r: seq<string>)
    ensures |r| == n
    ensures forall k :: 0 <= k < n ==> r[k] == w
  {
    if n == 0 then [] else [w] + Repeat1(w, n - 1)
  }

  predicate IsDigit(c: char)
  {
    '0' <= c <= '9'
  }

  ghost predicate AllDigits(s: string)
  {
    forall i :: 0 <= i < |s| ==> IsDigit(s[i])
  }

  function DigitChar(d: nat): (c: char)
    requires d < 10
    ensures IsDigit(c) && c as int - '0' as int == d
  {
    ('0' as int + d) as char
  }

  /** The value of one decimal digit; only digits are ever passed in. */
  function DigitValue(c: char): (d: nat)
    ensures d < 10
  {
    if IsDigit(c) then c as int - '0' as int else 0
  }

  /** `int(ds)` for a string of ASCII digits (leading zeros allowed). */
  function ParseDigits(ds: string): nat
    decreases |ds|
  {
    if |ds| == 0 then 0
    else ParseDigits(ds[..|ds| - 1]) * 10 + DigitValue(ds[|ds| - 1])
  }

  /** `str(n)` for a natural number: decimal digits, no leading zero. */
  function NatToString(n: nat): (r: string)
    ensures |r| >= 1 && AllDigits(r)
    ensures |r| > 1 ==> r[0] != '0'
    decreases n
  {
    if n < 10 then [DigitChar(n)]
    else
      var p := NatToString(n / 10);
      assert (p + [DigitChar(n % 10)])[0] == p[0];
      p + [DigitChar(n % 10)]
  }

  /** `int(str(n)) == n`. */
  lemma {:induction false} ParseNatToString(n: nat)
    ensures ParseDigits(NatToString(n)) == n
    decreases n
  {
    if n >= 10 {
      var p := NatToString(n / 10);
      var r := p + [DigitChar(n % 10)];
      assert r[..|r| - 1] == p;
      ParseNatToString(n / 10);
    }
  }

  /** `str(n)` is the only rendering of `n` without a leading zero: distinct numbers print differently. */
  lemma NatToStringInjective(m: nat, n: nat)
    requires NatToString(m) == NatToString(n)
    ensures m == n
  {
    ParseNatToString(m);
    ParseNatToString(n);
  }

  /** `str(i)` for any integer: a minus sign before the digits of a negative number. */
  function IntToString(i: int): (r: string)
    ensures |r| >= 1
    ensures i < 0 <==> r[0] == '-'
  {
    if i < 0 then "-" + NatToString(-i) else NatToString(i)
  }
}
